=== FILE: README.md ===
# db2pgpy core, modelled in Dafny

db2pgpy migrates a DB2 database to PostgreSQL. For each listed table it does the following:

- reads the table's definition from the DB2 catalog (SYSCAT views);
- renders PostgreSQL DDL for the table, its primary key, foreign keys and indexes;
- creates the table;
- copies the rows in batches while a checkpoint file records progress;
- compares row counts on both sides.

Around this pipeline are several other components:

- a configuration validator;
- the two database connectors: connection strings, the connect retry loop, the row-chunking generator and `bulk_insert`;
- a DB2→PostgreSQL type-name converter;
- a converter that rewrites procedure text from DB2 SQL PL to PL/pgSQL and records warnings;
- extractors for procedures, views and sequences;
- a sequence manager that creates PostgreSQL sequences and moves them past the migrated data.

This project models those components as pure Dafny functions and methods over immutable data. One module per source file:

| module | source |
|---|---|
| `Progress` | `db2pgpy/progress.py` |
| `DataTransfer` | `db2pgpy/data_transfer.py` |
| `SequenceManager` | `db2pgpy/sequence_manager.py` |
| `Migrator` | `db2pgpy/migrator.py` |
| `Validator` | `db2pgpy/validator.py` |
| `TypeConverter` | `db2pgpy/converters/types.py` |
| `SchemaConverter` | `db2pgpy/converters/schema.py` |
| `PlsqlConverter` | `db2pgpy/converters/plsql.py` |
| `Configuration` | `db2pgpy/config.py` |
| `Connection`, `Db2Connector` | `db2pgpy/connectors/db2.py` |
| `Connection`, `PostgresConnector` | `db2pgpy/connectors/postgres.py` |
| `Catalog`, `SchemaExtractor` | `db2pgpy/extractors/schema.py` |
| `Catalog`, `ProcedureExtractor` | `db2pgpy/extractors/procedures.py` |
| `Catalog`, `ViewExtractor` | `db2pgpy/extractors/views.py` |
| `Catalog`, `SequenceExtractor` | `db2pgpy/extractors/sequences.py` |

The shared helper modules are:

- `Wrappers`: `Option`, `Result` and `Outcome`;
- `Text`: ASCII case mapping, Python's `strip`, `replace`, `join` and `split`, integer numerals, and reading back double-quoted identifiers;
- `OrderedDict`: Python's insertion-ordered `dict` as a sequence of pairs, with the grouping loop that `extract_indexes` and `sync_all_sequences_in_schema` use.

The model replaces the program's side effects as follows:

- **Database drivers.** Every query, DDL statement or connect attempt becomes an oracle function parameter that gives the statement's result or error.
- **Calls the code makes.** These are returned as a trace: a sequence of call records.
- **Python exceptions.** These become `Result` / `Outcome` values. A collaborator's exception in `run_migration` stops the run, since nothing catches it.
- **The checkpoint file.** It is a value that `save` overwrites, and the tracker keeps the list of snapshots it has written.
- **Timestamps.** `now` is a parameter.
- **Percentages and the success rate.** These are `real`s, with no rounding.
- **Regular expressions in the procedure-text converter.** Pattern search and substitution are uninterpreted function parameters.
- **The one regular expression of the type converter** (`([A-Z\s]+)\s*\((.+)\)`, applied with `re.match`). It is modelled exactly: a maximal leading run of upper-case letters and whitespace, a `(`, then everything up to the last `)` before the first line break.

## Model

| member | source | states |
|---|---|---|
| Progress.Open | db2pgpy/progress.py:11-37 | A new tracker starts from the stored snapshot when the state file decodes, and from the initial state (phase `not_started`, nothing completed, no tables) when it is missing or does not decode |
| Progress.Save | db2pgpy/progress.py:39-47 | After a save the file holds exactly the in-memory state, stamped with the time, and one snapshot is appended to the save log |
| Progress.SetPhase | db2pgpy/progress.py:58-66 | After `set_phase(p)` the phase reads back as p, completed phases and tables are unchanged, and the state is persisted |
| Progress.MarkCompleted | db2pgpy/progress.py:68-89 | The phase is completed afterwards and no other phase changes status. Re-marking a completed phase leaves the tracker identical, so there is no save. Otherwise the phase is appended once, keeping the list duplicate-free, and saved |
| Progress.Percentage | db2pgpy/progress.py:103 | The percentage times the total equals migrated × 100 for a positive total, and is 0 otherwise |
| Progress.UpdateTableProgress | db2pgpy/progress.py:91-106 | Only this table's entry changes, to the given migrated and total counts with their percentage. Phase and completed phases are kept, and the state is saved |
| Progress.UpdateProgress | db2pgpy/progress.py:108-120 | The table's entry becomes the given rows with their percentage and the time stamp. An existing entry keeps its total; a new entry takes the rows as its total. Other tables, the phase and the completed phases are untouched, and one save persists the state |
| Progress.Reset | db2pgpy/progress.py:143-151 | After reset the phase is `not_started`, no phase is completed, no table has progress, and the state is persisted |
| Progress.GetSummary | db2pgpy/progress.py:153-176 | Total tables is the number of entries and bounds completed tables. Phase fields are copied, and the overall percentage is 0 when there are no rows |
| Progress.DoneBounded | db2pgpy/progress.py:160-162 | The count of tables whose migrated count equals their total lies between 0 and the number of tables |
| Progress.AllDoneSummary | db2pgpy/progress.py:160-166 | When every table has migrated its total, every table counts as completed and the migrated sum equals the total sum |
| Progress.NewTableSummary | db2pgpy/progress.py:91-106 | Recording a new table adds one table and its counts to the summary's table count and row sums |
| Progress.ReopenResumes | db2pgpy/progress.py:30-47 | Reopening the file of a persisted tracker restores the same phase, completed phases and table progress |
| Progress.StepKeepsInvariant | db2pgpy/progress.py:58-151 | Every mutator keeps table keys unique and completed phases duplicate-free, and every effective mutator leaves the file equal to the state |
| Progress.RunKeepsInvariant | db2pgpy/progress.py:39-151 | Any non-empty run of calls leaves a well-formed state whose last save equals the in-memory state |
| DataTransfer.NonEmpty | db2pgpy/data_transfer.py:42-44 | The skipped-empty batch list has only non-empty batches and the same total row count |
| DataTransfer.TransferTable | db2pgpy/data_transfer.py:26-59 | The transfer succeeds exactly when every non-empty batch inserts, and then `rows_transferred` is the total row count and the calls are one fetch with the configured batch size followed by the per-batch trace. Otherwise the first failing insert's error propagates, and the trace stops right after that insert |
| DataTransfer.CopyUntilTrace | db2pgpy/data_transfer.py:42-52 | With every insert passing, the copy loop gives the total and the full trace. With a first failing batch k, it gives that insert's error and the trace of the first k batches plus the failing insert, with no progress report for it |
| DataTransfer.CopyCallsAt | db2pgpy/data_transfer.py:42-52 | The trace has two calls per non-empty batch. The k-th non-empty batch is inserted unchanged, then progress is reported with the cumulative rows of the first k+1 non-empty batches |
| DataTransfer.CumulativeIncreasing | db2pgpy/data_transfer.py:45-52 | Reported cumulative totals strictly increase from one report to the next |
| DataTransfer.LastReportIsTotal | db2pgpy/data_transfer.py:42-57 | When any row is copied, the last call reports exactly `rows_transferred` |
| DataTransfer.NoRowsNoCalls | db2pgpy/data_transfer.py:37-47 | A source with no rows gives no inserts and no progress reports |
| DataTransfer.TransferTables | db2pgpy/data_transfer.py:61-77 | Succeeds exactly when every listed table transfers. Then the result maps each listed table, and nothing else, to its `transfer_table` statistics, and the calls are those of each table in list order. Otherwise the first failing table's error propagates after the full traces of the tables before it and the partial trace of that table |
| DataTransfer.ApplyReportsReplay | db2pgpy/data_transfer.py:45-52 | Feeding a table's trace to the progress tracker equals replaying `update_progress` once per non-empty batch with the cumulative count |
| DataTransfer.FreshTableProgress | db2pgpy/data_transfer.py:45-52 | For a table the tracker had not seen, the reports leave migrated = all rows. The total is fixed by the first report at the first batch's size |
| DataTransfer.KnownTableProgress | db2pgpy/data_transfer.py:45-52 | For a table the tracker already has, whatever its recorded count, the reports of a copy starting from `base` move migrated to base + all rows when any row is copied, leave the entry as it was otherwise, and always keep its total |
| SequenceManager.SequenceName | db2pgpy/sequence_manager.py:98 | The name is the ASCII-lower-cased `table_column_seq`, and the same name is used by create and sync |
| SequenceManager.GetMaxSequenceInfo | db2pgpy/sequence_manager.py:24-54 | Info exists exactly when the MAXSEQUENCE query succeeds with a row, and then carries the first row's column and MAXRESERVED |
| SequenceManager.GetMaxValueFromTable | db2pgpy/sequence_manager.py:56-77 | A successful query whose first row holds a non-NULL MAX gives that value; a failed query, no row or a NULL gives 0 |
| SequenceManager.FallbackStart | db2pgpy/sequence_manager.py:110 | The fallback start is max+1 for a positive max and 1 otherwise, so it is always at least 1 and above the maximum |
| SequenceManager.ChooseStart | db2pgpy/sequence_manager.py:100-111 | An explicit start is used verbatim without queries. Otherwise MAXRESERVED+1 is used when the MAXSEQUENCE row names the column (NULL raises). Else, after a second query, the start is the table's max+1 for a positive max and 1 otherwise |
| SequenceManager.StartAgreesWithSync | db2pgpy/sequence_manager.py:100-111 | When both databases report the same positive maximum, the start chosen from the DB2 data equals the value that the later sync sets with `setval` |
| SequenceManager.CreateSequenceForColumn | db2pgpy/sequence_manager.py:79-155 | The result is None exactly when CREATE SEQUENCE fails, and then nothing more is issued. Otherwise the default and ownership DDL follow and the name is returned whatever they do |
| SequenceManager.CreateSequencesForTable | db2pgpy/sequence_manager.py:157-186 | No PK columns gives [] with no calls. Otherwise the names of the columns whose creation succeeded are returned in PK order, at most one per column |
| SequenceManager.SyncSequenceAfterInsert | db2pgpy/sequence_manager.py:188-231 | The max query is always issued first. A setval follows exactly when the table has a non-NULL max, setting max+1. The result is true unless a query fails |
| SequenceManager.SyncIgnoresSchema | db2pgpy/sequence_manager.py:188-231 | The schema argument has no effect on sync |
| SequenceManager.SyncSequencesForTable | db2pgpy/sequence_manager.py:233-261 | The count is the number of PK columns whose sync succeeds and never exceeds their number. No PK columns gives 0 with no calls |
| SequenceManager.GetAllSequences | db2pgpy/sequence_manager.py:301-338 | A failed catalog query gives no sequences; otherwise the query's rows |
| SequenceManager.FilterByTables | db2pgpy/sequence_manager.py:364-365 | A sequence is kept exactly when its table is listed |
| SequenceManager.FilterByTablesCount | db2pgpy/sequence_manager.py:364-365 | Each sequence row is kept as many times as it occurs when its table is listed, and not at all otherwise |
| SequenceManager.FilterByTablesAppend | db2pgpy/sequence_manager.py:364-365 | Filtering a concatenation filters each part and keeps their order |
| SequenceManager.SyncGroups | db2pgpy/sequence_manager.py:377-396 | Synced plus failed equals the number of grouped sequences |
| SequenceManager.SyncGroupsInOrder | db2pgpy/sequence_manager.py:377-396 | Syncing the groups table by table is the same as syncing the sequences one by one in table-first-appearance order: same counts, same calls |
| SequenceManager.SyncOrderPermutation | db2pgpy/sequence_manager.py:377-396 | The table-grouped order is a permutation of the selected sequences: every sequence is synced once, none is added or lost |
| SequenceManager.SyncAllSequencesInSchema | db2pgpy/sequence_manager.py:340-398 | No sequences gives all zeros after the one discovery query. Otherwise the total is the filtered count, synced + failed = total, skipped is 0, and the calls after the discovery query are the per-sequence syncs of the selected sequences grouped by table |
| Migrator.PhasesOf | db2pgpy/migrator.py:90-97 | Transfer runs exactly when the mode is not `schema_only`; validation exactly when transfer runs and validation is enabled |
| Migrator.PrimaryKeyStep | db2pgpy/migrator.py:85-87 | Primary-key DDL is executed exactly when the PK list is non-empty, and it is the rendered ALTER TABLE statement |
| Migrator.Plan | db2pgpy/migrator.py:64-97 | Each table goes through the four extractions, then CREATE TABLE, then PK DDL when present, then transfer and validation as the phases allow |
| Migrator.Perform | db2pgpy/migrator.py:64-99 | Steps run in order and stop at the first raising step, whose error is reported. Without a raise, every step runs |
| Migrator.Loop | db2pgpy/migrator.py:64-99 | The migrated count never exceeds the table count and equals it when nothing raised |
| Migrator.RunMigration | db2pgpy/migrator.py:46-109 | A run returns a summary exactly when nothing raised, with status `completed` and one table counted per listed table. Otherwise it propagates the error |
| Migrator.TablesInOrder | db2pgpy/migrator.py:64-99 | The run completes exactly when every table's pipeline completes, and its trace is the tables' traces in list order |
| Migrator.RaiseStopsRun | db2pgpy/migrator.py:64-99 | When table k raises, the run stops there with that error, and later tables are not attempted |
| Migrator.CreateTableEveryMode | db2pgpy/migrator.py:76-82 | Once extraction succeeds, the fifth step of every mode executes the CREATE TABLE rendered by `generate_create_table_ddl` as written |
| Migrator.PhasesOfTable | db2pgpy/migrator.py:64-99 | In a completed table pipeline, transfer appears exactly when the mode is not `schema_only`, and validation exactly when validation is also enabled |
| Migrator.SummaryIgnoresValidation | db2pgpy/migrator.py:95-99 | Row-count validation results that succeed or fail alike give the same summary |
| Migrator.NoTables | db2pgpy/migrator.py:57-58 | A request without `tables` completes with zero tables and no calls |
| Validator.ValidateRowCounts | db2pgpy/validator.py:26-40 | Each side is counted with its own schema, and the result is valid exactly when the two counts are equal |
| Validator.ValidateTableStructure | db2pgpy/validator.py:42-68 | Column counts match exactly when the lengths are equal, and the result is valid exactly when the name lists are equal in order. Both lengths are reported |
| Validator.AgreementsAll | db2pgpy/validator.py:86-88 | All n compared positions agree exactly when the agreement count reaches n |
| Validator.ValidateSampleData | db2pgpy/validator.py:70-96 | Total is the shorter length, and matched counts equal positions and is at most total. Valid holds exactly when every compared row is equal |
| Validator.Status | db2pgpy/validator.py:118-119 | A check reads PASS exactly when `is_valid` is true; a missing or false value reads FAIL |
| Validator.CheckLines | db2pgpy/validator.py:121-127 | A check gives its status line, plus a count line for `row_count` |
| Validator.TableLines | db2pgpy/validator.py:114-129 | A table section opens with `Table: name` and ends with a blank line around its check lines |
| Validator.SectionTitle | db2pgpy/validator.py:113-114 | There is one `Table: name` line per table, in the results' order |
| Validator.ReportSplits | db2pgpy/validator.py:107-131 | Splitting the report on line breaks gives back exactly the header, section and check lines |
| TypeConverter.MapType | db2pgpy/converters/types.py:10-51 | Known DB2 names map through the table and unknown ones fall back to TEXT |
| TypeConverter.MatchParameterised | db2pgpy/converters/types.py:67 | A match's first group is a non-empty run of letters and whitespace and its second a non-empty text without line breaks. The input starts with the first group, `(`, the second group and `)` |
| TypeConverter.ConvertIgnoresCase | db2pgpy/converters/types.py:64 | Inputs equal up to ASCII case convert identically |
| TypeConverter.ConvertUnparameterised | db2pgpy/converters/types.py:64-88 | Without a parenthesis, the stripped upper-cased name goes through the map |
| TypeConverter.MatchBaseParams | db2pgpy/converters/types.py:67-70 | `BASE(params)` with a letters-only base matches with exactly those two groups |
| TypeConverter.ConvertParameterised | db2pgpy/converters/types.py:67-84 | DECIMAL/DEC(p) gives NUMERIC(p) and BINARY/VARBINARY(p) gives BYTEA. Any other base gives its mapped name with `(p)` kept |
| TypeConverter.NumericNotString | db2pgpy/converters/types.py:90-129 | No type name is both numeric and string |
| TypeConverter.ConvertedDecimalIsNumeric | db2pgpy/converters/types.py:90-110 | A converted DECIMAL(p) is classed numeric |
| TypeConverter.ConvertedVarcharIsString | db2pgpy/converters/types.py:112-129 | A converted VARCHAR(p) is classed string |
| TypeConverter.BaseNameOf | db2pgpy/converters/types.py:100-101 | The classification reads the letters-only base in front of the parameters |
| SchemaConverter.ConvertDefaultAsWritten | db2pgpy/converters/schema.py:18-59 | An empty default stays empty. USER and CURRENT SCHEMA, trimmed and in any ASCII case, become CURRENT_USER and CURRENT_SCHEMA(), and NULL stays NULL |
| SchemaConverter.NoSpacedRegisters | db2pgpy/converters/schema.py:32-57 | Whatever the default, the converted value contains no `CURRENT DATE` and no `CURRENT TIME`, so no spaced DB2 special register reaches PostgreSQL |
| SchemaConverter.RewrittenDefault | db2pgpy/converters/schema.py:32-44 | Any other default is the result of the keyword replacements, applied in order |
| SchemaConverter.DefaultWithoutSpaceUnchanged | db2pgpy/converters/schema.py:32-59 | A default without spaces that is not USER or NULL comes back unchanged |
| SchemaConverter.TimezoneAsWritten | db2pgpy/converters/schema.py:41-44 | As written, CURRENT TIMEZONE becomes `CURRENT_TIMEZONE`, because the CURRENT TIME replacement runs first |
| SchemaConverter.TimezoneCorrected | db2pgpy/converters/schema.py:41-44 | With the replacements in their intended order, CURRENT TIMEZONE becomes CURRENT_TIMESTAMP |
| SchemaConverter.TimestampCorrected | db2pgpy/converters/schema.py:35-36 | CURRENT TIMESTAMP still becomes CURRENT_TIMESTAMP with the corrected order |
| SchemaConverter.SmallSerialUnreachable | db2pgpy/converters/schema.py:79-84 | As written, no converted type yields SMALLSERIAL |
| SchemaConverter.IdentityTypeAsWrittenChoice | db2pgpy/converters/schema.py:76-89 | As written: BIGSERIAL exactly when the type mentions BIGINT, SERIAL exactly for the rest mentioning INT (SMALLINT included), never SMALLSERIAL, and the type plus GENERATED ALWAYS AS IDENTITY exactly when it mentions no INT |
| SchemaConverter.IdentityOfIntegerTypes | db2pgpy/converters/schema.py:79-87 | As written, BIGINT becomes BIGSERIAL, and INTEGER and SMALLINT both become SERIAL |
| SchemaConverter.IdentityTypeChoice | db2pgpy/converters/schema.py:76-89 | With the tests reordered: BIGSERIAL exactly when the type mentions BIGINT, SMALLSERIAL exactly for the rest mentioning SMALLINT, SERIAL for the rest mentioning INT, and the identity clause exactly when it mentions no INT |
| SchemaConverter.CorrectedIdentityOfIntegerTypes | db2pgpy/converters/schema.py:79-87 | With the tests reordered, BIGINT, INTEGER and SMALLINT get BIGSERIAL, SERIAL and SMALLSERIAL |
| SchemaConverter.ColumnDefNotNull | db2pgpy/converters/schema.py:103-104 | NOT NULL is appended exactly when the column is not nullable |
| SchemaConverter.ColumnDefDefault | db2pgpy/converters/schema.py:91-100 | A non-identity column with a default gets one DEFAULT clause holding the as-written converted value; an identity column ignores its default |
| SchemaConverter.ColumnDefName | db2pgpy/converters/schema.py:73-100 | A column definition starts with the quoted column name |
| SchemaConverter.ColumnDefs | db2pgpy/converters/schema.py:73-106 | There is one definition per column, in column order |
| SchemaConverter.CreateTableDdl | db2pgpy/converters/schema.py:108-114 | No columns renders `CREATE TABLE "t" ();` |
| SchemaConverter.CreateTableColumns | db2pgpy/converters/schema.py:108-114 | With columns, the body is the as-written column definitions joined by the column separator |
| SchemaConverter.CreateTableSnoc | db2pgpy/converters/schema.py:106-114 | Adding a column appends its as-written definition after a separator, just before the closing `);` |
| SchemaConverter.CreateTableName | db2pgpy/converters/schema.py:108-114 | The first quoted identifier of the CREATE TABLE statement is the table name |
| SchemaConverter.PrimaryKeyNames | db2pgpy/converters/schema.py:116-128 | The quoted identifiers of the PK statement are the table, then the PK columns in order |
| SchemaConverter.ForeignKeyNames | db2pgpy/converters/schema.py:130-148 | The quoted identifiers of the FK statement are the table, constraint, column, referenced table and referenced column |
| SchemaConverter.IndexDdl | db2pgpy/converters/schema.py:150-168 | The statement starts with CREATE UNIQUE exactly when the index is unique |
| SchemaConverter.IndexNames | db2pgpy/converters/schema.py:159-168 | The quoted identifiers of the index statement are the index name, the table, then the columns in order |
| PlsqlConverter.DetectFeatures | db2pgpy/converters/plsql.py:193-207 | A feature is reported exactly when some complex pattern for it matches, with at most one report per pattern |
| PlsqlConverter.DetectAppend | db2pgpy/converters/plsql.py:202-207 | Features are reported in pattern-list order |
| PlsqlConverter.TransitionTablesReportedTwice | db2pgpy/converters/plsql.py:70-87 | The two transition-table patterns share a label, so a definition matching both reports it twice |
| PlsqlConverter.ApplyFirst | db2pgpy/converters/plsql.py:126-128 | The replacements run in list order, each on the previous output |
| PlsqlConverter.ConvertProcedure | db2pgpy/converters/plsql.py:98-143 | A missing definition gives empty code and one warning, with nothing saved. Otherwise the result is the header plus rewritten text, and a failed-conversion record is saved exactly when there are warnings |
| PlsqlConverter.ManualReviewIffFeatures | db2pgpy/converters/plsql.py:117-123 | A procedure's warnings contain the manual-review line exactly when a feature was found, and then as the last warning after one line per feature |
| PlsqlConverter.ConvertFunction | db2pgpy/converters/plsql.py:145-191 | A function gets the same rewriting plus the RETURNS TABLE pass. It has one warning per feature and is saved exactly when warned |
| PlsqlConverter.FunctionNeverManualReview | db2pgpy/converters/plsql.py:164-170 | A function conversion never carries the manual-review line |
| PlsqlConverter.ConversionSummary | db2pgpy/converters/plsql.py:235-253 | Total is the result count and clean + with-warnings = total. The success rate lies in [0, 100] and is 0 when there are no results |
| PlsqlConverter.CountWithWarningsBounds | db2pgpy/converters/plsql.py:244-246 | No result is warned exactly when the count is 0, and every result is warned exactly when the count is the total |
| PlsqlConverter.FullSuccess | db2pgpy/converters/plsql.py:244-253 | The success rate is 100 exactly when there are results and none has warnings |
| Configuration.MissingKeys | db2pgpy/config.py:234-236 | A field is reported exactly when it is required and absent from the section |
| Configuration.MissingKeysInOrder | db2pgpy/config.py:234-245 | Missing fields are reported in the order host, port, database, user, password |
| Configuration.ValidateConfig | db2pgpy/config.py:218-247 | At most two errors per required field. A missing db2 section gives its error first, and a missing postgres section gives its error last |
| Configuration.ValidateConfigAccepts | db2pgpy/config.py:218-247 | No errors exactly when a db2 section and a postgres or postgresql section both have every required key |
| Configuration.NoDb2Section | db2pgpy/config.py:231-232 | A missing db2 section gives exactly its one error, followed only by the postgres errors |
| Configuration.Db2FieldsReported | db2pgpy/config.py:234-236 | A db2 field's error appears exactly when the field is required and missing |
| Configuration.PostgresPreferred | db2pgpy/config.py:239-242 | With both sections present, `postgres` is the one checked |
| Configuration.ValidateRequiredFields | db2pgpy/config.py:184-198 | Passes exactly when every field is present and not None; a failure names a required field |
| Configuration.NullPassesOnlyKeyCheck | db2pgpy/config.py:184-198 | A section whose host is None passes `validate_config`'s key check but fails `_validate_required_fields` on host |
| Configuration.Load | db2pgpy/config.py:81-181 | An empty document is refused. Loading succeeds exactly when the db2 and postgresql sections load, and their values are used |
| Configuration.LoadDefaults | db2pgpy/config.py:133-154 | Absent optional values default to mode full, batch size 1000, no continue-on-error, one worker, resume enabled, schema public and the default checkpoint file |
| Configuration.LoadedPassesValidation | db2pgpy/config.py:218-247 | A document that loads, and has no `postgres` section, passes validation |
| Configuration.PostgresSectionNotLoaded | db2pgpy/config.py:123-136 | A document with only a `postgres` section passes validation but fails to load |
| Connection.RequireConnected | db2pgpy/connectors/db2.py:95-96 | Only an open connection passes; otherwise the not-connected error is raised |
| Connection.Connect | db2pgpy/connectors/db2.py:59-76 | At most `max_retries` attempts are made, stopping at the first success. It re-raises the last error after `max_retries` failures and sleeps only between attempts |
| Connection.Disconnect | db2pgpy/connectors/postgres.py:66-71 | After disconnect there is no connection, and a close happened exactly when one was open |
| Db2Connector.ConnectionStringSplits | db2pgpy/connectors/db2.py:35-57 | The string splits on `;` into the parts for present keys, in DATABASE, HOSTNAME, PORT, UID, PWD order, then PROTOCOL=TCPIP |
| Db2Connector.PresentKeysWritten | db2pgpy/connectors/db2.py:42-57 | Every present key is written as KEYWORD=value |
| Db2Connector.AbsentKeysSkipped | db2pgpy/connectors/db2.py:42-57 | Absent keys contribute no part |
| Db2Connector.NamesFromRows | db2pgpy/connectors/db2.py:85-115 | Catalog name lists fail exactly when not connected or the query raises, with the not-connected error first. Otherwise they are the rows' names in order |
| Db2Connector.TypeString | db2pgpy/connectors/db2.py:148-152 | Length and scale types get a parenthesised suffix; other types are the bare name |
| Db2Connector.ColumnOf | db2pgpy/connectors/db2.py:154-160 | The column keeps the row's name and default, its type is the length- or scale-suffixed type string, nullable holds exactly when NULLS is `Y`, and identity exactly when IDENTITY is `Y` |
| Db2Connector.TableSchema | db2pgpy/connectors/db2.py:117-162 | Fails exactly when not connected or the catalog query raises, with that error. Otherwise it gives one column record per row, in order |
| Db2Connector.RowCount | db2pgpy/connectors/db2.py:164-183 | Fails exactly when not connected or the COUNT query raises, with that error. Otherwise a missing count row gives 0 and a row gives its count |
| Db2Connector.LengthTypeConverts | db2pgpy/connectors/db2.py:148-150 | A VARCHAR-like type string converts to its mapped name with the length kept |
| Db2Connector.ScaleTypeConverts | db2pgpy/connectors/db2.py:150-152 | A DECIMAL/NUMERIC type string converts to NUMERIC(length,scale) |
| Db2Connector.FetchBatches | db2pgpy/connectors/db2.py:222-251 | The batches concatenate to the rows in order and are all non-empty. Each holds at most batch-size rows, and all but the last hold exactly that many |
| PostgresConnector.ConnectionParamsRename | db2pgpy/connectors/postgres.py:26-45 | Parameters copy host, port, user and password, rename database to dbname, and never carry `database` |
| PostgresConnector.ParamsCopyKeys | db2pgpy/connectors/postgres.py:33-45 | Each target parameter holds the source key's value, absent when the key is absent |
| PostgresConnector.Execute | db2pgpy/connectors/postgres.py:73-134 | Without a connection the call raises; otherwise the driver's outcome is passed through |
| PostgresConnector.TableExists | db2pgpy/connectors/postgres.py:194-212 | An empty result gives false and a row gives its value. Failure happens exactly when not connected or the query fails |
| PostgresConnector.TableRowCount | db2pgpy/connectors/postgres.py:214-227 | An empty result gives 0 and a row gives its count. Failure happens exactly when not connected or the query fails |
| PostgresConnector.ExecuteBatch | db2pgpy/connectors/postgres.py:136-157 | Raises without a connection. One execution per row, in order; commits and returns the rowcount total exactly when all succeed |
| PostgresConnector.BulkInsert | db2pgpy/connectors/postgres.py:159-192 | Empty data gives 0 with no statement. Otherwise one INSERT per row uses the first row's arity; success commits and returns the rowcount total, and the first failure stops it |
| PostgresConnector.InsertPlaceholders | db2pgpy/connectors/postgres.py:176-180 | The INSERT statement has exactly as many placeholders as the row arity |
| Catalog.SystemExcludingFilter | db2pgpy/extractors/procedures.py:28-31 | A given schema filters on equality; otherwise `SYS%` schemas are excluded |
| Catalog.Scope | db2pgpy/extractors/views.py:71 | A nested lookup is restricted to the schema exactly when one is known |
| SchemaExtractor.ColumnOf | db2pgpy/extractors/schema.py:38-45 | Fields are copied, nullable holds exactly when NULLS is `Y`, and identity exactly when IDENTITY is `Y` |
| SchemaExtractor.ExtractTableSchema | db2pgpy/extractors/schema.py:18-47 | One column record per row, in order |
| SchemaExtractor.ExtractPrimaryKeys | db2pgpy/extractors/schema.py:49-70 | The COLNAME values in row order |
| SchemaExtractor.ExtractForeignKeys | db2pgpy/extractors/schema.py:72-110 | One record per row, with the four fields copied |
| SchemaExtractor.IndexesGrouped | db2pgpy/extractors/schema.py:133-144 | One index per distinct INDNAME, in first-appearance order. Its columns are its rows' columns in order, and it is unique from its first row |
| SchemaExtractor.IndexColumnTotal | db2pgpy/extractors/schema.py:133-144 | Across all indexes there are as many columns as rows |
| SchemaExtractor.EmptyResults | db2pgpy/extractors/schema.py:34-144 | Empty query results give empty outputs from all four extractors |
| ProcedureExtractor.Direction | db2pgpy/extractors/procedures.py:96-105 | O gives OUT and B gives INOUT; anything else, including I, gives IN |
| ProcedureExtractor.ExtractParams | db2pgpy/extractors/procedures.py:67-115 | One parameter per row, in order, with name, type, ordinal and length copied |
| ProcedureExtractor.ExtractProcedures | db2pgpy/extractors/procedures.py:18-65 | One procedure per routine row, in order. The definition comes from TEXT, and the parameters are looked up by specific name within the row's schema |
| ProcedureExtractor.ProceduresFilter | db2pgpy/extractors/procedures.py:28-31 | A given schema queries that schema; an empty or missing schema behaves as no schema |
| ViewExtractor.ViewFilter | db2pgpy/extractors/views.py:28-31 | A WHERE filter is present exactly when a schema is given |
| ViewExtractor.ExtractViewColumns | db2pgpy/extractors/views.py:61-91 | One column per row, in order, nullable exactly when NULLS is `Y` |
| ViewExtractor.ExtractViews | db2pgpy/extractors/views.py:18-59 | One view per row, in order, with name, schema and definition copied and its columns attached |
| ViewExtractor.ColumnsInViewSchema | db2pgpy/extractors/views.py:50-71 | A view with a known schema looks its columns up in that schema |
| SequenceExtractor.SequenceOf | db2pgpy/extractors/sequences.py:56-69 | Cycle and ordered hold exactly when CYCLE and ORDERED are `Y`. Name, schema, start, increment, min, max, cache, data type id, next cache value and sequence type are copied |
| SequenceExtractor.ExtractSequences | db2pgpy/extractors/sequences.py:18-71 | One record per row of the schema-filtered query, in order |

## Left out

- Drivers and SQL execution (`ibm_db`, `psycopg2`, cursors, commit and rollback) are oracle parameters. SQL text is not modelled beyond the DDL templates, the INSERT placeholders and the DB2 connection string.
- File and JSON I/O in `ProgressTracker._load`/`save`, `mkdir`, and the failed-conversion file written by `_save_failed_conversion`. The snapshot and the saved record are values.
- YAML parsing in `Config.load` and all of `load_config`. `Configuration.Load` starts from an already-parsed document.
- `time.time`, `datetime.now` and `time.sleep`: timestamps are a parameter. The retry loop counts its sleeps but does not model `retry_delay`. `time_taken` and `total_time` are not modelled.
- Progress.Percentage: the percentage is a real without `round(..., 2)`, because Python float rounding is not modelled. The same holds for `overall_percentage` in Progress.GetSummary. The unrounded `success_rate` of PlsqlConverter.ConversionSummary is likewise an exact real rather than a float.
- Progress.GetSummary: the contract states the table count, its bound on completed tables and the zero-rows case. The sums are stated by Progress.AllDoneSummary and Progress.NewTableSummary.
- The regex engine in the procedure-text converter: search and substitute are uninterpreted parameters, so which patterns match is not modelled.
- Logging (`setup_logger`, every `logger` call) and the `ImportError` fallback for `ibm_db`.
- `get_table_sequences` in the sequence manager: no other code uses it, and it only reshapes a catalog query's rows.
- The PostgreSQL connector's `get_table_schema` and both connectors' `fetch_sample_data`, used by the validator, are not part of this model. The validator takes their results as inputs, so `validate_table_structure`'s one-argument call is not modelled.
- Db2Connector.FetchBatches: models the chunking loop only. The not-connected guard in front of it is Connection.RequireConnected.
- The DB2 connector has no `execute_query` method, yet the extractors and the sequence manager call one; their queries are oracle parameters.
- `data_transfer.py:40` passes the batch size into the `schema` parameter of `fetch_table_data`. DataTransfer.TransferTable instead reads from an abstract batch source keyed by table and batch size, and Migrator treats the transfer as one step.
- DataTransfer.TransferTables: the insert oracle answers from the table name and the batch alone, not from the database state that earlier inserts leave. So a table listed twice, or two equal batches, insert alike both times, while the real second pass can fail on duplicate keys.
- DataTransfer.TransferTable: models a failing `bulk_insert`, but not a fetch that raises part-way through the batches, nor a failing progress save; both would propagate like the insert error.
- SequenceManager.SequenceName: lower-casing maps ASCII letters only, where Python's `lower()` maps all of Unicode.
- TypeConverter.Convert: upper-casing maps ASCII letters only, where Python's `upper()` maps all of Unicode. TypeConverter.ConvertIgnoresCase states case-insensitivity for ASCII case only, for the same reason.
- TypeConverter.IsNumeric and TypeConverter.IsString: the base name is upper-cased for ASCII letters only, as in TypeConverter.Convert.
- Migrator.RunMigration: a `tables` key present with the value None makes `len(tables)` raise `TypeError`. The request's `tables` field is optional only, so it has no such value.
- Validator.CheckLines: a `db2_count` or `pg_count` that is present but None renders as `None` in Python. The model renders a missing count as 0 and has no present-but-None count.
- TypeConverter.ConvertIgnoresCase: see TypeConverter.Convert; inputs differing in non-ASCII case are not claimed to convert alike.
- SchemaConverter.ConvertDefaultAsWritten: the USER, CURRENT SCHEMA and NULL tests upper-case ASCII letters only, where Python maps all of Unicode.
- Progress.Open: a state file that is not valid UTF-8 raises `UnicodeDecodeError` in `_load`, which is not caught there. The model has no such file: `Unreadable` stands only for the I/O and JSON errors that `_load` catches.
- Configuration.Load: integer settings given as text accept an optional sign and decimal digits with surrounding whitespace. Python's `int()` also accepts underscores between digits (`5_432`) and non-ASCII digits; the model refuses those.
- PlsqlConverter.ConvertProcedure: a routine name that is present but None is rendered as `UNKNOWN`. Python's `.get('name', 'UNKNOWN')` returns None there, and the f-string renders `None`. The same holds for PlsqlConverter.ConvertFunction.
- `generate_index_ddl` reads `index_info['table']`, which `extract_indexes` never records. The index record here carries a table field, and the orchestrator never renders indexes.
- Connection.Connect: models both connectors' retry loops with one method, parameterised by the attempt outcomes. The driver-specific connect arguments are not modelled.
- The command-line interface, the log formatter and packaging are not part of this model.
- Concurrency is not modelled: none exists, and `parallel_workers` is never read.

## Findings

| source | as written | input that shows it | evidently intended | confidence | as-written member | corrected member |
|---|---|---|---|---|---|---|
| db2pgpy/converters/schema.py:41-44 | `CURRENT TIME` is replaced before `CURRENT TIMEZONE`, so the later TIMEZONE replacement never matches | default `CURRENT TIMEZONE` renders `CURRENT_TIMEZONE`, which is not a PostgreSQL keyword | `CURRENT TIMEZONE` becomes `CURRENT_TIMESTAMP`, as its own replacement says | high, not executed | SchemaConverter.TimezoneAsWritten | SchemaConverter.TimezoneCorrected |
| db2pgpy/converters/schema.py:79-84 | the `INT`/`INTEGER` test comes before the `SMALLINT` test, and `INT` is contained in `SMALLINT` | a SMALLINT identity column becomes `SERIAL`; no type ever reaches `SMALLSERIAL` | SMALLINT identity columns become `SMALLSERIAL` | high, not executed | SchemaConverter.SmallSerialUnreachable | SchemaConverter.IdentityTypeChoice |

=== FILE: catalog.dfy ===
/** The records the catalog extractors produce and the DDL generator
    consumes. Keys that a consumer reads with a default (`col.get(...)`) are
    fields holding the value the default gives when the key is absent. */
module Catalog {
  import opened Wrappers

  /** A table column: `name`, `type`, `nullable`, `default`, `length` and
      `is_identity`. */
  datatype Column = Column(
    name: string,
    typ: string,
    nullable: bool,
    default: Option<string>,
    length: Option<int>,
    isIdentity: bool)

  /** A SYSCAT.COLUMNS row: COLNAME, TYPENAME, LENGTH, SCALE, NULLS,
      DEFAULT and IDENTITY (absent when the query does not select it). */
  datatype ColumnRow = ColumnRow(
    colname: string,
    typename: string,
    length: Option<int>,
    scale: Option<int>,
    nulls: string,
    default: Option<string>,
    identity: Option<string>)

  /** One foreign-key column pair. */
  datatype ForeignKey = ForeignKey(
    constraintName: string,
    column: string,
    referencedTable: string,
    referencedColumn: string)

  /** An index as the extractor groups it: no table name is recorded. */
  datatype Index = Index(name: string, columns: seq<string>, unique: bool)

  /** Python truthiness of an optional schema argument: `None` and the
      empty string both mean "no schema". */
  predicate Given(schema: Option<string>) {
    schema.Some? && schema.value != ""
  }

  /** The schema restriction of a catalog query: equality with a schema,
      exclusion of the `SYS%` schemas, or none at all. */
  datatype SchemaFilter = SchemaIs(schema: string) | NotSystem | Unfiltered

  /** The restriction `extract_procedures` and `extract_sequences` use. */
  function SystemExcludingFilter(schema: Option<string>): (f: SchemaFilter)
    ensures Given(schema) <==> f == SchemaIs(schema.GetOr(""))
    ensures !Given(schema) <==> f == NotSystem
  {
    if Given(schema) then SchemaIs(schema.value) else NotSystem
  }

  /** The schema a per-object lookup (parameters, view columns) is
      restricted to, if any. */
  function Scope(schema: Option<string>): (s: Option<string>)
    ensures s.Some? <==> Given(schema)
    ensures s.Some? ==> s == schema
  {
    if Given(schema) then schema else None
  }
}

=== FILE: configuration.dfy ===
/** Configuration checking and defaulting over an already-parsed YAML
    document: `validate_config`, `Config._validate_required_fields` and the
    construction in `Config.load`. A document is a dict of sections and
    every section a dict of scalar values. */
module Configuration {
  import opened Wrappers
  import opened Text
  import opened OrderedDict

  /** A scalar YAML value. */
  datatype Value = Null | Bool(b: bool) | Int(i: int) | Str(s: string) | Strs(items: seq<string>)

  type Section = Entries<string, Value>
  type Document = Entries<string, Section>

  /** The connection fields each database section needs, in checking order. */
  const RequiredFields: seq<string> := ["host", "port", "database", "user", "password"]

  function MissingFieldMessage(section: string, field: string): string {
    "Missing required field: " + section + "." + field
  }

  /* ---------------- validate_config ---------------- */

  /** The listed fields that are not keys of the section, in list order. */
  function MissingKeys(fields: seq<string>, section: Section): (r: seq<string>)
    ensures forall f {:trigger f in r} :: f in r <==> f in fields && f !in Keys(section)
    ensures |r| <= |fields|
  {
    if |fields| == 0 then []
    else (if fields[0] in Keys(section) then [] else [fields[0]]) + MissingKeys(fields[1..], section)
  }

  function FieldErrors(name: string, missing: seq<string>): (r: seq<string>)
    ensures |r| == |missing|
    ensures forall i :: 0 <= i < |missing| ==> r[i] == MissingFieldMessage(name, missing[i])
  {
    seq(|missing|, i requires 0 <= i < |missing| => MissingFieldMessage(name, missing[i]))
  }

  const MissingDb2 := "Missing 'db2' section"
  const MissingPostgres := "Missing 'postgres' or 'postgresql' section"

  function Db2Errors(doc: Document): seq<string> {
    match Get(doc, "db2")
    case None => [MissingDb2]
    case Some(section) => FieldErrors("db2", MissingKeys(RequiredFields, section))
  }

  /** The PostgreSQL section `validate_config` checks: `postgres` when
      present, otherwise `postgresql`. */
  function PostgresSectionName(doc: Document): Option<string> {
    if "postgres" in Keys(doc) then Some("postgres")
    else if "postgresql" in Keys(doc) then Some("postgresql")
    else None
  }

  function PostgresErrors(doc: Document): seq<string> {
    match PostgresSectionName(doc)
    case None => [MissingPostgres]
    case Some(name) =>
      assert Get(doc, name).Some?;
      FieldErrors(name, MissingKeys(RequiredFields, Get(doc, name).value))
  }

  /** `validate_config`: all problems of both sections, db2 first. */
  function ValidateConfig(doc: Document): (errors: seq<string>)
    ensures |errors| <= 2 * |RequiredFields|
    ensures "db2" !in Keys(doc) ==> |errors| > 0 && errors[0] == MissingDb2
    ensures PostgresSectionName(doc).None? ==> |errors| > 0 && errors[|errors| - 1] == MissingPostgres
  {
    Db2Errors(doc) + PostgresErrors(doc)
  }

  /** Every key the section needs is present (its value may be null). */
  predicate HasAllKeys(section: Section) {
    forall f :: f in RequiredFields ==> f in Keys(section)
  }

  /** No errors exactly when a db2 section and the checked PostgreSQL
      section both have all five connection keys. */
  lemma ValidateConfigAccepts(doc: Document)
    ensures ValidateConfig(doc) == [] <==>
      && Get(doc, "db2").Some? && HasAllKeys(Get(doc, "db2").value)
      && PostgresSectionName(doc).Some?
      && HasAllKeys(Get(doc, PostgresSectionName(doc).value).value)
  {
    MissingKeysEmpty(Get(doc, "db2"));
    if PostgresSectionName(doc).Some? {
      MissingKeysEmpty(Get(doc, PostgresSectionName(doc).value));
    }
  }

  lemma MissingKeysEmpty(section: Option<Section>)
    ensures section.Some? ==> (MissingKeys(RequiredFields, section.value) == [] <==> HasAllKeys(section.value))
  {
    if section.Some? && MissingKeys(RequiredFields, section.value) != [] {
      var m := MissingKeys(RequiredFields, section.value);
      assert m[0] in m;
    }
  }

  /** Without a db2 section, its one error is the missing section, never a
      missing field. */
  lemma NoDb2Section(doc: Document)
    requires "db2" !in Keys(doc)
    ensures ValidateConfig(doc)[0] == MissingDb2
    ensures ValidateConfig(doc)[1..] == PostgresErrors(doc)
  {
  }

  /** Each missing field of a present section is reported, in the order
      host, port, database, user, password, and nothing else is. */
  lemma Db2FieldsReported(doc: Document, field: string)
    requires Get(doc, "db2").Some?
    ensures MissingFieldMessage("db2", field) in Db2Errors(doc) <==>
      field in RequiredFields && field !in Keys(Get(doc, "db2").value)
  {
    var section := Get(doc, "db2").value;
    var missing := MissingKeys(RequiredFields, section);
    if MissingFieldMessage("db2", field) in Db2Errors(doc) {
      var i :| 0 <= i < |missing| && Db2Errors(doc)[i] == MissingFieldMessage("db2", field);
      MessageNamesField("db2", missing[i], field);
      assert missing[i] in missing;
    } else {
      assert field !in missing;
    }
  }

  lemma MessageNamesField(section: string, a: string, b: string)
    requires MissingFieldMessage(section, a) == MissingFieldMessage(section, b)
    ensures a == b
  {
    var p := "Missing required field: " + section + ".";
    assert MissingFieldMessage(section, a) == p + a;
    assert MissingFieldMessage(section, b) == p + b;
    assert a == (p + a)[|p|..];
  }

  /** The missing fields come out as a subsequence of the required list:
      earlier required fields are reported first. */
  lemma {:induction false} MissingKeysInOrder(fields: seq<string>, section: Section, i: nat, j: nat)
    returns (a: nat, b: nat)
    requires i < j < |MissingKeys(fields, section)|
    ensures a < b < |fields|
    ensures fields[a] == MissingKeys(fields, section)[i] && fields[b] == MissingKeys(fields, section)[j]
  {
    var m := MissingKeys(fields, section);
    var head := if fields[0] in Keys(section) then [] else [fields[0]];
    var tail := MissingKeys(fields[1..], section);
    assert m == head + tail;
    var rest := fields[1..];
    if head == [] {
      assert m[i] == tail[i] && m[j] == tail[j];
      a, b := MissingKeysInOrder(rest, section, i, j);
      assert fields[a + 1] == rest[a] && fields[b + 1] == rest[b];
      a, b := a + 1, b + 1;
      assert fields[a] == m[i] && fields[b] == m[j];
    } else if i == 0 {
      assert m[0] == fields[0] && m[j] == tail[j - 1];
      b := MissingKeyAt(rest, section, j - 1);
      assert fields[b + 1] == rest[b];
      a, b := 0, b + 1;
      assert fields[a] == m[i] && fields[b] == m[j];
    } else {
      assert m[i] == tail[i - 1] && m[j] == tail[j - 1];
      a, b := MissingKeysInOrder(rest, section, i - 1, j - 1);
      assert fields[a + 1] == rest[a] && fields[b + 1] == rest[b];
      a, b := a + 1, b + 1;
      assert fields[a] == m[i] && fields[b] == m[j];
    }
  }

  /** Every missing field is one of the listed fields. */
  lemma MissingKeyAt(fields: seq<string>, section: Section, i: nat) returns (a: nat)
    requires i < |MissingKeys(fields, section)|
    ensures a < |fields| && fields[a] == MissingKeys(fields, section)[i]
  {
    var m := MissingKeys(fields, section);
    assert m[i] in m;
    a :| a < |fields| && fields[a] == m[i];
  }

  /** With both sections present, `postgres` is the one checked. */
  lemma PostgresPreferred(doc: Document)
    requires "postgres" in Keys(doc) && "postgresql" in Keys(doc)
    ensures PostgresSectionName(doc) == Some("postgres")
  {
  }

  /* ---------------- _validate_required_fields ---------------- */

  /** The first listed field that is absent or null. */
  function FirstUnset(fields: seq<string>, section: Section): (r: Option<string>)
    ensures r.Some? ==> r.value in fields && Get(section, r.value).GetOr(Null) == Null
    ensures r.None? <==> forall f :: f in fields ==> Get(section, f).GetOr(Null) != Null
  {
    if |fields| == 0 then None
    else if Get(section, fields[0]).GetOr(Null) == Null then Some(fields[0])
    else FirstUnset(fields[1..], section)
  }

  /** `Config._validate_required_fields`: fails on the first field that is
      absent or null. */
  function ValidateRequiredFields(section: Section, fields: seq<string>, name: string): (r: Outcome<string>)
    ensures r.Pass? <==> forall f :: f in fields ==> Get(section, f).GetOr(Null) != Null
    ensures r.Fail? ==> exists f :: f in fields && r.error == MissingFieldMessage(name, f)
  {
    match FirstUnset(fields, section)
    case None => Pass
    case Some(f) => Fail(MissingFieldMessage(name, f))
  }

  /** The two checks differ on null values: a key that is present but null
      passes `validate_config` and fails `_validate_required_fields`. */
  lemma NullPassesOnlyKeyCheck(section: Section)
    requires HasAllKeys(section)
    requires Get(section, "host") == Some(Null)
    ensures MissingKeys(RequiredFields, section) == []
    ensures ValidateRequiredFields(section, RequiredFields, "db2") == Fail(MissingFieldMessage("db2", "host"))
  {
    MissingKeysEmpty(Some(section));
  }

  /* ---------------- Config.load ---------------- */

  /** Python's `int()` on a YAML scalar; `None` where it raises. */
  function ToInt(v: Value): Option<int> {
    match v
    case Int(i) => Some(i)
    case Bool(b) => Some(if b then 1 else 0)
    case Str(s) => ParseInt(s)
    case _ => None
  }

  datatype Db2Config = Db2Config(
    host: Value, port: int, database: Value, user: Value, password: Value,
    schema: Value, ssl: Value, timeout: Value)

  datatype PostgresConfig = PostgresConfig(
    host: Value, port: int, database: Value, user: Value, password: Value,
    schema: Value, ssl: Value, timeout: Value)

  datatype MigrationConfig = MigrationConfig(
    mode: Value, batchSize: Value, continueOnError: Value, parallelWorkers: Value,
    tables: Value, excludeTables: Value)

  datatype ResumeConfig = ResumeConfig(enabled: Value, checkpointFile: Value)

  datatype LoggingConfig = LoggingConfig(level: Value, file: Value, console: Value, format: Value)

  datatype ValidationConfig = ValidationConfig(
    enabled: Value, rowCount: Value, dataSampling: Value, sampleSize: Value)

  datatype Config = Config(
    db2: Db2Config, postgresql: PostgresConfig, migration: MigrationConfig,
    resume: ResumeConfig, logging: LoggingConfig, validation: ValidationConfig)

  datatype LoadError = EmptyFile | MissingField(message: string) | BadPort(section: string)

  const DefaultCheckpointFile := ".db2pgpy_checkpoint.json"
  const DefaultLogFormat := "%(asctime)s - %(name)s - %(levelname)s - %(message)s"

  /** `d.get(k, default)`: a present key keeps its value, even null. */
  function GetOr(section: Section, key: string, default: Value): (v: Value)
    ensures key !in Keys(section) ==> v == default
  {
    Get(section, key).GetOr(default)
  }

  /** `data.get(name, {})`. */
  function SectionOf(doc: Document, name: string): Section {
    Get(doc, name).GetOr([])
  }

  function LoadDb2(s: Section): Result<Db2Config, LoadError> {
    match ValidateRequiredFields(s, RequiredFields, "db2")
    case Fail(m) => Err(MissingField(m))
    case Pass =>
      match ToInt(GetOr(s, "port", Null))
      case None => Err(BadPort("db2"))
      case Some(port) =>
        Ok(Db2Config(GetOr(s, "host", Null), port, GetOr(s, "database", Null), GetOr(s, "user", Null),
          GetOr(s, "password", Null), GetOr(s, "schema", Null), GetOr(s, "ssl", Bool(false)),
          GetOr(s, "timeout", Int(30))))
  }

  function LoadPostgres(s: Section): Result<PostgresConfig, LoadError> {
    match ValidateRequiredFields(s, RequiredFields, "postgresql")
    case Fail(m) => Err(MissingField(m))
    case Pass =>
      match ToInt(GetOr(s, "port", Null))
      case None => Err(BadPort("postgresql"))
      case Some(port) =>
        Ok(PostgresConfig(GetOr(s, "host", Null), port, GetOr(s, "database", Null), GetOr(s, "user", Null),
          GetOr(s, "password", Null), GetOr(s, "schema", Str("public")), GetOr(s, "ssl", Bool(false)),
          GetOr(s, "timeout", Int(30))))
  }

  function LoadMigration(s: Section): MigrationConfig {
    MigrationConfig(GetOr(s, "mode", Str("full")), GetOr(s, "batch_size", Int(1000)),
      GetOr(s, "continue_on_error", Bool(false)), GetOr(s, "parallel_workers", Int(1)),
      GetOr(s, "tables", Null), GetOr(s, "exclude_tables", Null))
  }

  function LoadResume(s: Section): ResumeConfig {
    ResumeConfig(GetOr(s, "enabled", Bool(true)), GetOr(s, "checkpoint_file", Str(DefaultCheckpointFile)))
  }

  function LoadLogging(s: Section): LoggingConfig {
    LoggingConfig(GetOr(s, "level", Str("INFO")), GetOr(s, "file", Str("db2pgpy.log")),
      GetOr(s, "console", Bool(true)), GetOr(s, "format", Str(DefaultLogFormat)))
  }

  function LoadValidation(s: Section): ValidationConfig {
    ValidationConfig(GetOr(s, "enabled", Bool(true)), GetOr(s, "row_count", Bool(true)),
      GetOr(s, "data_sampling", Bool(true)), GetOr(s, "sample_size", Int(100)))
  }

  /** `Config.load` after parsing: an empty document is rejected, the db2
      and then the `postgresql` section must hold every connection field
      with an integer port, and every other section is optional. */
  function Load(doc: Document): (r: Result<Config, LoadError>)
    ensures doc == [] ==> r == Err(EmptyFile)
    ensures r.Ok? <==> doc != [] && LoadDb2(SectionOf(doc, "db2")).Ok? && LoadPostgres(SectionOf(doc, "postgresql")).Ok?
    ensures r.Ok? ==> r.value.db2 == LoadDb2(SectionOf(doc, "db2")).value
    ensures r.Ok? ==> r.value.postgresql == LoadPostgres(SectionOf(doc, "postgresql")).value
  {
    if doc == [] then Err(EmptyFile)
    else
      var db2 :- LoadDb2(SectionOf(doc, "db2"));
      var pg :- LoadPostgres(SectionOf(doc, "postgresql"));
      Ok(Config(db2, pg, LoadMigration(SectionOf(doc, "migration")), LoadResume(SectionOf(doc, "resume")),
        LoadLogging(SectionOf(doc, "logging")), LoadValidation(SectionOf(doc, "validation"))))
  }

  /** Optional sections that are absent take the documented defaults. */
  lemma LoadDefaults(doc: Document)
    requires Load(doc).Ok?
    requires "migration" !in Keys(doc) && "resume" !in Keys(doc)
    requires "postgresql" in Keys(doc) && "schema" !in Keys(SectionOf(doc, "postgresql"))
    ensures var c := Load(doc).value;
      && c.migration == MigrationConfig(Str("full"), Int(1000), Bool(false), Int(1), Null, Null)
      && c.resume == ResumeConfig(Bool(true), Str(DefaultCheckpointFile))
      && c.postgresql.schema == Str("public")
  {
  }

  /** A loaded section has every connection field set, so it has every
      key; without a `postgres` section the document also passes
      `validate_config`. */
  lemma LoadedPassesValidation(doc: Document)
    requires Load(doc).Ok?
    requires "postgres" !in Keys(doc)
    ensures ValidateConfig(doc) == []
  {
    SetImpliesKey(SectionOf(doc, "db2"));
    SetImpliesKey(SectionOf(doc, "postgresql"));
    assert Get(doc, "db2").Some?;
    assert Get(doc, "postgresql").Some?;
    ValidateConfigAccepts(doc);
  }

  lemma SetImpliesKey(s: Section)
    requires forall f :: f in RequiredFields ==> Get(s, f).GetOr(Null) != Null
    ensures HasAllKeys(s)
  {
    forall f | f in RequiredFields
      ensures f in Keys(s)
    {
      assert Get(s, f).GetOr(Null) != Null;
    }
  }

  /** A document whose PostgreSQL settings sit under `postgres` passes
      `validate_config` and is still refused by `Config.load`, which reads
      only `postgresql`. */
  lemma PostgresSectionNotLoaded(db2: Section, pg: Section)
    requires HasAllKeys(db2) && HasAllKeys(pg)
    requires ValidateRequiredFields(db2, RequiredFields, "db2").Pass? && ToInt(GetOr(db2, "port", Null)).Some?
    ensures var doc := [("db2", db2), ("postgres", pg)];
      ValidateConfig(doc) == [] && Load(doc) == Err(MissingField(MissingFieldMessage("postgresql", "host")))
  {
    var doc := [("db2", db2), ("postgres", pg)];
    ValidateConfigAccepts(doc);
    assert "postgresql" !in Keys(doc);
    assert SectionOf(doc, "postgresql") == [];
  }
}

=== FILE: connection.dfy ===
/** What the DB2 and PostgreSQL connectors share apart from their drivers:
    the not-connected guard, the bounded connect-retry loop and
    `disconnect`. The driver's connect call is an oracle giving the outcome
    of the n-th attempt; sleeping between attempts is counted, not timed. */
module Connection {
  import opened Wrappers

  const NotConnected := "Not connected to database"

  /** The RuntimeError every query method raises before touching a closed
      connection. */
  function RequireConnected<C>(conn: Option<C>): (r: Outcome<string>)
    ensures r.Pass? <==> conn.Some?
    ensures r.Fail? ==> r.error == NotConnected
  {
    if conn.None? then Fail(NotConnected) else Pass
  }

  /** How `connect` ends: connected on some attempt, re-raising the last
      failure, or (with a non-positive retry count) returning without
      having tried. */
  datatype ConnectResult<C, E> =
    | Connected(conn: C, attempts: nat)
    | Raised(error: E, attempts: nat)
    | NoAttempt

  /** The `for attempt in range(1, max_retries + 1)` loop of `connect`. */
  method Connect<C, E>(maxRetries: int, attempt: nat -> Result<C, E>) returns (r: ConnectResult<C, E>, sleeps: nat)
    ensures maxRetries < 1 <==> r.NoAttempt?
    ensures r.Connected? <==> exists k :: 1 <= k <= maxRetries && attempt(k).Ok?
    ensures r.Connected? ==>
      && 1 <= r.attempts <= maxRetries
      && attempt(r.attempts) == Ok(r.conn)
      && forall k :: 1 <= k < r.attempts ==> attempt(k).Err?
    ensures r.Raised? ==> r.attempts == maxRetries && attempt(maxRetries) == Err(r.error)
    ensures sleeps == (if r.NoAttempt? then 0 else r.attempts - 1)
  {
    sleeps := 0;
    if maxRetries < 1 {
      return NoAttempt, 0;
    }
    var k: nat := 1;
    while true
      invariant 1 <= k <= maxRetries
      invariant sleeps == k - 1
      invariant forall j :: 1 <= j < k ==> attempt(j).Err?
      decreases maxRetries - k
    {
      match attempt(k)
      case Ok(c) =>
        return Connected(c, k), sleeps;
      case Err(e) =>
        if k < maxRetries {
          sleeps := sleeps + 1;
          k := k + 1;
        } else {
          return Raised(e, k), sleeps;
        }
    }
  }

  /** `disconnect`: closes an open connection and forgets it; the flag
      says whether a close call was made. */
  function Disconnect<C>(conn: Option<C>): (r: (Option<C>, bool))
    ensures r.0 == None
    ensures r.1 <==> conn.Some?
  {
    (None, conn.Some?)
  }
}

=== FILE: data_transfer.dfy ===
/** The batched copy engine (`DataTransfer`): for each table it fetches the
    table's rows from DB2 as a sequence of batches, inserts every non-empty
    batch into PostgreSQL and reports the running row count to the progress
    tracker after each insert.

    The DB2 side is an abstract batch source `(table, batchSize) -> batches`;
    the PostgreSQL inserts and progress reports are recorded, in order, as a
    trace of `Call`s. Rows are of an arbitrary type `R`: the engine never
    looks inside them. */
module DataTransfer {
  import opened Wrappers
  import opened OrderedDict
  import Progress

  /** A call the engine makes on one of its collaborators. */
  datatype Call<R> =
    | FetchTableData(table: string, batchSize: int)
    | BulkInsert(table: string, batch: seq<R>)
    | UpdateProgress(table: string, rowsTransferred: nat)

  /** The statistics dict of one table (`time_taken` is not modelled). */
  datatype TransferStats = TransferStats(rowsTransferred: nat)

  /** Total number of rows in a sequence of batches. */
  function RowCount<R>(bs: seq<seq<R>>): nat {
    if |bs| == 0 then 0 else |bs[0]| + RowCount(bs[1..])
  }

  /** The non-empty batches, in order. */
  function NonEmpty<R>(bs: seq<seq<R>>): (r: seq<seq<R>>)
    ensures forall i :: 0 <= i < |r| ==> r[i] != []
    ensures RowCount(r) == RowCount(bs)
  {
    if |bs| == 0 then []
    else if bs[0] == [] then NonEmpty(bs[1..])
    else [bs[0]] + NonEmpty(bs[1..])
  }

  /** The calls made for batches `bs` when `base` rows have already been
      transferred: an insert and a cumulative report per non-empty batch. */
  function CopyCalls<R>(table: string, bs: seq<seq<R>>, base: nat): seq<Call<R>> {
    if |bs| == 0 then []
    else if bs[0] == [] then CopyCalls(table, bs[1..], base)
    else
      [BulkInsert(table, bs[0]), UpdateProgress(table, base + |bs[0]|)]
        + CopyCalls(table, bs[1..], base + |bs[0]|)
  }

  /** The calls made for batches `bs`, `base` rows in, when `insert` says
      which `bulk_insert` calls raise: as in `CopyCalls`, except that the
      first insert that raises ends the trace, before its report. */
  function CopyCallsUntil<R>(table: string, bs: seq<seq<R>>, base: nat, insert: (string, seq<R>) -> Outcome<string>): seq<Call<R>>
    decreases |bs|
  {
    if |bs| == 0 then []
    else if bs[0] == [] then CopyCallsUntil(table, bs[1..], base, insert)
    else if insert(table, bs[0]).Fail? then [BulkInsert(table, bs[0])]
    else
      [BulkInsert(table, bs[0]), UpdateProgress(table, base + |bs[0]|)]
        + CopyCallsUntil(table, bs[1..], base + |bs[0]|, insert)
  }

  /** How the batch loop ends: with its running total, or with the error of
      the first insert that raises. */
  function CopyResult<R>(table: string, bs: seq<seq<R>>, base: nat, insert: (string, seq<R>) -> Outcome<string>): Result<nat, string>
    decreases |bs|
  {
    if |bs| == 0 then Ok(base)
    else if bs[0] == [] then CopyResult(table, bs[1..], base, insert)
    else if insert(table, bs[0]).Fail? then Err(insert(table, bs[0]).error)
    else CopyResult(table, bs[1..], base + |bs[0]|, insert)
  }

  /** Index of the first non-empty batch whose insert raises, or the number
      of batches when none does. */
  function FirstFailure<R>(table: string, ne: seq<seq<R>>, insert: (string, seq<R>) -> Outcome<string>): (k: nat)
    ensures k <= |ne|
    ensures forall j :: 0 <= j < k ==> insert(table, ne[j]).Pass?
    ensures k < |ne| ==> insert(table, ne[k]).Fail?
  {
    if |ne| == 0 then 0
    else if insert(table, ne[0]).Fail? then 0
    else 1 + FirstFailure(table, ne[1..], insert)
  }

  /** Every non-empty batch of `bs` is inserted without an error. */
  predicate AllInsertsPass<R>(table: string, bs: seq<seq<R>>, insert: (string, seq<R>) -> Outcome<string>) {
    forall j :: 0 <= j < |NonEmpty(bs)| ==> insert(table, NonEmpty(bs)[j]).Pass?
  }

  lemma PrefixAppend<T>(p: seq<T>, s: seq<T>, n: nat)
    requires n <= |s|
    ensures (p + s)[..|p| + n] == p + s[..n]
  {
  }

  /** The loop with failing inserts against the loop without them: when no
      insert raises it ends with every row counted and the full trace;
      otherwise it ends with the first failing insert's error, and its trace
      is the full trace cut right after that insert. */
  lemma {:induction false} CopyUntilTrace<R>(table: string, bs: seq<seq<R>>, base: nat, insert: (string, seq<R>) -> Outcome<string>)
    ensures var ne := NonEmpty(bs); var k := FirstFailure(table, ne, insert);
      && |CopyCalls(table, bs, base)| == 2 * |ne|
      && (k == |ne| ==> CopyResult(table, bs, base, insert) == Ok(base + RowCount(bs))
                        && CopyCallsUntil(table, bs, base, insert) == CopyCalls(table, bs, base))
      && (k < |ne| ==> CopyResult(table, bs, base, insert) == Err(insert(table, ne[k]).error)
                       && CopyCallsUntil(table, bs, base, insert) == CopyCalls(table, bs, base)[..2 * k + 1])
    decreases |bs|
  {
    CopyCallsLength(table, bs, base);
    if |bs| > 0 {
      CopyCallsUnfold(table, bs, base);
      if bs[0] == [] {
        CopyUntilTrace(table, bs[1..], base, insert);
      } else if insert(table, bs[0]).Pass? {
        var rows := base + |bs[0]|;
        CopyUntilTrace(table, bs[1..], rows, insert);
        CopyUntilPassStep(table, bs, base, insert);
      }
    }
  }

  /** The step of `CopyUntilTrace` for a non-empty first batch that is
      inserted without error. */
  lemma CopyUntilPassStep<R>(table: string, bs: seq<seq<R>>, base: nat, insert: (string, seq<R>) -> Outcome<string>)
    requires |bs| > 0 && bs[0] != [] && insert(table, bs[0]).Pass?
    requires var ne := NonEmpty(bs[1..]); var k := FirstFailure(table, ne, insert); var rows := base + |bs[0]|;
      && |CopyCalls(table, bs[1..], rows)| == 2 * |ne|
      && (k == |ne| ==> CopyResult(table, bs[1..], rows, insert) == Ok(rows + RowCount(bs[1..]))
                        && CopyCallsUntil(table, bs[1..], rows, insert) == CopyCalls(table, bs[1..], rows))
      && (k < |ne| ==> CopyResult(table, bs[1..], rows, insert) == Err(insert(table, ne[k]).error)
                       && CopyCallsUntil(table, bs[1..], rows, insert) == CopyCalls(table, bs[1..], rows)[..2 * k + 1])
    ensures var ne := NonEmpty(bs); var k := FirstFailure(table, ne, insert);
      && (k == |ne| ==> CopyResult(table, bs, base, insert) == Ok(base + RowCount(bs))
                        && CopyCallsUntil(table, bs, base, insert) == CopyCalls(table, bs, base))
      && (k < |ne| ==> CopyResult(table, bs, base, insert) == Err(insert(table, ne[k]).error)
                       && CopyCallsUntil(table, bs, base, insert) == CopyCalls(table, bs, base)[..2 * k + 1])
  {
    var rows := base + |bs[0]|;
    var ne := NonEmpty(bs);
    var tail := NonEmpty(bs[1..]);
    CopyCallsUnfold(table, bs, base);
    assert ne[1..] == tail;
    var k' := FirstFailure(table, tail, insert);
    assert FirstFailure(table, ne, insert) == 1 + k';
    var pair := [BulkInsert(table, bs[0]), UpdateProgress(table, rows)];
    if k' < |tail| {
      PrefixAppend(pair, CopyCalls(table, bs[1..], rows), 2 * k' + 1);
      assert ne[1 + k'] == tail[k'];
    }
  }

  /** `transfer_table`: one fetch, then the batch loop, which an insert that
      raises leaves with that error. */
  method TransferTable<R>(table: string, batchSize: int, source: (string, int) -> seq<seq<R>>,
                          insert: (string, seq<R>) -> Outcome<string>)
    returns (stats: Result<TransferStats, string>, calls: seq<Call<R>>)
    ensures stats.Ok? <==> AllInsertsPass(table, source(table, batchSize), insert)
    ensures stats.Ok? ==> stats.value.rowsTransferred == RowCount(source(table, batchSize))
    ensures stats.Ok? ==> calls == [FetchTableData(table, batchSize)] + CopyCalls(table, source(table, batchSize), 0)
    ensures stats.Err? ==>
      var bs := source(table, batchSize); var ne := NonEmpty(bs); var k := FirstFailure(table, ne, insert);
      && k < |ne|
      && stats.error == insert(table, ne[k]).error
      && |CopyCalls(table, bs, 0)| == 2 * |ne|
      && calls == [FetchTableData(table, batchSize)] + CopyCalls(table, bs, 0)[..2 * k + 1]
    ensures calls == TableCallsUntil(table, batchSize, source, insert)
  {
    var batches := source(table, batchSize);
    calls := [FetchTableData(table, batchSize)];
    var total: nat := 0;
    var res: Result<nat, string> := Ok(0);
    var i := 0;
    while i < |batches| && res.Ok?
      invariant 0 <= i <= |batches|
      invariant res.Ok? ==> CopyResult(table, batches[i..], total, insert) == CopyResult(table, batches, 0, insert)
      invariant res.Ok? ==>
        calls + CopyCallsUntil(table, batches[i..], total, insert)
          == [FetchTableData(table, batchSize)] + CopyCallsUntil(table, batches, 0, insert)
      invariant res.Err? ==> res == CopyResult(table, batches, 0, insert)
      invariant res.Err? ==> calls == [FetchTableData(table, batchSize)] + CopyCallsUntil(table, batches, 0, insert)
    {
      var batch := batches[i];
      assert batches[i..][1..] == batches[i + 1..];
      if batch != [] {
        calls := calls + [BulkInsert(table, batch)];
        var outcome := insert(table, batch);
        if outcome.Fail? {
          res := Err(outcome.error);
        } else {
          total := total + |batch|;
          calls := calls + [UpdateProgress(table, total)];
        }
      }
      i := i + 1;
    }
    if res.Ok? {
      assert batches[i..] == [];
      res := Ok(total);
    }
    CopyUntilTrace(table, batches, 0, insert);
    stats := if res.Ok? then Ok(TransferStats(res.value)) else Err(res.error);
  }

  /** The calls of `transfer_table` for one table, failing inserts
      included. */
  function TableCallsUntil<R>(table: string, batchSize: int, source: (string, int) -> seq<seq<R>>,
                              insert: (string, seq<R>) -> Outcome<string>): seq<Call<R>> {
    [FetchTableData(table, batchSize)] + CopyCallsUntil(table, source(table, batchSize), 0, insert)
  }

  /** Rows in the first `k` non-empty batches. */
  function Cumulative<R>(bs: seq<seq<R>>, k: nat): nat
    requires k <= |bs|
  {
    RowCount(bs[..k])
  }

  lemma {:induction false} RowCountAppend<R>(a: seq<seq<R>>, b: seq<seq<R>>)
    ensures RowCount(a + b) == RowCount(a) + RowCount(b)
  {
    if |a| > 0 {
      assert (a + b)[0] == a[0];
      assert (a + b)[1..] == a[1..] + b;
      RowCountAppend(a[1..], b);
    } else {
      assert a + b == b;
    }
  }

  lemma {:induction false} CopyCallsLength<R>(table: string, bs: seq<seq<R>>, base: nat)
    ensures |CopyCalls(table, bs, base)| == 2 * |NonEmpty(bs)|
  {
    if |bs| > 0 {
      CopyCallsLength(table, bs[1..], if bs[0] == [] then base else base + |bs[0]|);
    }
  }

  /** The trace for a table is, for the k-th non-empty batch, its insert
      (with the batch unchanged) followed by a report of the rows in the
      first k non-empty batches; nothing else. */
  lemma {:induction false} CopyCallsAt<R>(table: string, bs: seq<seq<R>>, base: nat, k: nat)
    requires k < |NonEmpty(bs)|
    ensures |CopyCalls(table, bs, base)| == 2 * |NonEmpty(bs)|
    ensures CopyCalls(table, bs, base)[2 * k] == BulkInsert(table, NonEmpty(bs)[k])
    ensures CopyCalls(table, bs, base)[2 * k + 1] == UpdateProgress(table, base + Cumulative(NonEmpty(bs), k + 1))
  {
    CopyCallsLength(table, bs, base);
    CopyCallsUnfold(table, bs, base);
    if bs[0] == [] {
      CopyCallsAt(table, bs[1..], base, k);
    } else {
      if k > 0 {
        CopyCallsAt(table, bs[1..], base + |bs[0]|, k - 1);
        CopyCallsAtLater(table, bs, base, k);
      } else {
        CopyCallsAtFirst(table, bs, base);
      }
    }
  }

  /** The first non-empty batch's insert and report open the trace. */
  lemma CopyCallsAtFirst<R>(table: string, bs: seq<seq<R>>, base: nat)
    requires |bs| > 0 && bs[0] != []
    ensures CopyCalls(table, bs, base)[0] == BulkInsert(table, NonEmpty(bs)[0])
    ensures CopyCalls(table, bs, base)[1] == UpdateProgress(table, base + Cumulative(NonEmpty(bs), 1))
  {
    CopyCallsUnfold(table, bs, base);
    var tail := NonEmpty(bs[1..]);
    ConsCumulative(bs[0], tail, 0);
    assert Cumulative(tail, 0) == 0 by { assert tail[..0] == []; }
  }

  /** After a non-empty first batch, the k-th pair of the trace is the
      (k-1)-th pair of the rest, with the first batch's rows added. */
  lemma CopyCallsAtLater<R>(table: string, bs: seq<seq<R>>, base: nat, k: nat)
    requires |bs| > 0 && bs[0] != [] && 0 < k < |NonEmpty(bs)|
    requires |CopyCalls(table, bs[1..], base + |bs[0]|)| == 2 * |NonEmpty(bs[1..])|
    requires CopyCalls(table, bs[1..], base + |bs[0]|)[2 * (k - 1)] == BulkInsert(table, NonEmpty(bs[1..])[k - 1])
    requires CopyCalls(table, bs[1..], base + |bs[0]|)[2 * (k - 1) + 1]
      == UpdateProgress(table, base + |bs[0]| + Cumulative(NonEmpty(bs[1..]), k))
    ensures CopyCalls(table, bs, base)[2 * k] == BulkInsert(table, NonEmpty(bs)[k])
    ensures CopyCalls(table, bs, base)[2 * k + 1] == UpdateProgress(table, base + Cumulative(NonEmpty(bs), k + 1))
  {
    CopyCallsUnfold(table, bs, base);
    var b := bs[0];
    var tail := NonEmpty(bs[1..]);
    ConsCumulative(b, tail, k);
    PairConsAt(BulkInsert(table, b), UpdateProgress(table, base + |b|), CopyCalls(table, bs[1..], base + |b|), k - 1);
  }

  lemma PairConsAt<T>(x: T, y: T, rest: seq<T>, k: nat)
    requires 2 * k + 1 < |rest|
    ensures ([x, y] + rest)[2 * (k + 1)] == rest[2 * k]
    ensures ([x, y] + rest)[2 * (k + 1) + 1] == rest[2 * k + 1]
  {
  }

  /** One step of `CopyCalls` and `NonEmpty`: an empty batch is skipped, a
      non-empty one is inserted and reported. */
  lemma CopyCallsUnfold<R>(table: string, bs: seq<seq<R>>, base: nat)
    requires |bs| > 0
    ensures bs[0] == [] ==> CopyCalls(table, bs, base) == CopyCalls(table, bs[1..], base)
    ensures bs[0] == [] ==> NonEmpty(bs) == NonEmpty(bs[1..])
    ensures bs[0] != [] ==>
      CopyCalls(table, bs, base) == [BulkInsert(table, bs[0]), UpdateProgress(table, base + |bs[0]|)] + CopyCalls(table, bs[1..], base + |bs[0]|)
    ensures bs[0] != [] ==> NonEmpty(bs) == [bs[0]] + NonEmpty(bs[1..])
  {
  }

  lemma ConsCumulative<R>(b: seq<R>, tail: seq<seq<R>>, k: nat)
    requires k <= |tail|
    ensures Cumulative([b] + tail, k + 1) == |b| + Cumulative(tail, k)
  {
    assert ([b] + tail)[..k + 1] == [b] + tail[..k];
    assert ([b] + tail[..k])[1..] == tail[..k];
  }

  /** The reported totals strictly increase: each non-empty batch adds at
      least one row. */
  lemma {:induction false} CumulativeIncreasing<R>(ne: seq<seq<R>>, j: nat, k: nat)
    requires forall i :: 0 <= i < |ne| ==> ne[i] != []
    requires j < k <= |ne|
    ensures Cumulative(ne, j) < Cumulative(ne, k)
  {
    assert ne[..k] == ne[..j] + ne[j..k];
    RowCountAppend(ne[..j], ne[j..k]);
    assert ne[j..k] == [ne[j]] + ne[j + 1..k];
  }

  /** The last report carries the table's full row count. */
  lemma LastReportIsTotal<R>(table: string, bs: seq<seq<R>>)
    requires NonEmpty(bs) != []
    ensures |CopyCalls(table, bs, 0)| > 0
    ensures CopyCalls(table, bs, 0)[|CopyCalls(table, bs, 0)| - 1] == UpdateProgress(table, RowCount(bs))
  {
    LastReportFrom(table, bs, 0);
  }

  lemma LastReportFrom<R>(table: string, bs: seq<seq<R>>, base: nat)
    requires NonEmpty(bs) != []
    ensures |CopyCalls(table, bs, base)| > 0
    ensures CopyCalls(table, bs, base)[|CopyCalls(table, bs, base)| - 1] == UpdateProgress(table, base + RowCount(bs))
  {
    var ne := NonEmpty(bs);
    var n := |ne|;
    CopyCallsAt(table, bs, base, n - 1);
    assert ne[..n] == ne;
  }

  /** An empty source (or one yielding only empty batches) makes no insert
      and no report. */
  lemma NoRowsNoCalls<R>(table: string, bs: seq<seq<R>>)
    requires RowCount(bs) == 0
    ensures CopyCalls(table, bs, 0) == []
  {
    CopyCallsLength(table, bs, 0);
  }

  /** Index of the first listed table whose transfer raises, or the number
      of tables when none does. */
  function FirstFailingTable<R>(tables: seq<string>, batchSize: int, source: (string, int) -> seq<seq<R>>,
                                insert: (string, seq<R>) -> Outcome<string>): (f: nat)
    ensures f <= |tables|
    ensures forall j :: 0 <= j < f ==> AllInsertsPass(tables[j], source(tables[j], batchSize), insert)
    ensures f < |tables| ==> !AllInsertsPass(tables[f], source(tables[f], batchSize), insert)
  {
    if |tables| == 0 then 0
    else if !AllInsertsPass(tables[0], source(tables[0], batchSize), insert) then 0
    else 1 + FirstFailingTable(tables[1..], batchSize, source, insert)
  }

  /** `transfer_tables`: transfers the listed tables in order and maps each
      to its statistics; a table listed twice is transferred twice and keeps
      its first position in the result (the insert oracle does not see the
      rows that earlier inserts wrote). An insert that raises ends the whole
      call with its error, after the calls made up to it. */
  method TransferTables<R>(tables: seq<string>, batchSize: int, source: (string, int) -> seq<seq<R>>,
                           insert: (string, seq<R>) -> Outcome<string>)
    returns (results: Result<Entries<string, TransferStats>, string>, calls: seq<Call<R>>)
    ensures results.Ok? <==> forall t :: t in tables ==> AllInsertsPass(t, source(t, batchSize), insert)
    ensures results.Ok? ==> UniqueKeys(results.value) && Keys(results.value) == Distinct(tables)
    ensures results.Ok? ==> forall t :: t in tables ==>
      Get(results.value, t) == Some(TransferStats(RowCount(source(t, batchSize))))
    ensures results.Ok? ==> calls == AllCalls(tables, batchSize, source)
    ensures results.Err? ==>
      var f := FirstFailingTable(tables, batchSize, source, insert);
      && f < |tables|
      && calls == AllCalls(tables[..f], batchSize, source) + TableCallsUntil(tables[f], batchSize, source, insert)
      && Err(results.error) == CopyResult(tables[f], source(tables[f], batchSize), 0, insert)
  {
    var done: Entries<string, TransferStats> := [];
    calls := [];
    results := Ok(done);
    var i := 0;
    while i < |tables|
      invariant 0 <= i <= |tables|
      invariant forall j :: 0 <= j < i ==> AllInsertsPass(tables[j], source(tables[j], batchSize), insert)
      invariant UniqueKeys(done) && Keys(done) == Distinct(tables[..i])
      invariant forall t :: t in tables[..i] ==>
        Get(done, t) == Some(TransferStats(RowCount(source(t, batchSize))))
      invariant calls == AllCalls(tables[..i], batchSize, source)
    {
      var stats, tableCalls := TransferTable(tables[i], batchSize, source, insert);
      if stats.Err? {
        CopyUntilTrace(tables[i], source(tables[i], batchSize), 0, insert);
        calls := calls + tableCalls;
        results := Err(stats.error);
        return;
      }
      RecordStats(done, tables, i, batchSize, source, stats.value);
      AllCallsSnoc(tables, i, batchSize, source);
      done := Put(done, tables[i], stats.value);
      calls := calls + tableCalls;
      i := i + 1;
    }
    assert tables[..i] == tables;
    results := Ok(done);
  }

  lemma RecordStats<R>(results: Entries<string, TransferStats>, tables: seq<string>, i: nat, batchSize: int,
                       source: (string, int) -> seq<seq<R>>, stats: TransferStats)
    requires i < |tables|
    requires UniqueKeys(results) && Keys(results) == Distinct(tables[..i])
    requires forall t :: t in tables[..i] ==>
      Get(results, t) == Some(TransferStats(RowCount(source(t, batchSize))))
    requires stats == TransferStats(RowCount(source(tables[i], batchSize)))
    ensures UniqueKeys(Put(results, tables[i], stats))
    ensures Keys(Put(results, tables[i], stats)) == Distinct(tables[..i + 1])
    ensures forall t :: t in tables[..i + 1] ==>
      Get(Put(results, tables[i], stats), t) == Some(TransferStats(RowCount(source(t, batchSize))))
  {
    PutUnique(results, tables[i], stats);
    DistinctSnoc(tables, i);
    PutKeys(results, tables[i], stats);
    forall t | t in tables[..i + 1]
      ensures Get(Put(results, tables[i], stats), t) == Some(TransferStats(RowCount(source(t, batchSize))))
    {
      if t != tables[i] {
        assert t in tables[..i];
      }
    }
  }

  lemma AllCallsSnoc<R>(tables: seq<string>, i: nat, batchSize: int, source: (string, int) -> seq<seq<R>>)
    requires i < |tables|
    ensures AllCalls(tables[..i + 1], batchSize, source)
         == AllCalls(tables[..i], batchSize, source)
            + ([FetchTableData(tables[i], batchSize)] + CopyCalls(tables[i], source(tables[i], batchSize), 0))
  {
    var a := AllCalls(tables[..i], batchSize, source);
    var f := [FetchTableData(tables[i], batchSize)];
    var c := CopyCalls(tables[i], source(tables[i], batchSize), 0);
    assert tables[..i + 1][..i] == tables[..i];
    assert AllCalls(tables[..i + 1], batchSize, source) == a + f + c;
    assert a + f + c == a + (f + c);
  }

  /** The calls of transferring each listed table in turn. */
  function AllCalls<R>(tables: seq<string>, batchSize: int, source: (string, int) -> seq<seq<R>>): seq<Call<R>> {
    if |tables| == 0 then []
    else
      AllCalls(tables[..|tables| - 1], batchSize, source)
        + [FetchTableData(tables[|tables| - 1], batchSize)]
        + CopyCalls(tables[|tables| - 1], source(tables[|tables| - 1], batchSize), 0)
  }

  /** One `update_progress` call at time `now`. */
  function Reporter(now: string): (Progress.Tracker, string, nat) -> Progress.Tracker {
    (t, table, rows) => Progress.UpdateProgress(t, table, rows, now)
  }

  /** A state after it has received the progress reports among `calls`,
      each applied with `report`. */
  function ApplyWith<T, R>(report: (T, string, nat) -> T, t: T, calls: seq<Call<R>>): T
    decreases |calls|
  {
    if |calls| == 0 then t
    else
      var t' := if calls[0].UpdateProgress? then report(t, calls[0].table, calls[0].rowsTransferred) else t;
      ApplyWith(report, t', calls[1..])
  }

  /** The tracker after it has received the progress reports among `calls`. */
  function ApplyReports<R>(t: Progress.Tracker, calls: seq<Call<R>>, now: string): Progress.Tracker {
    ApplyWith(Reporter(now), t, calls)
  }

  /** A state after the reports for batches `bs`, `base` rows in: one
      report with the running total per non-empty batch. */
  function ReplayWith<T, R>(report: (T, string, nat) -> T, t: T, table: string, bs: seq<seq<R>>, base: nat): T
    decreases |bs|
  {
    if |bs| == 0 then t
    else if bs[0] == [] then ReplayWith(report, t, table, bs[1..], base)
    else ReplayWith(report, report(t, table, base + |bs[0]|), table, bs[1..], base + |bs[0]|)
  }

  /** The tracker after the `update_progress` calls for batches `bs`. */
  function Replay<R>(t: Progress.Tracker, table: string, bs: seq<seq<R>>, base: nat, now: string): Progress.Tracker {
    ReplayWith(Reporter(now), t, table, bs, base)
  }

  /** Feeding a table's trace to the tracker is replaying its batches. */
  lemma ApplyReportsReplay<R>(t: Progress.Tracker, table: string, bs: seq<seq<R>>, base: nat, now: string)
    ensures ApplyReports(t, CopyCalls(table, bs, base), now) == Replay(t, table, bs, base, now)
  {
    ApplyWithReplay(Reporter(now), t, table, bs, base);
  }

  /** Applying the reports of a table's trace is replaying its batches,
      whatever a report does. */
  lemma {:induction false} ApplyWithReplay<T, R>(report: (T, string, nat) -> T, t: T, table: string, bs: seq<seq<R>>, base: nat)
    ensures ApplyWith(report, t, CopyCalls(table, bs, base)) == ReplayWith(report, t, table, bs, base)
    decreases |bs|
  {
    if |bs| > 0 {
      if bs[0] == [] {
        ApplyWithReplay(report, t, table, bs[1..], base);
      } else {
        var rows := base + |bs[0]|;
        var rest := CopyCalls(table, bs[1..], rows);
        var calls := CopyCalls(table, bs, base);
        assert calls == [BulkInsert(table, bs[0]), UpdateProgress(table, rows)] + rest;
        assert calls[1..][1..] == rest;
        assert ApplyWith(report, t, calls) == ApplyWith(report, t, calls[1..]);
        ApplyWithReplay(report, report(t, table, rows), table, bs[1..], rows);
      }
    }
  }

  /** The table's entry after one `update_progress` with `rows`: an
      existing entry keeps its total, a missing one takes `rows`. */
  function NextEntry(e: Option<Progress.TableProgress>, rows: nat, now: string): Progress.TableProgress {
    var total := if e.Some? then e.value.totalRows else rows;
    Progress.TableProgress(rows, total, Progress.Percentage(rows, total), now)
  }

  lemma UpdateEntry(t: Progress.Tracker, table: string, rows: nat, now: string)
    ensures Progress.GetTableProgress(Progress.UpdateProgress(t, table, rows, now), table)
         == Some(NextEntry(Progress.GetTableProgress(t, table), rows, now))
  {
  }

  /** The table's entry after the reports for batches `bs`. */
  function EntryReplay<R>(e: Option<Progress.TableProgress>, bs: seq<seq<R>>, base: nat, now: string): Option<Progress.TableProgress>
    decreases |bs|
  {
    if |bs| == 0 then e
    else if bs[0] == [] then EntryReplay(e, bs[1..], base, now)
    else EntryReplay(Some(NextEntry(e, base + |bs[0]|, now)), bs[1..], base + |bs[0]|, now)
  }

  /** Replaying the reports on the tracker moves the table's entry as
      `EntryReplay` says. */
  lemma ReplayEntry<R>(t: Progress.Tracker, table: string, bs: seq<seq<R>>, base: nat, now: string)
    ensures Progress.GetTableProgress(Replay(t, table, bs, base, now), table)
         == EntryReplay(Progress.GetTableProgress(t, table), bs, base, now)
  {
    forall x: Progress.Tracker, r: nat
      ensures Progress.GetTableProgress(Reporter(now)(x, table, r), table)
           == Some(NextEntry(Progress.GetTableProgress(x, table), r, now))
    {
      UpdateEntry(x, table, r, now);
    }
    ReplayWithEntry(Reporter(now), t, table, bs, base, now);
  }

  /** Replaying with any report that moves the table's entry as one
      `update_progress` does moves it as `EntryReplay` says. */
  lemma {:induction false} ReplayWithEntry<R>(report: (Progress.Tracker, string, nat) -> Progress.Tracker,
                                              t: Progress.Tracker, table: string, bs: seq<seq<R>>, base: nat, now: string)
    requires forall x, r :: Progress.GetTableProgress(report(x, table, r), table)
                         == Some(NextEntry(Progress.GetTableProgress(x, table), r, now))
    ensures Progress.GetTableProgress(ReplayWith(report, t, table, bs, base), table)
         == EntryReplay(Progress.GetTableProgress(t, table), bs, base, now)
    decreases |bs|
  {
    if |bs| > 0 {
      var e := Progress.GetTableProgress(t, table);
      if bs[0] == [] {
        assert ReplayWith(report, t, table, bs, base) == ReplayWith(report, t, table, bs[1..], base);
        assert EntryReplay(e, bs, base, now) == EntryReplay(e, bs[1..], base, now);
        ReplayWithEntry(report, t, table, bs[1..], base, now);
      } else {
        var rows := base + |bs[0]|;
        var t1 := report(t, table, rows);
        assert ReplayWith(report, t, table, bs, base) == ReplayWith(report, t1, table, bs[1..], rows);
        assert EntryReplay(e, bs, base, now) == EntryReplay(Some(NextEntry(e, rows, now)), bs[1..], rows, now);
        ReplayWithEntry(report, t1, table, bs[1..], rows, now);
      }
    }
  }

  /** For a table with an entry, whatever its migrated count: when some
      batch is non-empty the reports set the count to the running total,
      when none is the entry is left alone, and the total is always kept. */
  lemma {:induction false} KnownEntry<R>(e: Progress.TableProgress, bs: seq<seq<R>>, base: nat, now: string)
    ensures EntryReplay(Some(e), bs, base, now).Some?
    ensures NonEmpty(bs) != [] ==> EntryReplay(Some(e), bs, base, now).value.rowsMigrated == base + RowCount(bs)
    ensures NonEmpty(bs) == [] ==> EntryReplay(Some(e), bs, base, now) == Some(e)
    ensures EntryReplay(Some(e), bs, base, now).value.totalRows == e.totalRows
    decreases |bs|
  {
    if |bs| > 0 {
      if bs[0] == [] {
        KnownEntry(e, bs[1..], base, now);
      } else {
        var rows := base + |bs[0]|;
        KnownEntry(NextEntry(Some(e), rows, now), bs[1..], rows, now);
        if NonEmpty(bs[1..]) == [] {
          assert RowCount(bs[1..]) == RowCount(NonEmpty(bs[1..])) == 0;
        }
      }
    }
  }

  /** For a table without an entry, the first non-empty batch creates it
      with its own size as total. */
  lemma {:induction false} FreshEntry<R>(bs: seq<seq<R>>, base: nat, now: string)
    requires NonEmpty(bs) != []
    ensures EntryReplay(None, bs, base, now).Some?
    ensures EntryReplay(None, bs, base, now).value.rowsMigrated == base + RowCount(bs)
    ensures EntryReplay(None, bs, base, now).value.totalRows == base + |NonEmpty(bs)[0]|
    decreases |bs|
  {
    if bs[0] == [] {
      FreshEntry(bs[1..], base, now);
    } else {
      KnownEntry(NextEntry(None, base + |bs[0]|, now), bs[1..], base + |bs[0]|, now);
    }
  }

  /** For a table the tracker has no entry for, the first report fixes the
      table's `total_rows` at the first non-empty batch's size and later
      reports keep it, so the entry ends with the full row count as migrated
      and the first batch's size as total. */
  lemma FreshTableProgress<R>(t: Progress.Tracker, table: string, bs: seq<seq<R>>, base: nat, now: string)
    requires NonEmpty(bs) != []
    requires Progress.GetTableProgress(t, table).None?
    ensures Progress.GetTableProgress(ApplyReports(t, CopyCalls(table, bs, base), now), table).Some?
    ensures Progress.GetTableProgress(ApplyReports(t, CopyCalls(table, bs, base), now), table)
      .value.rowsMigrated == base + RowCount(bs)
    ensures Progress.GetTableProgress(ApplyReports(t, CopyCalls(table, bs, base), now), table)
      .value.totalRows == base + |NonEmpty(bs)[0]|
  {
    ApplyReportsReplay(t, table, bs, base, now);
    ReplayEntry(t, table, bs, base, now);
    FreshEntry(bs, base, now);
  }

  /** For a table that already has an entry, whatever its migrated count:
      when any row is copied the reports leave the full running total as
      migrated, with no rows they leave the entry alone, and the total is
      kept either way. */
  lemma KnownTableProgress<R>(t: Progress.Tracker, table: string, bs: seq<seq<R>>, base: nat, now: string)
    requires Progress.GetTableProgress(t, table).Some?
    ensures Progress.GetTableProgress(ApplyReports(t, CopyCalls(table, bs, base), now), table).Some?
    ensures NonEmpty(bs) != [] ==>
      Progress.GetTableProgress(ApplyReports(t, CopyCalls(table, bs, base), now), table).value.rowsMigrated
        == base + RowCount(bs)
    ensures NonEmpty(bs) == [] ==>
      Progress.GetTableProgress(ApplyReports(t, CopyCalls(table, bs, base), now), table)
        == Progress.GetTableProgress(t, table)
    ensures Progress.GetTableProgress(ApplyReports(t, CopyCalls(table, bs, base), now), table)
      .value.totalRows == Progress.GetTableProgress(t, table).value.totalRows
  {
    ApplyReportsReplay(t, table, bs, base, now);
    ReplayEntry(t, table, bs, base, now);
    KnownEntry(Progress.GetTableProgress(t, table).value, bs, base, now);
  }
}

=== FILE: db2_connector.dfy ===
/** The parts of `DB2Connector` that are not driver calls: the connection
    string, the catalog row mappings with their not-connected guard, the
    row count default and the batching generator of `fetch_table_data`.
    Query results are inputs: the rows the driver would fetch. */
module Db2Connector {
  import opened Wrappers
  import opened Text
  import opened OrderedDict
  import opened Catalog
  import opened Connection
  import TypeConverter

  /* ---------------- connection string ---------------- */

  /** Config keys and the connection-string keywords they become, in the
      order the parts are written. */
  const ConnectionKeys: seq<(string, string)> :=
    [("database", "DATABASE"), ("host", "HOSTNAME"), ("port", "PORT"), ("user", "UID"), ("password", "PWD")]

  const Protocol := "PROTOCOL=TCPIP"

  /** One `KEYWORD=value` part per listed key present in the config, in
      list order. Config values are taken as already rendered with
      `str()`. */
  function ConnectionParts(config: Entries<string, string>, keys: seq<(string, string)>): (r: seq<string>)
    ensures |r| <= |keys|
    ensures (forall i :: 0 <= i < |keys| ==> Free(keys[i].1 + "=", ';')) &&
            (forall e :: e in config ==> Free(e.1, ';'))
            ==> forall i :: 0 <= i < |r| ==> Free(r[i], ';')
  {
    if |keys| == 0 then []
    else
      var rest := ConnectionParts(config, keys[1..]);
      match Get(config, keys[0].0)
      case None => rest
      case Some(v) =>
        GetIn(config, keys[0].0);
        [keys[0].1 + "=" + v] + rest
  }

  /** `_get_connection_string`. */
  function ConnectionString(config: Entries<string, string>): string {
    Join(";", ConnectionParts(config, ConnectionKeys) + [Protocol])
  }

  lemma KeywordsFree()
    ensures forall i :: 0 <= i < |ConnectionKeys| ==> Free(ConnectionKeys[i].1 + "=", ';')
  {
  }

  /** Splitting the string at `;` gives back the parts for the present keys
      followed by the protocol, as long as no value contains `;`. */
  lemma ConnectionStringSplits(config: Entries<string, string>)
    requires forall e :: e in config ==> Free(e.1, ';')
    ensures Split(ConnectionString(config), ';') == ConnectionParts(config, ConnectionKeys) + [Protocol]
  {
    KeywordsFree();
    var parts := ConnectionParts(config, ConnectionKeys) + [Protocol];
    assert forall i :: 0 <= i < |parts| ==> Free(parts[i], ';');
    assert ";" == [';'];
    SplitJoin(parts, ';');
  }

  /** A key missing from the config contributes no part. */
  lemma AbsentKeysSkipped(config: Entries<string, string>, keys: seq<(string, string)>)
    requires forall i :: 0 <= i < |keys| ==> keys[i].0 !in Keys(config)
    ensures ConnectionParts(config, keys) == []
  {
  }

  /** With every key present the parts are all five, in order. */
  lemma {:induction false} PresentKeysWritten(config: Entries<string, string>, keys: seq<(string, string)>)
    requires forall i :: 0 <= i < |keys| ==> keys[i].0 in Keys(config)
    ensures |ConnectionParts(config, keys)| == |keys|
    ensures forall i :: 0 <= i < |keys| ==>
      ConnectionParts(config, keys)[i] == keys[i].1 + "=" + Get(config, keys[i].0).value
  {
    if |keys| > 0 {
      PresentKeysWritten(config, keys[1..]);
    }
  }

  /** An empty config still names the protocol. */
  lemma EmptyConfigString()
    ensures ConnectionString([]) == Protocol
  {
    AbsentKeysSkipped([], ConnectionKeys);
  }

  /* ---------------- catalog queries ---------------- */

  /** `get_tables` and `get_primary_keys`: one name per fetched row, in
      order, after the connection guard. `query` is what `exec_immediate`
      and the fetch loop give: the rows' names, or the error raised. */
  function NamesFromRows<C>(conn: Option<C>, query: Result<seq<string>, string>): (r: Result<seq<string>, string>)
    ensures conn.None? ==> r == Err(NotConnected)
    ensures r.Err? <==> conn.None? || query.Err?
    ensures conn.Some? && query.Err? ==> r == Err(query.error)
    ensures r.Ok? ==> r.value == query.value
  {
    match RequireConnected(conn)
    case Fail(e) => Err(e)
    case Pass => query
  }

  const LengthTypes: set<string> := {"VARCHAR", "CHAR", "GRAPHIC", "VARGRAPHIC"}
  const ScaleTypes: set<string> := {"DECIMAL", "NUMERIC"}

  /** An f-string rendering of an optional integer column. */
  function Show(v: Option<int>): string {
    match v
    case None => "None"
    case Some(i) => IntToString(i)
  }

  /** The `LENGTH,SCALE` parameters of a decimal type. */
  function PrecisionScale(length: Option<int>, scale: Option<int>): string {
    Show(length) + "," + Show(scale)
  }

  /** The type string `get_table_schema` builds from TYPENAME, LENGTH and
      SCALE. */
  function TypeString(typename: string, length: Option<int>, scale: Option<int>): (r: string)
    ensures typename !in LengthTypes && typename !in ScaleTypes ==> r == typename
    ensures typename in LengthTypes + ScaleTypes ==> StartsWith(r, typename + "(") && r[|r| - 1] == ')'
  {
    if typename in LengthTypes then typename + "(" + Show(length) + ")"
    else if typename in ScaleTypes then typename + "(" + PrecisionScale(length, scale) + ")"
    else typename
  }

  /** One column record of `get_table_schema`. The record has no length. */
  function ColumnOf(row: ColumnRow): (c: Column)
    ensures c.name == row.colname
    ensures c.typ == TypeString(row.typename, row.length, row.scale)
    ensures c.nullable <==> row.nulls == "Y"
    ensures c.default == row.default
    ensures c.length.None?
    ensures c.isIdentity <==> row.identity == Some("Y")
  {
    Column(row.colname, TypeString(row.typename, row.length, row.scale), row.nulls == "Y",
      row.default, None, row.identity == Some("Y"))
  }

  /** `get_table_schema`: one record per row, in order. `query` is the
      fetched rows of the catalog query, or the error it raised. */
  function TableSchema<C>(conn: Option<C>, query: Result<seq<ColumnRow>, string>): (r: Result<seq<Column>, string>)
    ensures conn.None? ==> r == Err(NotConnected)
    ensures r.Err? <==> conn.None? || query.Err?
    ensures conn.Some? && query.Err? ==> r == Err(query.error)
    ensures r.Ok? ==>
      |r.value| == |query.value| && forall i :: 0 <= i < |query.value| ==> r.value[i] == ColumnOf(query.value[i])
  {
    match RequireConnected(conn)
    case Fail(e) => Err(e)
    case Pass =>
      var rows :- query;
      Ok(seq(|rows|, i requires 0 <= i < |rows| => ColumnOf(rows[i])))
  }

  /** `get_table_row_count`: the count cell of the one result row, 0 when
      no row comes back. `query` is the fetched row (if any) of the COUNT
      query, or the error it raised. */
  function RowCount<C>(conn: Option<C>, query: Result<Option<int>, string>): (r: Result<int, string>)
    ensures conn.None? ==> r == Err(NotConnected)
    ensures r.Err? <==> conn.None? || query.Err?
    ensures conn.Some? && query.Err? ==> r == Err(query.error)
    ensures r.Ok? && query.value.None? ==> r.value == 0
    ensures r.Ok? && query.value.Some? ==> r.value == query.value.value
  {
    match RequireConnected(conn)
    case Fail(e) => Err(e)
    case Pass =>
      var row :- query;
      Ok(row.GetOr(0))
  }

  /** Rendered digits and sign are neither lower-case nor whitespace. */
  lemma NumeralChars(i: int)
    ensures IntToString(i) != []
    ensures forall k :: 0 <= k < |IntToString(i)| ==> IntToString(i)[k] == '-' || IsDigit(IntToString(i)[k])
    ensures IsDigit(IntToString(i)[|IntToString(i)| - 1])
  {
    if i < 0 {
      assert IntToString(i) == "-" + NatToString(-i);
    }
  }

  /** A length-carrying type the connector renders converts to its mapped
      base with the length kept. */
  lemma LengthTypeConverts(t: string, n: int, scale: Option<int>)
    requires t in LengthTypes
    ensures TypeConverter.Convert(TypeString(t, Some(n), scale)) == TypeConverter.MapType(t) + "(" + Show(Some(n)) + ")"
  {
    var p := Show(Some(n));
    NumeralNormal(n);
    LengthParamsConvert(t, p);
  }

  lemma NumeralNormal(n: int)
    ensures TypeConverter.IsParams(Show(Some(n)))
    ensures Strip(Upper(Show(Some(n)))) == Show(Some(n))
  {
    var p := IntToString(n);
    NumeralChars(n);
    UpperOfCapitals(p);
    NoSpaceIn(p);
  }

  lemma LengthParamsConvert(t: string, p: string)
    requires t in LengthTypes
    requires TypeConverter.IsParams(p) && Strip(Upper(p)) == p
    ensures TypeConverter.Convert(t + "(" + p + ")") == TypeConverter.MapType(t) + "(" + p + ")"
  {
    assert TypeConverter.IsBaseName(t);
    TypeConverter.ConvertBaseParams(t, p);
    LengthNotSpecial(t);
  }

  /** None of the length-carrying types is one `convert_type` treats
      specially when parameterised. */
  lemma LengthNotSpecial(t: string)
    requires t in LengthTypes
    ensures t != "DECIMAL" && t != "DEC" && t != "BINARY" && t != "VARBINARY"
  {
    assert t[0] in {'V', 'C', 'G'};
    if t == "VARCHAR" || t == "VARGRAPHIC" {
      assert t[3] != "VARBINARY"[3];
    }
  }

  /** A decimal type the connector renders converts to NUMERIC with
      precision and scale kept. */
  lemma ScaleTypeConverts(t: string, n: int, s: int)
    requires t in ScaleTypes
    ensures TypeConverter.Convert(TypeString(t, Some(n), Some(s))) == "NUMERIC(" + PrecisionScale(Some(n), Some(s)) + ")"
  {
    var p := PrecisionScale(Some(n), Some(s));
    ScaleTypeString(t, Some(n), Some(s));
    PrecisionScaleNormal(n, s);
    ScaleParamsConvert(t, p);
  }

  lemma ScaleTypeString(t: string, length: Option<int>, scale: Option<int>)
    requires t in ScaleTypes
    ensures TypeString(t, length, scale) == t + "(" + PrecisionScale(length, scale) + ")"
  {
    assert t !in LengthTypes;
  }

  lemma ScaleParamsConvert(t: string, p: string)
    requires t in ScaleTypes
    requires TypeConverter.IsParams(p) && Strip(Upper(p)) == p
    ensures TypeConverter.Convert(t + "(" + p + ")") == "NUMERIC(" + p + ")"
  {
    assert TypeConverter.IsBaseName(t);
    TypeConverter.ConvertBaseParams(t, p);
    MatchedScale(t, p);
  }

  lemma MatchedScale(t: string, q: string)
    requires t in ScaleTypes
    ensures TypeConverter.ConvertMatched(t, q) == "NUMERIC(" + q + ")"
  {
    if t == "NUMERIC" {
      assert TypeConverter.MapType(t) == "NUMERIC";
    }
  }

  lemma PrecisionScaleNormal(n: int, s: int)
    ensures TypeConverter.IsParams(PrecisionScale(Some(n), Some(s)))
    ensures Strip(Upper(PrecisionScale(Some(n), Some(s)))) == PrecisionScale(Some(n), Some(s))
  {
    var p := PrecisionScale(Some(n), Some(s));
    NumeralChars(n);
    NumeralChars(s);
    assert forall k :: 0 <= k < |p| ==> p[k] == '-' || p[k] == ',' || IsDigit(p[k]);
    UpperOfCapitals(p);
    assert p[0] == '-' || IsDigit(p[0]);
    StripTrimmed(p);
  }

  /* ---------------- fetch_table_data ---------------- */

  function Concat<T>(bs: seq<seq<T>>): seq<T> {
    if |bs| == 0 then [] else bs[0] + Concat(bs[1..])
  }

  lemma {:induction false} ConcatSnoc<T>(bs: seq<seq<T>>, b: seq<T>)
    ensures Concat(bs + [b]) == Concat(bs) + b
  {
    if |bs| > 0 {
      assert (bs + [b])[1..] == bs[1..] + [b];
      ConcatSnoc(bs[1..], b);
    }
  }

  /** The batches the generator yields: rows are collected until the batch
      reaches `batch_size` (so a size below 1 behaves as 1), and a final
      partial batch is yielded when the rows run out. */
  method FetchBatches<T>(rows: seq<T>, batchSize: int) returns (batches: seq<seq<T>>)
    ensures Concat(batches) == rows
    ensures forall i :: 0 <= i < |batches| ==> batches[i] != []
    ensures forall i :: 0 <= i < |batches| ==> |batches[i]| <= if batchSize < 1 then 1 else batchSize
    ensures forall i :: 0 <= i < |batches| - 1 ==> |batches[i]| == if batchSize < 1 then 1 else batchSize
  {
    var cap := if batchSize < 1 then 1 else batchSize;
    batches := [];
    var batch: seq<T> := [];
    var i := 0;
    while i < |rows|
      invariant 0 <= i <= |rows|
      invariant Concat(batches) + batch == rows[..i]
      invariant |batch| < cap
      invariant forall k :: 0 <= k < |batches| ==> |batches[k]| == cap
    {
      AppendRow(rows, i, Concat(batches), batch);
      batch := batch + [rows[i]];
      if |batch| >= batchSize {
        FullBatch(batches, batch, cap);
        batches := batches + [batch];
        batch := [];
      }
      i := i + 1;
    }
    assert rows[..i] == rows;
    if batch != [] {
      ConcatSnoc(batches, batch);
      batches := batches + [batch];
    }
  }

  /** Closing a full batch keeps every closed batch at the cap and the
      concatenation unchanged. */
  lemma FullBatch<T>(batches: seq<seq<T>>, batch: seq<T>, cap: int)
    requires forall k :: 0 <= k < |batches| ==> |batches[k]| == cap
    requires |batch| == cap
    ensures forall k :: 0 <= k < |batches + [batch]| ==> |(batches + [batch])[k]| == cap
    ensures Concat(batches + [batch]) == Concat(batches) + batch
  {
    ConcatSnoc(batches, batch);
  }

  lemma AppendRow<T>(rows: seq<T>, i: nat, done: seq<T>, batch: seq<T>)
    requires i < |rows| && done + batch == rows[..i]
    ensures done + (batch + [rows[i]]) == rows[..i + 1]
  {
    assert rows[..i + 1] == rows[..i] + [rows[i]];
  }
}

=== FILE: migrator.dfy ===
/** `Migrator.run_migration`: the per-table phase pipeline. Every
    collaborator is an oracle that either answers or raises; the model
    records the calls made, in order, and stops at the first raise, as the
    loop has no handler. Logging and timing are left out. */
module Migrator {
  import opened Wrappers
  import opened Catalog
  import SchemaConverter
  import Validator

  /** A call the pipeline makes on a collaborator. */
  datatype Step =
    | ExtractSchema(table: string)
    | ExtractPrimaryKeys(table: string)
    | ExtractForeignKeys(table: string)
    | ExtractIndexes(table: string)
    | ExecuteDdl(ddl: string)
    | TransferTable(table: string)
    | ValidateRowCounts(table: string)

  /** The collaborators' answers, or the message of what they raise. */
  datatype Env = Env(
    tableSchema: string -> Result<seq<Column>, string>,
    primaryKeys: string -> Result<seq<string>, string>,
    foreignKeys: string -> Result<seq<ForeignKey>, string>,
    indexes: string -> Result<seq<Index>, string>,
    executeDdl: string -> Outcome<string>,
    transfer: string -> Outcome<string>,
    validate: string -> Result<Validator.RowCountCheck, string>)

  /** The `config` argument: `tables` and `validate` may be absent. */
  datatype Request = Request(tables: Option<seq<string>>, validate: Option<bool>)

  /** The calls made so far, and what was raised if the run stopped. */
  datatype Progress = Progress(steps: seq<Step>, raised: Option<string>)

  datatype Summary = Summary(status: string, tablesMigrated: nat)

  /** Which of the optional phases a table goes through. */
  datatype Phases = Phases(transfer: bool, validate: bool)

  const SchemaOnly := "schema_only"

  /** Data moves unless the mode is `schema_only`; row counts are checked
      when data moves and validation is on. */
  function PhasesOf(mode: string, validate: bool): (ph: Phases)
    ensures ph.transfer <==> mode != SchemaOnly
    ensures ph.validate <==> ph.transfer && validate
  {
    Phases(mode != SchemaOnly, mode != SchemaOnly && validate)
  }

  /** The primary-key DDL a table needs: only a non-empty key list gets
      one. */
  function PrimaryKeyStep(table: string, pkColumns: seq<string>): (r: Option<string>)
    ensures r.Some? <==> pkColumns != []
    ensures r.Some? ==> r.value == SchemaConverter.PrimaryKeyDdl(table, pkColumns)
  {
    if pkColumns != [] then Some(SchemaConverter.PrimaryKeyDdl(table, pkColumns)) else None
  }

  /** The data calls after the DDL: the transfer, then the row-count check. */
  function DataSteps(table: string, ph: Phases): (ds: seq<Step>)
    ensures forall i :: 0 <= i < |ds| ==> !ds[i].ExecuteDdl?
    ensures TransferTable(table) in ds <==> ph.transfer
    ensures ValidateRowCounts(table) in ds <==> ph.validate
  {
    (if ph.transfer then [TransferTable(table)] else []) + (if ph.validate then [ValidateRowCounts(table)] else [])
  }

  /** Everything after CREATE TABLE: the primary key DDL, if any, then the
      data calls. */
  function AfterCreate(table: string, pkDdl: Option<string>, ph: Phases): (t: seq<Step>)
    ensures pkDdl.Some? ==> |t| >= 1 && t[0] == ExecuteDdl(pkDdl.value) && t[1..] == DataSteps(table, ph)
    ensures pkDdl.None? ==> t == DataSteps(table, ph)
  {
    if pkDdl.Some? then [ExecuteDdl(pkDdl.value)] + DataSteps(table, ph) else DataSteps(table, ph)
  }

  /** The calls one table goes through when nothing raises, given the DDL
      generated from what the extractors return. */
  function Plan(table: string, createDdl: string, pkDdl: Option<string>, ph: Phases): (ps: seq<Step>)
    ensures |ps| >= 5
    ensures ps[..4] == [ExtractSchema(table), ExtractPrimaryKeys(table), ExtractForeignKeys(table), ExtractIndexes(table)]
    ensures ps[4] == ExecuteDdl(createDdl)
    ensures pkDdl.Some? ==> |ps| >= 6 && ps[5] == ExecuteDdl(pkDdl.value)
    ensures pkDdl.None? ==> forall i :: 5 <= i < |ps| ==> !ps[i].ExecuteDdl?
    ensures TransferTable(table) in ps <==> ph.transfer
    ensures ValidateRowCounts(table) in ps <==> ph.validate
  {
    var extract := [ExtractSchema(table), ExtractPrimaryKeys(table), ExtractForeignKeys(table), ExtractIndexes(table)];
    var head := extract + [ExecuteDdl(createDdl)];
    var after := AfterCreate(table, pkDdl, ph);
    var ps := head + after;
    assert ps[..4] == extract && ps[4] == ExecuteDdl(createDdl);
    assert forall i :: 5 <= i < |ps| ==> ps[i] == after[i - 5];
    assert TransferTable(table) in ps <==> TransferTable(table) in after;
    assert ValidateRowCounts(table) in ps <==> ValidateRowCounts(table) in after;
    ps
  }

  /** What a call raises, if anything. */
  function Raises(env: Env, s: Step): Option<string> {
    match s
    case ExtractSchema(t) => if env.tableSchema(t).Err? then Some(env.tableSchema(t).error) else None
    case ExtractPrimaryKeys(t) => if env.primaryKeys(t).Err? then Some(env.primaryKeys(t).error) else None
    case ExtractForeignKeys(t) => if env.foreignKeys(t).Err? then Some(env.foreignKeys(t).error) else None
    case ExtractIndexes(t) => if env.indexes(t).Err? then Some(env.indexes(t).error) else None
    case ExecuteDdl(d) => if env.executeDdl(d).Fail? then Some(env.executeDdl(d).error) else None
    case TransferTable(t) => if env.transfer(t).Fail? then Some(env.transfer(t).error) else None
    case ValidateRowCounts(t) => if env.validate(t).Err? then Some(env.validate(t).error) else None
  }

  /** Making the calls `ps` in order up to and including the first that
      raises. */
  function Perform(env: Env, ps: seq<Step>): (p: Progress)
    ensures |p.steps| <= |ps| && p.steps == ps[..|p.steps|]
    ensures p.raised.None? <==> forall i :: 0 <= i < |ps| ==> Raises(env, ps[i]).None?
    ensures p.raised.None? ==> p.steps == ps
    ensures p.raised.Some? ==>
      && |p.steps| > 0
      && Raises(env, p.steps[|p.steps| - 1]) == p.raised
      && forall i :: 0 <= i < |p.steps| - 1 ==> Raises(env, p.steps[i]).None?
  {
    if |ps| == 0 then Progress([], None)
    else match Raises(env, ps[0])
      case Some(e) => Progress([ps[0]], Some(e))
      case None =>
        var rest := Perform(env, ps[1..]);
        assert forall i :: 0 < i < |ps| ==> ps[i] == ps[1..][i - 1];
        Progress([ps[0]] + rest.steps, rest.raised)
  }

  /** One iteration of the loop body, in the order the source makes the
      calls: the schema and key lists are needed to plan the rest. */
  function MigrateTable(env: Env, ph: Phases, table: string): Progress {
    match env.tableSchema(table)
    case Err(e) => Progress([ExtractSchema(table)], Some(e))
    case Ok(columns) =>
      match env.primaryKeys(table)
      case Err(e) => Progress([ExtractSchema(table), ExtractPrimaryKeys(table)], Some(e))
      case Ok(pkColumns) =>
        Perform(env, Plan(table, SchemaConverter.CreateTableDdl(table, columns), PrimaryKeyStep(table, pkColumns), ph))
  }

  /** The loop over the tables, in list order, with the per-table body
      `migrate`: the calls made, and the count of tables that went
      through. */
  function Loop(migrate: string -> Progress, tables: seq<string>): (r: (Progress, nat))
    ensures r.1 <= |tables|
    ensures r.0.raised.None? ==> r.1 == |tables|
  {
    if |tables| == 0 then (Progress([], None), 0)
    else
      var first := migrate(tables[0]);
      if first.raised.Some? then (first, 0)
      else
        var rest := Loop(migrate, tables[1..]);
        (Progress(first.steps + rest.0.steps, rest.0.raised), 1 + rest.1)
  }

  /** The calls of every table, one after another. */
  function Trace(migrate: string -> Progress, tables: seq<string>): seq<Step> {
    if |tables| == 0 then [] else migrate(tables[0]).steps + Trace(migrate, tables[1..])
  }

  /** `run_migration`: `tables` defaults to none and `validate` to true;
      the summary on return always reads `completed`. */
  function RunMigration(env: Env, request: Request, mode: string): (r: (Progress, Result<Summary, string>))
    ensures r.1.Ok? <==> r.0.raised.None?
    ensures r.1.Err? ==> r.0.raised == Some(r.1.error)
    ensures r.1.Ok? ==> (r.1.value.status == "completed"
                         && r.1.value.tablesMigrated == |request.tables.GetOr([])|)
  {
    var ph := PhasesOf(mode, request.validate.GetOr(true));
    var (progress, count) := Loop(t => MigrateTable(env, ph, t), request.tables.GetOr([]));
    match progress.raised
    case Some(e) => (progress, Err(e))
    case None => (progress, Ok(Summary("completed", count)))
  }

  /* ---------------- properties ---------------- */

  /** A table whose extractors answer goes through its plan; one whose
      schema or key extraction raises stops right there. */
  lemma MigrateTableFollowsPlan(env: Env, ph: Phases, table: string)
    ensures env.tableSchema(table).Err? ==>
      MigrateTable(env, ph, table) == Progress([ExtractSchema(table)], Some(env.tableSchema(table).error))
    ensures env.tableSchema(table).Ok? && env.primaryKeys(table).Err? ==>
      MigrateTable(env, ph, table)
        == Progress([ExtractSchema(table), ExtractPrimaryKeys(table)], Some(env.primaryKeys(table).error))
    ensures env.tableSchema(table).Ok? && env.primaryKeys(table).Ok? ==>
      MigrateTable(env, ph, table)
        == Perform(env, Plan(table, SchemaConverter.CreateTableDdl(table, env.tableSchema(table).value),
                             PrimaryKeyStep(table, env.primaryKeys(table).value), ph))
  {
  }

  /** A run that returns made every call of every table, table after
      table in list order; it returns exactly when no table raises. */
  lemma {:induction false} TablesInOrder(migrate: string -> Progress, tables: seq<string>)
    ensures Loop(migrate, tables).0.raised.None? <==>
      forall i :: 0 <= i < |tables| ==> migrate(tables[i]).raised.None?
    ensures Loop(migrate, tables).0.raised.None? ==> Loop(migrate, tables).0.steps == Trace(migrate, tables)
  {
    if |tables| > 0 {
      TablesInOrder(migrate, tables[1..]);
      assert forall i :: 1 <= i < |tables| ==> tables[i] == tables[1..][i - 1];
    }
  }

  /** A raise stops the run: the tables before the failing one went
      through, the failing one's calls end with the raise, and no later
      table is touched. */
  lemma {:induction false} RaiseStopsRun(migrate: string -> Progress, tables: seq<string>, k: nat)
    requires k < |tables|
    requires forall i :: 0 <= i < k ==> migrate(tables[i]).raised.None?
    requires migrate(tables[k]).raised.Some?
    ensures Loop(migrate, tables).0
      == Progress(Trace(migrate, tables[..k]) + migrate(tables[k]).steps, migrate(tables[k]).raised)
  {
    if k == 0 {
      assert tables[..0] == [];
    } else {
      var rest := tables[1..];
      assert forall i :: 0 <= i < k - 1 ==> rest[i] == tables[i + 1];
      assert rest[k - 1] == tables[k];
      RaiseStopsRun(migrate, rest, k - 1);
      var first := migrate(tables[0]).steps;
      var failing := migrate(tables[k]);
      var before := Trace(migrate, rest[..k - 1]);
      assert migrate(tables[0]).raised.None?;
      LoopPasses(migrate, tables);
      TracePrefix(migrate, tables, k);
      assert first + (before + failing.steps) == (first + before) + failing.steps;
    }
  }

  /** A first table that goes through puts its calls before the rest of
      the run's. */
  lemma LoopPasses(migrate: string -> Progress, tables: seq<string>)
    requires |tables| > 0 && migrate(tables[0]).raised.None?
    ensures Loop(migrate, tables).0
      == Progress(migrate(tables[0]).steps + Loop(migrate, tables[1..]).0.steps, Loop(migrate, tables[1..]).0.raised)
  {
  }

  lemma TracePrefix(migrate: string -> Progress, tables: seq<string>, k: nat)
    requires 0 < k <= |tables|
    ensures Trace(migrate, tables[..k]) == migrate(tables[0]).steps + Trace(migrate, tables[1..][..k - 1])
  {
    var prefix := tables[..k];
    assert prefix[0] == tables[0] && prefix[1..] == tables[1..][..k - 1];
  }

  /** Two loop bodies that raise on the same tables migrate the same
      number of tables. */
  lemma {:induction false} LoopCountAgrees(m: string -> Progress, m': string -> Progress, tables: seq<string>)
    requires forall i :: 0 <= i < |tables| ==> (m(tables[i]).raised.None? <==> m'(tables[i]).raised.None?)
    ensures Loop(m, tables).0.raised.None? <==> Loop(m', tables).0.raised.None?
    ensures Loop(m, tables).1 == Loop(m', tables).1
  {
    if |tables| > 0 {
      assert forall i :: 1 <= i < |tables| ==> tables[i] == tables[1..][i - 1];
      LoopCountAgrees(m, m', tables[1..]);
    }
  }

  /** Perform makes at least the first `n` calls when none before the
      last of them raises. */
  lemma {:induction false} PerformReaches(env: Env, ps: seq<Step>, n: nat)
    requires n <= |ps|
    requires forall i :: 0 <= i < n - 1 ==> Raises(env, ps[i]).None?
    ensures |Perform(env, ps).steps| >= n
  {
    if n > 0 && |ps| > 0 && Raises(env, ps[0]).None? {
      assert forall i :: 0 <= i < n - 2 ==> ps[1..][i] == ps[i + 1];
      PerformReaches(env, ps[1..], n - 1);
    }
  }

  /** The extractions do not raise, so the plan reaches its CREATE
      TABLE. */
  lemma PlanReachesCreate(env: Env, table: string, createDdl: string, pkDdl: Option<string>, ph: Phases)
    requires env.tableSchema(table).Ok? && env.primaryKeys(table).Ok?
    requires env.foreignKeys(table).Ok? && env.indexes(table).Ok?
    ensures |Perform(env, Plan(table, createDdl, pkDdl, ph)).steps| >= 5
    ensures Perform(env, Plan(table, createDdl, pkDdl, ph)).steps[4] == ExecuteDdl(createDdl)
  {
    var ps := Plan(table, createDdl, pkDdl, ph);
    forall i | 0 <= i < 4
      ensures Raises(env, ps[i]).None?
    {
      assert ps[i] == ps[..4][i];
    }
    PerformReaches(env, ps, 5);
  }

  /** CREATE TABLE is executed for every table whose four extractions
      answer, whatever the mode, right after them. */
  lemma CreateTableEveryMode(env: Env, ph: Phases, table: string, columns: seq<Column>, pkColumns: seq<string>)
    requires env.tableSchema(table) == Ok(columns) && env.primaryKeys(table) == Ok(pkColumns)
    requires env.foreignKeys(table).Ok? && env.indexes(table).Ok?
    ensures |MigrateTable(env, ph, table).steps| >= 5
    ensures MigrateTable(env, ph, table).steps[4] == ExecuteDdl(SchemaConverter.CreateTableDdl(table, columns))
  {
    PlanReachesCreate(env, table, SchemaConverter.CreateTableDdl(table, columns), PrimaryKeyStep(table, pkColumns), ph);
  }

  /** In a table that goes through, the primary-key DDL is executed right
      after CREATE TABLE exactly when the key list is non-empty; data is
      transferred exactly when the mode is not `schema_only`, and row
      counts are checked exactly when, besides, validation is on. */
  lemma PhasesOfTable(env: Env, mode: string, validate: bool, table: string)
    requires MigrateTable(env, PhasesOf(mode, validate), table).raised.None?
    ensures env.tableSchema(table).Ok? && env.primaryKeys(table).Ok?
    ensures var steps := MigrateTable(env, PhasesOf(mode, validate), table).steps;
      && |steps| >= 5
      && steps[4] == ExecuteDdl(SchemaConverter.CreateTableDdl(table, env.tableSchema(table).value))
      && (env.primaryKeys(table).value != [] ==>
            |steps| >= 6 && steps[5] == ExecuteDdl(SchemaConverter.PrimaryKeyDdl(table, env.primaryKeys(table).value)))
      && (env.primaryKeys(table).value == [] ==> forall i :: 5 <= i < |steps| ==> !steps[i].ExecuteDdl?)
      && (TransferTable(table) in steps <==> mode != SchemaOnly)
      && (ValidateRowCounts(table) in steps <==> mode != SchemaOnly && validate)
  {
  }

  /** The summary does not depend on what the row-count validation finds
      (matching counts or not), only on whether it raises. */
  lemma SummaryIgnoresValidation(env: Env, env': Env, request: Request, mode: string)
    requires env' == env.(validate := env'.validate)
    requires forall t :: env.validate(t).Ok? <==> env'.validate(t).Ok?
    ensures RunMigration(env, request, mode).1.Ok? <==> RunMigration(env', request, mode).1.Ok?
    ensures RunMigration(env, request, mode).1.Ok? ==>
      RunMigration(env, request, mode).1 == RunMigration(env', request, mode).1
  {
    var ph := PhasesOf(mode, request.validate.GetOr(true));
    var tables := request.tables.GetOr([]);
    forall t | t in tables
      ensures MigrateTable(env, ph, t).raised.None? <==> MigrateTable(env', ph, t).raised.None?
    {
      MigrateTableAgrees(env, env', ph, t);
    }
    LoopCountAgrees(t => MigrateTable(env, ph, t), t => MigrateTable(env', ph, t), tables);
  }

  /** A table goes through under the row-count oracle `validate` exactly
      when it does under any other that fails on the same tables. */
  lemma MigrateTableAgrees(env: Env, env': Env, ph: Phases, table: string)
    requires env' == env.(validate := env'.validate)
    requires forall t :: env.validate(t).Ok? <==> env'.validate(t).Ok?
    ensures MigrateTable(env, ph, table).raised.None? <==> MigrateTable(env', ph, table).raised.None?
  {
    assert env'.tableSchema == env.tableSchema && env'.primaryKeys == env.primaryKeys;
    MigrateTableFollowsPlan(env, ph, table);
    MigrateTableFollowsPlan(env', ph, table);
    if env.tableSchema(table).Ok? && env.primaryKeys(table).Ok? {
      var ps := Plan(table, SchemaConverter.CreateTableDdl(table, env.tableSchema(table).value),
                     PrimaryKeyStep(table, env.primaryKeys(table).value), ph);
      PerformAgrees(env, env', ps);
    }
  }

  /** Two environments that raise on the same calls let the same plans
      through. */
  lemma PerformAgrees(env: Env, env': Env, ps: seq<Step>)
    requires env' == env.(validate := env'.validate)
    requires forall t :: env.validate(t).Ok? <==> env'.validate(t).Ok?
    ensures Perform(env, ps).raised.None? <==> Perform(env', ps).raised.None?
  {
    forall i | 0 <= i < |ps|
      ensures Raises(env, ps[i]).None? <==> Raises(env', ps[i]).None?
    {
      RaisesAgree(env, env', ps[i]);
    }
  }

  lemma RaisesAgree(env: Env, env': Env, s: Step)
    requires env' == env.(validate := env'.validate)
    requires forall t :: env.validate(t).Ok? <==> env'.validate(t).Ok?
    ensures Raises(env, s).None? <==> Raises(env', s).None?
  {
  }

  /** With `tables` absent no table is processed and the run completes
      with zero tables. */
  lemma NoTables(env: Env, validate: Option<bool>, mode: string)
    ensures RunMigration(env, Request(None, validate), mode) == (Progress([], None), Ok(Summary("completed", 0)))
  {
  }
}

=== FILE: ordered_dict.dfy ===
/** Python dicts as the source uses them: key/value pairs kept in insertion
    order (iteration order and JSON output order both follow it), with
    in-place overwrite of an existing key and append of a new one. */
module OrderedDict {
  import opened Wrappers

  type Entries<K, V> = seq<(K, V)>

  function Keys<K, V>(es: Entries<K, V>): (ks: seq<K>)
    ensures |ks| == |es|
    ensures forall i {:trigger ks[i]} :: 0 <= i < |es| ==> ks[i] == es[i].0
  {
    if |es| == 0 then [] else [es[0].0] + Keys(es[1..])
  }

  function Values<K, V>(es: Entries<K, V>): (vs: seq<V>)
    ensures |vs| == |es|
    ensures forall i :: 0 <= i < |es| ==> vs[i] == es[i].1
  {
    seq(|es|, i requires 0 <= i < |es| => es[i].1)
  }

  /** Every key occurs once, which every dict satisfies. */
  predicate UniqueKeys<K(==, !new), V>(es: Entries<K, V>) {
    forall i, j :: 0 <= i < j < |es| ==> es[i].0 != es[j].0
  }

  /** `d.get(k)`. */
  function Get<K(==, !new), V>(es: Entries<K, V>, k: K): (r: Option<V>)
    ensures r.Some? <==> k in Keys(es)
  {
    if |es| == 0 then None
    else if es[0].0 == k then Some(es[0].1)
    else
      assert Keys(es[1..]) == Keys(es)[1..];
      Get(es[1..], k)
  }

  /** What `Get` finds is one of the entries. */
  lemma {:induction false} GetIn<K(!new), V>(es: Entries<K, V>, k: K)
    ensures Get(es, k).Some? ==> (k, Get(es, k).value) in es
  {
    if |es| > 0 && es[0].0 != k {
      GetIn(es[1..], k);
      if Get(es, k).Some? {
        assert (k, Get(es, k).value) in es[1..];
      }
    }
  }

  /** In a dict, the value found under an entry's key is that entry's. */
  lemma {:induction false} GetUnique<K(!new), V>(es: Entries<K, V>, i: nat)
    requires UniqueKeys(es) && i < |es|
    ensures Get(es, es[i].0) == Some(es[i].1)
  {
    if i > 0 {
      assert es[0].0 != es[i].0;
      assert UniqueKeys(es[1..]);
      GetUnique(es[1..], i - 1);
    }
  }

  /** `d[k] = v`: overwrites the value in place when `k` is present and
      appends a new entry otherwise. */
  function Put<K(==, !new), V>(es: Entries<K, V>, k: K, v: V): (r: Entries<K, V>)
    ensures Get(r, k) == Some(v)
    ensures forall j :: j != k ==> Get(r, j) == Get(es, j)
  {
    if |es| == 0 then [(k, v)]
    else if es[0].0 == k then [(k, v)] + es[1..]
    else
      var r := [es[0]] + Put(es[1..], k, v);
      assert r[1..] == Put(es[1..], k, v);
      r
  }

  /** Overwriting keeps the key order and a new key goes last. */
  lemma {:induction false} PutKeys<K(!new), V>(es: Entries<K, V>, k: K, v: V)
    ensures Keys(Put(es, k, v)) == if k in Keys(es) then Keys(es) else Keys(es) + [k]
  {
    if |es| == 0 {
    } else if es[0].0 == k {
      assert Keys(Put(es, k, v)) == Keys(es);
    } else {
      var rest := Put(es[1..], k, v);
      PutKeys(es[1..], k, v);
      assert ([es[0]] + rest)[1..] == rest;
      assert Keys(Put(es, k, v)) == [es[0].0] + Keys(rest);
      assert k in Keys(es) <==> k in Keys(es[1..]);
      if k !in Keys(es[1..]) {
        assert [es[0].0] + (Keys(es[1..]) + [k]) == Keys(es) + [k];
      }
    }
  }

  /** Storing a key in a dict leaves a dict. */
  lemma PutUnique<K(!new), V>(es: Entries<K, V>, k: K, v: V)
    requires UniqueKeys(es)
    ensures UniqueKeys(Put(es, k, v))
  {
    if |es| > 0 && es[0].0 != k {
      var rest := Put(es[1..], k, v);
      PutKeys(es[1..], k, v);
      assert UniqueKeys(es[1..]);
      PutUnique(es[1..], k, v);
      assert es[0].0 !in Keys(es[1..]);
      assert es[0].0 !in Keys(rest);
      UniqueCons(es[0], rest);
    } else if |es| > 0 {
      assert Keys(Put(es, k, v)) == Keys(es);
    }
  }

  lemma UniqueCons<K(!new), V>(e: (K, V), es: Entries<K, V>)
    ensures UniqueKeys(es) && e.0 !in Keys(es) ==> UniqueKeys([e] + es)
  {
    if UniqueKeys(es) && e.0 !in Keys(es) {
      var r := [e] + es;
      forall i, j | 0 <= i < j < |r|
        ensures r[i].0 != r[j].0
      {
        assert r[j] == es[j - 1];
        if i > 0 {
          assert r[i] == es[i - 1];
        } else {
          assert Keys(es)[j - 1] == r[j].0;
        }
      }
    }
  }

  /** The values stored under key `k` in a list of keyed items, in order. */
  function Select<K(==, !new), T>(xs: seq<(K, T)>, k: K): (r: seq<T>)
    ensures r == [] <==> k !in Keys(xs)
  {
    if |xs| == 0 then []
    else
      assert Keys(xs[..|xs| - 1]) + [xs[|xs| - 1].0] == Keys(xs);
      Select(xs[..|xs| - 1], k) + (if xs[|xs| - 1].0 == k then [xs[|xs| - 1].1] else [])
  }

  /** The distinct elements of `ks` in order of first appearance. */
  function Distinct<K(==, !new)>(ks: seq<K>): (r: seq<K>)
    ensures forall k :: k in r <==> k in ks
    ensures forall i, j :: 0 <= i < j < |r| ==> r[i] != r[j]
  {
    if |ks| == 0 then []
    else
      var d := Distinct(ks[..|ks| - 1]);
      assert ks == ks[..|ks| - 1] + [ks[|ks| - 1]];
      if ks[|ks| - 1] in d then d else d + [ks[|ks| - 1]]
  }

  lemma DistinctSnoc<K(!new)>(ks: seq<K>, i: nat)
    requires i < |ks|
    ensures Distinct(ks[..i + 1]) == if ks[i] in Distinct(ks[..i]) then Distinct(ks[..i]) else Distinct(ks[..i]) + [ks[i]]
    ensures forall k :: k in ks[..i + 1] <==> k in ks[..i] || k == ks[i]
  {
    assert ks[..i + 1] == ks[..i] + [ks[i]];
    assert ks[..i + 1][..i] == ks[..i];
  }

  /** `groups.setdefault(k, []).append(x)`. */
  function AddTo<K(==, !new), T>(groups: Entries<K, seq<T>>, k: K, x: T): Entries<K, seq<T>> {
    Put(groups, k, Get(groups, k).GetOr([]) + [x])
  }

  /** Groups keyed items by key, folding `AddTo` over the input. */
  function GroupBy<K(==, !new), T>(xs: seq<(K, T)>): Entries<K, seq<T>>
  {
    if |xs| == 0 then []
    else AddTo(GroupBy(xs[..|xs| - 1]), xs[|xs| - 1].0, xs[|xs| - 1].1)
  }

  /** Each key of the input maps to exactly that key's items, in input order;
      no other key is present. */
  lemma {:induction false} GroupByGet<K(!new), T>(xs: seq<(K, T)>, k: K)
    ensures Get(GroupBy(xs), k) == if k in Keys(xs) then Some(Select(xs, k)) else None
  {
    if |xs| > 0 {
      var init := xs[..|xs| - 1];
      var last := xs[|xs| - 1];
      var g := GroupBy(init);
      assert GroupBy(xs) == AddTo(g, last.0, last.1);
      GroupByGet(init, k);
      SelectSnoc(xs, k);
      KeysInit(xs);
      AddToGet(g, last.0, last.1, k);
      if k == last.0 {
        assert Get(g, k).GetOr([]) == Select(init, k);
        assert Get(GroupBy(xs), k) == Some(Select(init, k) + [last.1]);
        assert Select(xs, k) == Select(init, k) + [last.1];
        assert k in Keys(xs);
      } else {
        assert Get(GroupBy(xs), k) == Get(g, k);
        assert Select(xs, k) == Select(init, k);
        assert k in Keys(xs) <==> k in Keys(init);
      }
    }
  }

  /** The last item extends the selection of its own key and no other. */
  lemma SelectSnoc<K(!new), T>(xs: seq<(K, T)>, k: K)
    requires |xs| > 0
    ensures Select(xs, k) == Select(xs[..|xs| - 1], k) + (if xs[|xs| - 1].0 == k then [xs[|xs| - 1].1] else [])
  {
  }

  /** Dropping the last item drops the last key. */
  lemma KeysInit<K(!new), T>(xs: seq<(K, T)>)
    requires |xs| > 0
    ensures Keys(xs) == Keys(xs[..|xs| - 1]) + [xs[|xs| - 1].0]
  {
    var init := xs[..|xs| - 1];
    forall i | 0 <= i < |init| ensures Keys(xs)[i] == Keys(init)[i] {
      assert init[i] == xs[i];
    }
  }

  /** `AddTo` changes the group of its own key only. */
  lemma AddToGet<K(!new), T>(g: Entries<K, seq<T>>, key: K, x: T, k: K)
    ensures Get(AddTo(g, key, x), k) == if k == key then Some(Get(g, k).GetOr([]) + [x]) else Get(g, k)
  {
  }

  /** The groups form a dict whose keys are the distinct input keys in order
      of first appearance. */
  lemma {:induction false} GroupByKeys<K(!new), T>(xs: seq<(K, T)>)
    ensures UniqueKeys(GroupBy(xs))
    ensures Keys(GroupBy(xs)) == Distinct(Keys(xs))
  {
    if |xs| > 0 {
      var init := xs[..|xs| - 1];
      var last := xs[|xs| - 1];
      var g := GroupBy(init);
      var v := Get(g, last.0).GetOr([]) + [last.1];
      assert GroupBy(xs) == Put(g, last.0, v);
      GroupByKeys(init);
      PutKeys(g, last.0, v);
      PutUnique(g, last.0, v);
      DistinctKeysSnoc(xs);
    }
  }

  /** The distinct keys grow by the last item's key when it is new. */
  lemma DistinctKeysSnoc<K(!new), T>(xs: seq<(K, T)>)
    requires |xs| > 0
    ensures Distinct(Keys(xs)) ==
      var d := Distinct(Keys(xs[..|xs| - 1]));
      if xs[|xs| - 1].0 in d then d else d + [xs[|xs| - 1].0]
  {
    var init := xs[..|xs| - 1];
    var last := xs[|xs| - 1];
    KeysSnoc(init, last);
    assert init + [last] == xs;
    assert (Keys(init) + [last.0])[..|xs| - 1] == Keys(init);
  }

  /** Each group holds its key's items, in input order. */
  lemma GroupByEntries<K(!new), T>(xs: seq<(K, T)>, i: nat)
    requires i < |GroupBy(xs)|
    ensures GroupBy(xs)[i].0 in Keys(xs)
    ensures GroupBy(xs)[i].1 == Select(xs, GroupBy(xs)[i].0)
  {
    var g := GroupBy(xs);
    GroupByKeys(xs);
    assert Keys(g)[i] == g[i].0;
    GroupByGet(xs, g[i].0);
    GetUnique(g, i);
  }

  lemma KeysSnoc<K, V>(es: Entries<K, V>, e: (K, V))
    ensures Keys(es + [e]) == Keys(es) + [e.0]
  {
    if |es| > 0 {
      assert (es + [e])[1..] == es[1..] + [e];
    }
  }

  /** The sum of `f` over the stored values. */
  function Sum<K, V>(es: Entries<K, V>, f: V -> int): int {
    if |es| == 0 then 0 else f(es[0].1) + Sum(es[1..], f)
  }

  /** Storing `v` under `k` replaces the old value's share of a sum by `v`'s. */
  lemma {:induction false} SumPut<K(!new), V>(es: Entries<K, V>, k: K, v: V, f: V -> int)
    requires UniqueKeys(es)
    ensures Sum(Put(es, k, v), f)
         == Sum(es, f) + f(v) - (if Get(es, k).Some? then f(Get(es, k).value) else 0)
  {
    if |es| == 0 {
    } else if es[0].0 == k {
      assert Put(es, k, v)[1..] == es[1..];
    } else {
      assert UniqueKeys(es[1..]);
      SumPut(es[1..], k, v, f);
      assert Put(es, k, v)[1..] == Put(es[1..], k, v);
    }
  }

  function Length<T>(s: seq<T>): int {
    |s|
  }

  /** Grouping loses and duplicates nothing: the groups together hold
      exactly as many items as the input. */
  lemma {:induction false} GroupBySize<K(!new), T>(xs: seq<(K, T)>)
    ensures Sum(GroupBy(xs), Length<T>) == |xs|
  {
    if |xs| > 0 {
      var init := xs[..|xs| - 1];
      var last := xs[|xs| - 1];
      var g := GroupBy(init);
      var v := Get(g, last.0).GetOr([]) + [last.1];
      assert GroupBy(xs) == Put(g, last.0, v);
      GroupBySize(init);
      GroupByKeys(init);
      SumPut(g, last.0, v, Length<T>);
    }
  }
}

=== FILE: plsql_converter.dfy ===
/** `PLSQLConverter`: best-effort rewriting of DB2 SQL PL routine text into
    PL/pgSQL, with warnings for features that need manual review. The
    regular-expression engine is not modelled: `search(pattern, text)` and
    `sub(pattern, replacement, text)` stand for `re.search` and `re.sub`
    with IGNORECASE. */
module PlsqlConverter {
  import opened Wrappers
  import opened Text

  type Search = (string, string) -> bool
  type Substitute = (string, string, string) -> string

  /** `REPLACEMENTS`: (pattern, replacement) pairs applied in this order. */
  const Replacements: seq<(string, string)> := [
    ("\\bLANGUAGE\\s+SQL\\b", "LANGUAGE plpgsql"),
    ("\\bIN\\s+OUT\\b", "INOUT"),
    ("\\bBEGIN\\s+ATOMIC\\b", "BEGIN"),
    ("\\bDECLARE\\s+", "  DECLARE\n    "),
    ("\\bSET\\s+([a-zA-Z_][a-zA-Z0-9_]*)\\s*=", "\\1 :="),
    ("\\bCALL\\s+", "PERFORM "),
    ("\\bSELECT\\s+(.*?)\\s+INTO\\s+([a-zA-Z_][a-zA-Z0-9_]*)", "SELECT \\1 INTO \\2"),
    ("\\bDECLARE\\s+([a-zA-Z_][a-zA-Z0-9_]*)\\s+CONDITION", "-- CONDITION: \\1"),
    ("\\bDECLARE\\s+CONTINUE\\s+HANDLER", "EXCEPTION"),
    ("\\bDECLARE\\s+EXIT\\s+HANDLER", "EXCEPTION"),
    ("\\bDECIMAL\\((\\d+),(\\d+)\\)", "NUMERIC(\\1,\\2)"),
    ("\\bSMALLINT\\b", "SMALLINT"),
    ("\\bINTEGER\\b", "INTEGER"),
    ("\\bBIGINT\\b", "BIGINT"),
    ("\\bVARCHAR\\((\\d+)\\)", "VARCHAR(\\1)"),
    ("\\bCHAR\\((\\d+)\\)", "CHAR(\\1)"),
    ("\\bDATE\\b", "DATE"),
    ("\\bTIMESTAMP\\b", "TIMESTAMP"),
    ("\\bCURRENT\\s+DATE\\b", "CURRENT_DATE"),
    ("\\bCURRENT\\s+TIME\\b", "CURRENT_TIME"),
    ("\\bCURRENT\\s+TIMESTAMP\\b", "CURRENT_TIMESTAMP"),
    ("\\bVALUE\\((.*?),(.*?)\\)", "COALESCE(\\1,\\2)"),
    ("\\bLENGTH\\((.*?)\\)", "LENGTH(\\1)"),
    ("\\bSUBSTR\\((.*?)\\)", "SUBSTRING(\\1)"),
    ("\\bCONCAT\\((.*?)\\)", "CONCAT(\\1)"),
    ("\\bCOMMIT\\s+WORK\\b", "COMMIT"),
    ("\\bROLLBACK\\s+WORK\\b", "ROLLBACK")
  ]

  /** `COMPLEX_PATTERNS`: (pattern, feature name) pairs checked in this
      order. Two patterns share the name "transition table reference". */
  const ComplexPatterns: seq<(string, string)> := [
    ("\\bCURSOR\\b", "cursor usage"),
    ("\\bFOR\\s+LOOP\\b", "FOR loop"),
    ("\\bWHILE\\s+LOOP\\b", "WHILE loop"),
    ("\\bREPEAT\\s+UNTIL\\b", "REPEAT UNTIL loop"),
    ("\\bGOTO\\b", "GOTO statement"),
    ("\\bLABEL\\b", "label usage"),
    ("\\bSIGNAL\\b", "SIGNAL statement"),
    ("\\bRESIGNAL\\b", "RESIGNAL statement"),
    ("\\bDYNAMIC\\s+SQL\\b", "dynamic SQL"),
    ("\\bEXECUTE\\s+IMMEDIATE\\b", "EXECUTE IMMEDIATE"),
    ("\\bPREPARE\\b", "prepared statement"),
    ("\\bOPEN\\b.*\\bCURSOR\\b", "cursor operations"),
    ("\\bFETCH\\b", "cursor fetch"),
    ("\\bTRIGGER\\b", "trigger definition"),
    ("\\bOLD\\s+TABLE\\b", "transition table reference"),
    ("\\bNEW\\s+TABLE\\b", "transition table reference")
  ]

  const ReturnsTable := "\\bRETURNS\\s+TABLE\\b"

  /* ---------------- feature detection ---------------- */

  /** `_detect_complex_features`: the names of the patterns found in the
      text, one per matching pattern, in pattern order. */
  function DetectFeatures(patterns: seq<(string, string)>, definition: string, search: Search): (r: seq<string>)
    ensures |r| <= |patterns|
    ensures forall f :: f in r <==> exists j :: 0 <= j < |patterns| && patterns[j].1 == f && search(patterns[j].0, definition)
  {
    if |patterns| == 0 then []
    else
      var rest := DetectFeatures(patterns[1..], definition, search);
      assert forall j :: 0 <= j < |patterns| - 1 ==> patterns[1..][j] == patterns[j + 1];
      (if search(patterns[0].0, definition) then [patterns[0].1] else []) + rest
  }

  /** Detection over a split pattern list is detection over each part. */
  lemma {:induction false} DetectAppend(a: seq<(string, string)>, b: seq<(string, string)>, definition: string, search: Search)
    ensures DetectFeatures(a + b, definition, search) == DetectFeatures(a, definition, search) + DetectFeatures(b, definition, search)
  {
    if |a| > 0 {
      assert (a + b)[1..] == a[1..] + b;
      DetectAppend(a[1..], b, definition, search);
    } else {
      assert a + b == b;
    }
  }

  /** Text containing both transition-table forms is reported twice under
      the same feature name. */
  lemma TransitionTablesReportedTwice(definition: string, search: Search)
    requires search(ComplexPatterns[14].0, definition) && search(ComplexPatterns[15].0, definition)
    ensures var fs := DetectFeatures(ComplexPatterns, definition, search);
      |fs| >= 2 && fs[|fs| - 2] == fs[|fs| - 1] == "transition table reference"
  {
    var front := ComplexPatterns[..14];
    var back := ComplexPatterns[14..];
    assert ComplexPatterns == front + back;
    DetectAppend(front, back, definition, search);
    assert back[1..] == [ComplexPatterns[15]];
  }

  /* ---------------- rewriting ---------------- */

  /** Applies the substitutions in list order, each to the previous
      result. */
  function ApplyReplacements(reps: seq<(string, string)>, text: string, sub: Substitute): string {
    if |reps| == 0 then text
    else
      var last := reps[|reps| - 1];
      sub(last.0, last.1, ApplyReplacements(reps[..|reps| - 1], text, sub))
  }

  /** The first substitution sees the original text and the rest see its
      result. */
  lemma {:induction false} ApplyFirst(reps: seq<(string, string)>, text: string, sub: Substitute)
    requires reps != []
    ensures ApplyReplacements(reps, text, sub) == ApplyReplacements(reps[1..], sub(reps[0].0, reps[0].1, text), sub)
  {
    if |reps| > 1 {
      var init := reps[..|reps| - 1];
      ApplyFirst(init, text, sub);
      assert init[1..] == reps[1..][..|reps[1..]| - 1];
    }
  }

  /* ---------------- warnings and output ---------------- */

  const ManualReview := "Manual review required"

  function FeatureWarning(feature: string): string {
    "Complex feature detected: " + feature
  }

  function FeatureWarnings(features: seq<string>): (ws: seq<string>)
    ensures |ws| == |features|
    ensures forall i :: 0 <= i < |features| ==> ws[i] == FeatureWarning(features[i])
  {
    seq(|features|, i requires 0 <= i < |features| => FeatureWarning(features[i]))
  }

  lemma FeatureWarningNotReview(feature: string)
    ensures FeatureWarning(feature) != ManualReview
  {
    assert FeatureWarning(feature)[0] == 'C';
    assert ManualReview[0] == 'M';
  }

  /** A routine definition as the converter receives it: `name` and
      `definition` may be absent (None). */
  datatype Routine = Routine(name: Option<string>, definition: Option<string>)

  /** What a conversion leaves for manual review. */
  datatype FailedConversion = FailedConversion(name: string, original: string, converted: string, warnings: seq<string>)

  /** The converted text, the warnings, and the failed-conversion record
      written when there are warnings. */
  datatype Conversion = Conversion(code: string, warnings: seq<string>, saved: Option<FailedConversion>)

  function NameOf(r: Routine): string {
    r.name.GetOr("UNKNOWN")
  }

  /** `not definition`: absent or empty. */
  predicate NoDefinition(r: Routine) {
    r.definition.None? || r.definition.value == ""
  }

  /** The warning-count line of a procedure header. */
  function WarningLine(count: nat): string {
    if count == 0 then "" else "-- WARNINGS: " + IntToString(count) + " issues detected\n"
  }

  function ProcedureHeader(name: string, count: nat): string {
    "-- Converted from DB2 procedure: " + name + "\n" +
    "-- Original definition may require manual review\n" +
    WarningLine(count) + "\n"
  }

  function FunctionHeader(name: string): string {
    "-- Converted from DB2 function: " + name + "\n\n"
  }

  /** `convert_procedure`. */
  function ConvertProcedure(r: Routine, search: Search, sub: Substitute): (c: Conversion)
    ensures NoDefinition(r) ==> c == Conversion("", ["No definition found for procedure " + NameOf(r)], None)
    ensures !NoDefinition(r) ==>
      var features := DetectFeatures(ComplexPatterns, r.definition.value, search);
      && c.warnings == FeatureWarnings(features) + (if features == [] then [] else [ManualReview])
      && c.code == ProcedureHeader(NameOf(r), |c.warnings|) + ApplyReplacements(Replacements, r.definition.value, sub)
      && (c.saved.Some? <==> c.warnings != [])
      && (c.saved.Some? ==> c.saved.value == FailedConversion(NameOf(r), r.definition.value, c.code, c.warnings))
  {
    var name := NameOf(r);
    if NoDefinition(r) then Conversion("", ["No definition found for procedure " + name], None)
    else
      var definition := r.definition.value;
      var features := DetectFeatures(ComplexPatterns, definition, search);
      var warnings := FeatureWarnings(features) + (if features == [] then [] else [ManualReview]);
      var code := ProcedureHeader(name, |warnings|) + ApplyReplacements(Replacements, definition, sub);
      Conversion(code, warnings, if warnings == [] then None else Some(FailedConversion(name, definition, code, warnings)))
  }

  /** `convert_function`: the same rewriting plus the RETURNS TABLE pass,
      a shorter header, and never the manual-review line. */
  function ConvertFunction(r: Routine, search: Search, sub: Substitute): (c: Conversion)
    ensures NoDefinition(r) ==> c == Conversion("", ["No definition found for function " + NameOf(r)], None)
    ensures !NoDefinition(r) ==>
      && c.warnings == FeatureWarnings(DetectFeatures(ComplexPatterns, r.definition.value, search))
      && c.code == FunctionHeader(NameOf(r)) +
                   sub(ReturnsTable, "RETURNS TABLE", ApplyReplacements(Replacements, r.definition.value, sub))
      && (c.saved.Some? <==> c.warnings != [])
  {
    var name := NameOf(r);
    if NoDefinition(r) then Conversion("", ["No definition found for function " + name], None)
    else
      var definition := r.definition.value;
      var warnings := FeatureWarnings(DetectFeatures(ComplexPatterns, definition, search));
      var code := FunctionHeader(name) + sub(ReturnsTable, "RETURNS TABLE", ApplyReplacements(Replacements, definition, sub));
      Conversion(code, warnings, if warnings == [] then None else Some(FailedConversion(name, definition, code, warnings)))
  }

  /** A procedure gets the manual-review line exactly when a complex
      feature is found, and then as its last warning. */
  lemma ManualReviewIffFeatures(r: Routine, search: Search, sub: Substitute)
    requires !NoDefinition(r)
    ensures var c := ConvertProcedure(r, search, sub);
      var features := DetectFeatures(ComplexPatterns, r.definition.value, search);
      && (ManualReview in c.warnings <==> features != [])
      && (features != [] ==> c.warnings[|c.warnings| - 1] == ManualReview && |c.warnings| == |features| + 1)
      && (features == [] <==> c.warnings == [])
  {
    var features := DetectFeatures(ComplexPatterns, r.definition.value, search);
    forall f | f in FeatureWarnings(features)
      ensures f != ManualReview
    {
      var i :| 0 <= i < |features| && FeatureWarnings(features)[i] == f;
      FeatureWarningNotReview(features[i]);
    }
  }

  /** A function's warnings never include the manual-review line. */
  lemma FunctionNeverManualReview(r: Routine, search: Search, sub: Substitute)
    ensures ManualReview !in ConvertFunction(r, search, sub).warnings
  {
    if !NoDefinition(r) {
      var features := DetectFeatures(ComplexPatterns, r.definition.value, search);
      forall f | f in FeatureWarnings(features)
        ensures f != ManualReview
      {
        var i :| 0 <= i < |features| && FeatureWarnings(features)[i] == f;
        FeatureWarningNotReview(features[i]);
      }
    } else {
      var w := "No definition found for function " + NameOf(r);
      assert w[0] == 'N';
    }
  }

  /* ---------------- summary ---------------- */

  datatype Summary = Summary(total: nat, clean: nat, withWarnings: nat, successRate: real)

  function CountWithWarnings(results: seq<(string, seq<string>)>): (n: nat)
    ensures n <= |results|
  {
    if |results| == 0 then 0
    else CountWithWarnings(results[..|results| - 1]) + (if results[|results| - 1].1 != [] then 1 else 0)
  }

  /** `get_conversion_summary`; the rate is exact rather than a float. */
  function ConversionSummary(results: seq<(string, seq<string>)>): (s: Summary)
    ensures s.total == |results| && s.clean + s.withWarnings == s.total
    ensures s.total == 0 ==> s.successRate == 0.0
    ensures 0.0 <= s.successRate <= 100.0
  {
    var total := |results|;
    var withWarnings := CountWithWarnings(results);
    var clean := total - withWarnings;
    if total > 0 then
      RateBounds(clean as real, total as real);
      Summary(total, clean, withWarnings, (clean as real) / (total as real) * 100.0)
    else
      Summary(total, clean, withWarnings, 0.0)
  }

  /** A share of a positive total, as a percentage, lies between 0 and 100. */
  lemma RateBounds(c: real, t: real)
    requires 0.0 <= c <= t && t > 0.0
    ensures 0.0 <= c / t * 100.0 <= 100.0
  {
    var q := c / t;
    assert q * t == c;
  }

  /** The warned conversions are counted exactly: none when every result
      is clean, all when every result has warnings. */
  lemma {:induction false} CountWithWarningsBounds(results: seq<(string, seq<string>)>)
    ensures (forall i :: 0 <= i < |results| ==> results[i].1 == []) <==> CountWithWarnings(results) == 0
    ensures (forall i :: 0 <= i < |results| ==> results[i].1 != []) <==> CountWithWarnings(results) == |results|
  {
    if |results| > 0 {
      var init := results[..|results| - 1];
      CountWithWarningsBounds(init);
      assert forall i :: 0 <= i < |init| ==> init[i] == results[i];
    }
  }

  /** The success rate is 100 exactly when there are results and all are
      clean. */
  lemma FullSuccess(results: seq<(string, seq<string>)>)
    ensures ConversionSummary(results).successRate == 100.0 <==>
      |results| > 0 && forall i :: 0 <= i < |results| ==> results[i].1 == []
  {
    CountWithWarningsBounds(results);
    var s := ConversionSummary(results);
    if |results| > 0 {
      RateIsHundred(s.clean as real, |results| as real);
    }
  }

  lemma RateIsHundred(c: real, t: real)
    requires 0.0 <= c <= t && t > 0.0
    ensures c / t * 100.0 == 100.0 <==> c == t
  {
    assert c / t * t == c;
    if c == t {
      SelfQuotient(t);
    }
  }

  /** A positive real divided by itself is one. */
  lemma SelfQuotient(t: real)
    requires t > 0.0
    ensures t / t == 1.0
  {
  }
}

=== FILE: postgres_connector.dfy ===
/** The parts of `PostgresConnector` that are not driver calls: the
    connection parameters, the not-connected guards, the per-row execution
    loop of `execute_batch` and `bulk_insert` with its INSERT template, and
    the defaults of `table_exists` and `get_table_row_count`. The outcome
    of the i-th `cursor.execute` call (its rowcount, or the error it raises)
    is an input. */
module PostgresConnector {
  import opened Wrappers
  import opened Text
  import opened OrderedDict
  import opened Connection

  /* ---------------- connection parameters ---------------- */

  /** Config keys and the psycopg2 keyword each is passed as. */
  const ParamKeys: seq<(string, string)> :=
    [("host", "host"), ("port", "port"), ("database", "dbname"), ("user", "user"), ("password", "password")]

  /** One parameter per listed key present in the config, in list order. */
  function ConnectionParams<V>(config: Entries<string, V>, keys: seq<(string, string)>): (r: Entries<string, V>)
    ensures |r| <= |keys|
    ensures forall i :: 0 <= i < |r| ==> r[i].0 in Values(keys)
  {
    if |keys| == 0 then []
    else
      var rest := ConnectionParams(config, keys[1..]);
      assert Values(keys[1..]) == Values(keys)[1..];
      match Get(config, keys[0].0)
      case None => rest
      case Some(v) => [(keys[0].1, v)] + rest
  }

  /** `_get_connection_params`. */
  function GetConnectionParams<V>(config: Entries<string, V>): Entries<string, V> {
    ConnectionParams(config, ParamKeys)
  }

  predicate DistinctTargets(keys: seq<(string, string)>) {
    forall i, j :: 0 <= i < j < |keys| ==> keys[i].1 != keys[j].1
  }

  /** Each parameter holds exactly the value of its config key, present or
      absent. */
  lemma {:induction false} ParamsCopyKeys<V>(config: Entries<string, V>, keys: seq<(string, string)>, i: nat)
    requires DistinctTargets(keys) && i < |keys|
    ensures Get(ConnectionParams(config, keys), keys[i].1) == Get(config, keys[i].0)
  {
    if i > 0 {
      ParamsCopyKeys(config, keys[1..], i - 1);
    }
  }

  /** `database` is passed as `dbname`; the other four keep their names,
      and no `database` parameter is ever passed. */
  lemma ConnectionParamsRename<V>(config: Entries<string, V>)
    ensures Get(GetConnectionParams(config), "dbname") == Get(config, "database")
    ensures Get(GetConnectionParams(config), "host") == Get(config, "host")
    ensures Get(GetConnectionParams(config), "port") == Get(config, "port")
    ensures Get(GetConnectionParams(config), "user") == Get(config, "user")
    ensures Get(GetConnectionParams(config), "password") == Get(config, "password")
    ensures "database" !in Keys(GetConnectionParams(config))
  {
    assert DistinctTargets(ParamKeys);
    ParamsCopyKeys(config, ParamKeys, 0);
    ParamsCopyKeys(config, ParamKeys, 1);
    ParamsCopyKeys(config, ParamKeys, 2);
    ParamsCopyKeys(config, ParamKeys, 3);
    ParamsCopyKeys(config, ParamKeys, 4);
    assert "database" !in Values(ParamKeys);
  }

  /* ---------------- guarded execution ---------------- */

  /** `execute_query`, `execute_update` and `execute_ddl`: the guard, then
      the driver's outcome unchanged (a raised error is re-raised after a
      rollback). */
  function Execute<C, T>(conn: Option<C>, outcome: Result<T, string>): (r: Result<T, string>)
    ensures conn.None? ==> r == Err(NotConnected)
    ensures conn.Some? ==> r == outcome
  {
    match RequireConnected(conn)
    case Fail(e) => Err(e)
    case Pass => outcome
  }

  /** `table_exists`: the first cell of the first result row, False when no
      row comes back. */
  function TableExists<C>(conn: Option<C>, outcome: Result<seq<bool>, string>): (r: Result<bool, string>)
    ensures conn.Some? && outcome == Ok([]) ==> r == Ok(false)
    ensures conn.Some? && outcome.Ok? && outcome.value != [] ==> r == Ok(outcome.value[0])
    ensures r.Err? <==> conn.None? || outcome.Err?
  {
    var cells :- Execute(conn, outcome);
    Ok(if cells == [] then false else cells[0])
  }

  /** `get_table_row_count`: the count of the first result row, 0 when no
      row comes back. */
  function TableRowCount<C>(conn: Option<C>, outcome: Result<seq<int>, string>): (r: Result<int, string>)
    ensures conn.Some? && outcome == Ok([]) ==> r == Ok(0)
    ensures conn.Some? && outcome.Ok? && outcome.value != [] ==> r == Ok(outcome.value[0])
    ensures r.Err? <==> conn.None? || outcome.Err?
  {
    var cells :- Execute(conn, outcome);
    Ok(if cells == [] then 0 else cells[0])
  }

  /* ---------------- execute_batch / bulk_insert ---------------- */

  /** The first `n` executions all return a rowcount. */
  predicate AllSucceed(exec: nat -> Result<int, string>, n: nat) {
    forall i :: 0 <= i < n ==> exec(i).Ok?
  }

  /** The sum of the first `n` rowcounts. */
  function Total(exec: nat -> Result<int, string>, n: nat): int
    requires AllSucceed(exec, n)
  {
    if n == 0 then 0 else Total(exec, n - 1) + exec(n - 1).value
  }

  /** Executes `query` once per row, in order, adding up the rowcounts;
      the first raised error stops the loop and nothing is committed. */
  method RunRows<V>(query: string, data: seq<V>, exec: nat -> Result<int, string>)
    returns (r: Result<int, string>, calls: seq<(string, V)>)
    ensures |calls| <= |data|
    ensures forall i :: 0 <= i < |calls| ==> calls[i] == (query, data[i])
    ensures r.Ok? <==> AllSucceed(exec, |data|)
    ensures r.Ok? ==> |calls| == |data| && r.value == Total(exec, |data|)
    ensures r.Err? ==> 1 <= |calls| && AllSucceed(exec, |calls| - 1) && exec(|calls| - 1) == Err(r.error)
  {
    var total := 0;
    calls := [];
    var i := 0;
    while i < |data|
      invariant 0 <= i <= |data|
      invariant |calls| == i
      invariant forall k :: 0 <= k < i ==> calls[k] == (query, data[k])
      invariant AllSucceed(exec, i)
      invariant total == Total(exec, i)
    {
      calls := calls + [(query, data[i])];
      match exec(i)
      case Err(e) =>
        return Err(e), calls;
      case Ok(n) =>
        total := total + n;
        i := i + 1;
    }
    r := Ok(total);
  }

  /** `execute_batch`: the guard, then one execution per parameter tuple;
      commits only when every execution succeeds. */
  method ExecuteBatch<C, V>(conn: Option<C>, query: string, data: seq<V>, exec: nat -> Result<int, string>)
    returns (r: Result<int, string>, calls: seq<(string, V)>, committed: bool)
    ensures |calls| <= |data|
    ensures conn.None? ==> r == Err(NotConnected) && calls == [] && !committed
    ensures conn.Some? ==> (committed <==> AllSucceed(exec, |data|)) && (r.Ok? <==> committed)
    ensures r.Ok? ==> AllSucceed(exec, |data|) && r.value == Total(exec, |data|) && |calls| == |data|
    ensures forall i :: 0 <= i < |calls| ==> calls[i] == (query, data[i])
  {
    if RequireConnected(conn).Fail? {
      return Err(NotConnected), [], false;
    }
    r, calls := RunRows(query, data, exec);
    committed := r.Ok?;
  }

  /** The INSERT statement `bulk_insert` prepares: one `%s` placeholder per
      value of a row of the given arity. */
  function InsertQuery(table: string, arity: nat): string {
    "INSERT INTO " + (Quote(table) + (" VALUES (" + (Placeholders(arity) + ")")))
  }

  /** `', '.join(['%s'] * n)`. */
  function Placeholders(n: nat): string {
    Join(", ", seq(n, _ => "%s"))
  }

  /** `bulk_insert`: nothing is executed for empty data; otherwise every
      row is inserted with the placeholder count of the first row, and the
      result is the sum of the rowcounts. */
  method BulkInsert<C, V>(conn: Option<C>, table: string, data: seq<seq<V>>, exec: nat -> Result<int, string>)
    returns (r: Result<int, string>, calls: seq<(string, seq<V>)>, committed: bool)
    ensures conn.None? ==> r == Err(NotConnected) && calls == [] && !committed
    ensures |calls| <= |data|
    ensures conn.Some? && data == [] ==> r == Ok(0) && calls == [] && !committed
    ensures data != [] ==> forall i :: 0 <= i < |calls| ==> calls[i] == (InsertQuery(table, |data[0]|), data[i])
    ensures conn.Some? && data != [] ==> (r.Ok? <==> AllSucceed(exec, |data|)) && (committed <==> r.Ok?)
    ensures r.Ok? && data != [] ==> AllSucceed(exec, |data|) && |calls| == |data| && r.value == Total(exec, |data|)
    ensures r.Err? && conn.Some? ==> !committed && 1 <= |calls| && exec(|calls| - 1) == Err(r.error)
  {
    if RequireConnected(conn).Fail? {
      return Err(NotConnected), [], false;
    }
    if data == [] {
      return Ok(0), [], false;
    }
    r, calls := RunRows(InsertQuery(table, |data[0]|), data, exec);
    committed := r.Ok?;
  }

  /* ---------------- placeholder count ---------------- */

  /** Number of occurrences of `c` in `s`. */
  function Occurrences(s: string, c: char): nat {
    if |s| == 0 then 0 else (if s[0] == c then 1 else 0) + Occurrences(s[1..], c)
  }

  lemma {:induction false} OccurrencesAppend(a: string, b: string, c: char)
    ensures Occurrences(a + b, c) == Occurrences(a, c) + Occurrences(b, c)
  {
    if |a| > 0 {
      assert (a + b)[1..] == a[1..] + b;
      OccurrencesAppend(a[1..], b, c);
    } else {
      assert a + b == b;
    }
  }

  lemma {:induction false} PlaceholderList(n: nat)
    ensures Occurrences(Placeholders(n), '%') == n
  {
    var ps := seq(n, _ => "%s");
    assert Occurrences("%s", '%') == 1;
    if n > 1 {
      var rest := seq(n - 1, _ => "%s");
      assert ps[1..] == rest;
      PlaceholderList(n - 1);
      assert Placeholders(n) == "%s" + ", " + Placeholders(n - 1);
      FreeNoOccurrences(", ", '%');
      OccurrencesAppend("%s", ", ", '%');
      OccurrencesAppend("%s" + ", ", Join(", ", rest), '%');
    } else if n == 0 {
      assert Join(", ", ps) == "";
    }
  }

  lemma {:induction false} FreeNoOccurrences(s: string, c: char)
    requires Free(s, c)
    ensures Occurrences(s, c) == 0
  {
    if |s| > 0 {
      FreeNoOccurrences(s[1..], c);
    }
  }

  lemma QuoteOccurrences(name: string, c: char)
    requires c != '"'
    ensures Occurrences(Quote(name), c) == Occurrences(name, c)
  {
    var q := "\"";
    FreeNoOccurrences(q, c);
    OccurrencesAppend(q, name, c);
    OccurrencesAppend(q + name, q, c);
  }

  lemma TemplatePiecesFree()
    ensures Occurrences("INSERT INTO ", '%') == 0
    ensures Occurrences(" VALUES (", '%') == 0
    ensures Occurrences(")", '%') == 0
  {
    InsertIntoFree();
    ValuesFree();
    FreeNoOccurrences(")", '%');
  }

  lemma InsertIntoFree()
    ensures Occurrences("INSERT INTO ", '%') == 0
  {
    FreeNoOccurrences("INSERT", '%');
    FreeNoOccurrences(" INTO ", '%');
    OccurrencesAppend("INSERT", " INTO ", '%');
    assert "INSERT" + " INTO " == "INSERT INTO ";
  }

  lemma ValuesFree()
    ensures Occurrences(" VALUES (", '%') == 0
  {
    FreeNoOccurrences(" VALUES (", '%');
  }

  /** The INSERT statement carries one placeholder per value, as long as
      the table name has no `%`. */
  lemma InsertPlaceholders(table: string, arity: nat)
    requires Occurrences(table, '%') == 0
    ensures Occurrences(InsertQuery(table, arity), '%') == arity
  {
    var list := Placeholders(arity);
    PlaceholderList(arity);
    QuoteOccurrences(table, '%');
    var a := "INSERT INTO ";
    var b := " VALUES (";
    var c := ")";
    TemplatePiecesFree();
    OccurrencesAppend(list, c, '%');
    OccurrencesAppend(b, list + c, '%');
    OccurrencesAppend(Quote(table), b + (list + c), '%');
    OccurrencesAppend(a, Quote(table) + (b + (list + c)), '%');
  }
}

=== FILE: procedure_extractor.dfy ===
/** `ProcedureExtractor`: SYSCAT.ROUTINES rows to procedure records, each
    with the parameters its SYSCAT.ROUTINEPARMS rows describe. The two
    queries are oracles from their restriction to the rows they return. */
module ProcedureExtractor {
  import opened Wrappers
  import opened Catalog

  datatype RoutineRow = RoutineRow(
    routinename: string, routineschema: Option<string>, text: Option<string>,
    language: Option<string>, specificname: string)

  datatype ParamRow = ParamRow(
    parmname: string, typename: string, rowtype: string, ordinal: int, length: Option<int>)

  datatype Parameter = Parameter(name: string, typ: string, direction: string, ordinal: int, length: Option<int>)

  datatype Procedure = Procedure(
    name: string, schema: Option<string>, definition: Option<string>, language: Option<string>,
    specificName: string, parameters: seq<Parameter>)

  /** The parameter direction ROWTYPE encodes; unknown codes read as IN. */
  function Direction(rowtype: string): (d: string)
    ensures d == "OUT" <==> rowtype == "O"
    ensures d == "INOUT" <==> rowtype == "B"
    ensures d == "IN" <==> rowtype != "O" && rowtype != "B"
  {
    if rowtype == "I" then "IN"
    else if rowtype == "O" then "OUT"
    else if rowtype == "B" then "INOUT"
    else "IN"
  }

  function ParameterOf(row: ParamRow): (p: Parameter)
    ensures p.direction == Direction(row.rowtype)
    ensures p.name == row.parmname && p.typ == row.typename && p.ordinal == row.ordinal && p.length == row.length
  {
    Parameter(row.parmname, row.typename, Direction(row.rowtype), row.ordinal, row.length)
  }

  /** `_extract_procedure_params`: one parameter per row, in order. */
  function ExtractParams(rows: seq<ParamRow>): (ps: seq<Parameter>)
    ensures |ps| == |rows|
    ensures forall i :: 0 <= i < |rows| ==> ps[i] == ParameterOf(rows[i])
  {
    seq(|rows|, i requires 0 <= i < |rows| => ParameterOf(rows[i]))
  }

  /** The record for one routine row; its parameters are looked up by
      SPECIFICNAME within the routine's own schema. */
  function ProcedureOf(row: RoutineRow, paramQuery: (string, Option<string>) -> seq<ParamRow>): Procedure {
    Procedure(row.routinename, row.routineschema, row.text, row.language, row.specificname,
      ExtractParams(paramQuery(row.specificname, Scope(row.routineschema))))
  }

  /** `extract_procedures`. */
  function ExtractProcedures(
    schema: Option<string>,
    routineQuery: SchemaFilter -> seq<RoutineRow>,
    paramQuery: (string, Option<string>) -> seq<ParamRow>): (procs: seq<Procedure>)
    ensures var rows := routineQuery(SystemExcludingFilter(schema));
      && |procs| == |rows|
      && forall i :: 0 <= i < |rows| ==>
        && procs[i].name == rows[i].routinename
        && procs[i].definition == rows[i].text
        && procs[i].specificName == rows[i].specificname
        && procs[i].parameters == ExtractParams(paramQuery(rows[i].specificname, Scope(rows[i].routineschema)))
  {
    var rows := routineQuery(SystemExcludingFilter(schema));
    seq(|rows|, i requires 0 <= i < |rows| => ProcedureOf(rows[i], paramQuery))
  }

  /** The routine query depends on the schema argument only through its
      truthiness and value: a given schema restricts to it, otherwise the
      system schemas are excluded. */
  lemma ProceduresFilter(schema: Option<string>, routineQuery: SchemaFilter -> seq<RoutineRow>,
                         paramQuery: (string, Option<string>) -> seq<ParamRow>)
    ensures Given(schema) ==> |ExtractProcedures(schema, routineQuery, paramQuery)| == |routineQuery(SchemaIs(schema.value))|
    ensures !Given(schema) ==> ExtractProcedures(schema, routineQuery, paramQuery) == ExtractProcedures(None, routineQuery, paramQuery)
  {
  }
}

=== FILE: progress.dfy ===
/** The checkpoint store of a migration (`ProgressTracker`): the current
    phase, the phases already completed and per-table row progress, written
    through to a state file after every effective change.

    The state file is modelled by what it holds (`StateFile`) and every write
    is also appended to a log of snapshots, so that "each mutator ends with a
    save of the in-memory state" can be stated. Timestamps are supplied by the
    caller as `now`; percentages are exact rationals (the source rounds them
    to two decimals). */
module Progress {
  import opened Wrappers
  import opened OrderedDict

  /** One value of `state["tables"]`. */
  datatype TableProgress = TableProgress(
    rowsMigrated: int,
    totalRows: int,
    percentage: real,
    lastUpdated: string)

  /** The tracker's `state` dict. `lastUpdated` is `None` until the first save. */
  datatype State = State(
    phase: string,
    completedPhases: seq<string>,
    tables: Entries<string, TableProgress>,
    lastUpdated: Option<string>)

  /** What the state file holds: nothing, text that is not valid JSON or a
      file that raises an I/O error on reading (the two failures `_load`
      catches), or a snapshot written by an earlier save. */
  datatype StateFile = Missing | Unreadable | Stored(snapshot: State)

  /** A tracker: its in-memory state, its state file, and every snapshot that
      its saves have written, oldest first. */
  datatype Tracker = Tracker(state: State, file: StateFile, saves: seq<State>)

  const NotStarted: string := "not_started"

  function InitialState(): State {
    State(NotStarted, [], [], None)
  }

  /** A state that a tracker can reach: table names are dict keys and no
      phase is recorded twice as completed. */
  predicate WellFormed(s: State) {
    UniqueKeys(s.tables) &&
    forall i, j :: 0 <= i < j < |s.completedPhases| ==> s.completedPhases[i] != s.completedPhases[j]
  }

  /** The last save wrote exactly the in-memory state. */
  predicate Persisted(t: Tracker) {
    t.file == Stored(t.state) && |t.saves| > 0 && t.saves[|t.saves| - 1] == t.state
  }

  /** The constructor: a fresh initial state, replaced by the file's snapshot
      when the file exists and decodes; an unreadable file is ignored. */
  function Open(file: StateFile): (t: Tracker)
    ensures t.file == file && t.saves == []
    ensures file.Stored? ==> t.state == file.snapshot
    ensures !file.Stored? ==> t.state == InitialState()
  {
    Tracker(if file.Stored? then file.snapshot else InitialState(), file, [])
  }

  /** `save`: stamps the state with `now` and writes it to the file. */
  function Save(t: Tracker, now: string): (r: Tracker)
    ensures Persisted(r)
    ensures r.state == t.state.(lastUpdated := Some(now))
    ensures |r.saves| == |t.saves| + 1 && r.saves[..|t.saves|] == t.saves
  {
    var s := t.state.(lastUpdated := Some(now));
    Tracker(s, Stored(s), t.saves + [s])
  }

  function GetPhase(t: Tracker): string {
    t.state.phase
  }

  /** `set_phase`: records the phase and saves. */
  function SetPhase(t: Tracker, phase: string, now: string): (r: Tracker)
    ensures GetPhase(r) == phase
    ensures r.state.completedPhases == t.state.completedPhases
    ensures r.state.tables == t.state.tables
    ensures Persisted(r) && |r.saves| == |t.saves| + 1
  {
    Save(t.(state := t.state.(phase := phase)), now)
  }

  predicate IsCompleted(t: Tracker, phase: string) {
    phase in t.state.completedPhases
  }

  /** `mark_completed`: appends the phase and saves, unless it is already
      recorded, in which case nothing happens (not even a save). */
  function MarkCompleted(t: Tracker, phase: string, now: string): (r: Tracker)
    ensures IsCompleted(r, phase)
    ensures forall p :: p != phase ==> (IsCompleted(r, p) <==> IsCompleted(t, p))
    ensures IsCompleted(t, phase) ==> r == t
    ensures !IsCompleted(t, phase) ==>
      r.state.completedPhases == t.state.completedPhases + [phase] &&
      Persisted(r) && |r.saves| == |t.saves| + 1
    ensures r.state.phase == t.state.phase && r.state.tables == t.state.tables
    ensures WellFormed(t.state) ==> WellFormed(r.state)
  {
    if phase in t.state.completedPhases then t
    else Save(t.(state := t.state.(completedPhases := t.state.completedPhases + [phase])), now)
  }

  /** `rows_migrated / total_rows * 100`, or 0 when the total is not positive. */
  function Percentage(migrated: int, total: int): (p: real)
    ensures total <= 0 ==> p == 0.0
    ensures total > 0 ==> p * (total as real) == (migrated as real) * 100.0
  {
    if total > 0 then (migrated as real) / (total as real) * 100.0 else 0.0
  }

  function GetTableProgress(t: Tracker, table: string): Option<TableProgress> {
    Get(t.state.tables, table)
  }

  /** `update_table_progress`: overwrites (or adds) this table's entry with
      the given counts and saves; other tables keep their entries. */
  function UpdateTableProgress(t: Tracker, table: string, migrated: int, total: int, now: string): (r: Tracker)
    ensures GetTableProgress(r, table) == Some(TableProgress(migrated, total, Percentage(migrated, total), now))
    ensures forall other :: other != table ==> GetTableProgress(r, other) == GetTableProgress(t, other)
    ensures r.state.phase == t.state.phase
    ensures r.state.completedPhases == t.state.completedPhases
    ensures Persisted(r) && |r.saves| == |t.saves| + 1
  {
    var entry := TableProgress(migrated, total, Percentage(migrated, total), now);
    Save(t.(state := t.state.(tables := Put(t.state.tables, table, entry))), now)
  }

  /** `update_progress`: like `update_table_progress` with the total taken
      from the table's existing entry, or equal to the rows transferred when
      the table has none. */
  function UpdateProgress(t: Tracker, table: string, rows: int, now: string): (r: Tracker)
    ensures GetTableProgress(r, table).Some?
    ensures GetTableProgress(r, table).value.rowsMigrated == rows
    ensures GetTableProgress(t, table).Some? ==>
      GetTableProgress(r, table).value.totalRows == GetTableProgress(t, table).value.totalRows
    ensures GetTableProgress(t, table).None? ==> GetTableProgress(r, table).value.totalRows == rows
    ensures var total := if GetTableProgress(t, table).Some? then GetTableProgress(t, table).value.totalRows else rows;
      GetTableProgress(r, table) == Some(TableProgress(rows, total, Percentage(rows, total), now))
    ensures forall other :: other != table ==> GetTableProgress(r, other) == GetTableProgress(t, other)
    ensures r.state.phase == t.state.phase
    ensures r.state.completedPhases == t.state.completedPhases
    ensures Persisted(r) && |r.saves| == |t.saves| + 1
  {
    var total := match Get(t.state.tables, table)
      case Some(existing) => existing.totalRows
      case None => rows;
    UpdateTableProgress(t, table, rows, total, now)
  }

  /** `reset`: back to the initial state, then saved. */
  function Reset(t: Tracker, now: string): (r: Tracker)
    ensures GetPhase(r) == NotStarted
    ensures forall p :: !IsCompleted(r, p)
    ensures forall table :: GetTableProgress(r, table) == None
    ensures Persisted(r)
  {
    Save(t.(state := InitialState()), now)
  }

  /** The dict returned by `get_summary`. */
  datatype Summary = Summary(
    currentPhase: string,
    completedPhases: seq<string>,
    totalTables: nat,
    completedTables: nat,
    totalRows: int,
    migratedRows: int,
    overallPercentage: real,
    lastUpdated: Option<string>)

  function Total(p: TableProgress): int {
    p.totalRows
  }

  function Migrated(p: TableProgress): int {
    p.rowsMigrated
  }

  /** 1 for a table whose migrated count has reached its total exactly. */
  function Done(p: TableProgress): int {
    if p.rowsMigrated == p.totalRows then 1 else 0
  }

  /** `get_summary`. */
  function GetSummary(t: Tracker): (s: Summary)
    ensures s.totalTables == |t.state.tables|
    ensures s.completedTables <= s.totalTables
    ensures s.currentPhase == t.state.phase && s.completedPhases == t.state.completedPhases
    ensures s.totalRows <= 0 ==> s.overallPercentage == 0.0
  {
    var tables := t.state.tables;
    DoneBounded(tables);
    var total := Sum(tables, Total);
    var migrated := Sum(tables, Migrated);
    Summary(t.state.phase, t.state.completedPhases, |tables|, Sum(tables, Done),
            total, migrated, Percentage(migrated, total), t.state.lastUpdated)
  }

  lemma {:induction false} DoneBounded(es: Entries<string, TableProgress>)
    ensures 0 <= Sum(es, Done) <= |es|
  {
    if |es| > 0 {
      DoneBounded(es[1..]);
    }
  }

  /** When every table has reached its total, the summary counts every table
      as completed and the migrated rows equal the total rows. */
  lemma {:induction false} AllDoneSummary(es: Entries<string, TableProgress>)
    requires forall i :: 0 <= i < |es| ==> es[i].1.rowsMigrated == es[i].1.totalRows
    ensures Sum(es, Done) == |es|
    ensures Sum(es, Migrated) == Sum(es, Total)
  {
    if |es| > 0 {
      AllDoneSummary(es[1..]);
    }
  }

  /** Recording progress for a table the tracker has not seen adds one table
      to the summary and adds the given counts to its row totals. */
  lemma NewTableSummary(t: Tracker, table: string, migrated: int, total: int, now: string)
    requires WellFormed(t.state)
    requires GetTableProgress(t, table).None?
    ensures GetSummary(UpdateTableProgress(t, table, migrated, total, now)).totalTables
         == GetSummary(t).totalTables + 1
    ensures GetSummary(UpdateTableProgress(t, table, migrated, total, now)).totalRows
         == GetSummary(t).totalRows + total
    ensures GetSummary(UpdateTableProgress(t, table, migrated, total, now)).migratedRows
         == GetSummary(t).migratedRows + migrated
  {
    var entry := TableProgress(migrated, total, Percentage(migrated, total), now);
    PutKeys(t.state.tables, table, entry);
    SumPut(t.state.tables, table, entry, Total);
    SumPut(t.state.tables, table, entry, Migrated);
  }

  /** A tracker reopened from the file of a persisted tracker resumes with
      the same phase, completed phases and tables. */
  lemma ReopenResumes(t: Tracker)
    requires Persisted(t)
    ensures Open(t.file).state == t.state
    ensures GetPhase(Open(t.file)) == GetPhase(t)
    ensures forall p :: IsCompleted(Open(t.file), p) <==> IsCompleted(t, p)
    ensures forall table :: GetTableProgress(Open(t.file), table) == GetTableProgress(t, table)
  {
  }

  /** The calls a caller can make on a tracker. */
  datatype Command =
    | SetPhaseCmd(phase: string)
    | MarkCompletedCmd(phase: string)
    | UpdateTableProgressCmd(table: string, migrated: int, total: int)
    | UpdateProgressCmd(table: string, rows: int)
    | ResetCmd

  function Step(t: Tracker, c: Command, now: string): Tracker {
    match c
    case SetPhaseCmd(p) => SetPhase(t, p, now)
    case MarkCompletedCmd(p) => MarkCompleted(t, p, now)
    case UpdateTableProgressCmd(n, m, total) => UpdateTableProgress(t, n, m, total, now)
    case UpdateProgressCmd(n, rows) => UpdateProgress(t, n, rows, now)
    case ResetCmd => Reset(t, now)
  }

  /** Runs commands in order, each stamped with its own time. */
  function Run(t: Tracker, cs: seq<Command>, times: seq<string>): Tracker
    requires |times| == |cs|
    decreases |cs|
  {
    if |cs| == 0 then t else Run(Step(t, cs[0], times[0]), cs[1..], times[1..])
  }

  lemma StepKeepsInvariant(t: Tracker, c: Command, now: string)
    requires WellFormed(t.state)
    ensures WellFormed(Step(t, c, now).state)
    ensures Persisted(t) || !(c.MarkCompletedCmd? && IsCompleted(t, c.phase)) ==> Persisted(Step(t, c, now))
  {
    match c {
      case SetPhaseCmd(p) =>
      case MarkCompletedCmd(p) =>
      case UpdateTableProgressCmd(n, m, total) =>
        PutUnique(t.state.tables, n, TableProgress(m, total, Percentage(m, total), now));
      case UpdateProgressCmd(n, rows) =>
        var total := if Get(t.state.tables, n).Some? then Get(t.state.tables, n).value.totalRows else rows;
        PutUnique(t.state.tables, n, TableProgress(rows, total, Percentage(rows, total), now));
      case ResetCmd =>
    }
  }

  /** Any non-empty sequence of calls, on a tracker that is persisted or has
      no completed phase yet (a fresh one, for instance), keeps the state well
      formed and leaves the state file equal to the in-memory state. */
  lemma {:induction false} RunKeepsInvariant(t: Tracker, cs: seq<Command>, times: seq<string>)
    requires |times| == |cs|
    requires WellFormed(t.state)
    requires Persisted(t) || (|cs| > 0 && t.state.completedPhases == [])
    ensures WellFormed(Run(t, cs, times).state)
    ensures Persisted(Run(t, cs, times))
    decreases |cs|
  {
    if |cs| > 0 {
      StepKeepsInvariant(t, cs[0], times[0]);
      RunKeepsInvariant(Step(t, cs[0], times[0]), cs[1..], times[1..]);
    }
  }
}

=== FILE: schema_converter.dfy ===
/** DDL rendering for PostgreSQL (`SchemaConverter`): CREATE TABLE with
    converted column types, defaults and identity columns, and the
    primary-key, foreign-key and index statements. Identifiers are always
    double-quoted; `QuotedNames` reads them back. */
module SchemaConverter {
  import opened Wrappers
  import opened Text
  import opened Catalog
  import TypeConverter

  /* ---------------- default values ---------------- */

  /** The keyword rewrites in the order the source applies them. */
  function ReplaceKeywordsAsWritten(v: string): string {
    var a := ReplaceAll(v, "CURRENT TIMESTAMP", "CURRENT_TIMESTAMP");
    var b := ReplaceAll(a, "CURRENT DATE", "CURRENT_DATE");
    var c := ReplaceAll(b, "CURRENT TIME", "CURRENT_TIME");
    ReplaceAll(c, "CURRENT TIMEZONE", "CURRENT_TIMESTAMP")
  }

  /** The keyword rewrites with CURRENT TIMEZONE handled before its prefix
      CURRENT TIME, so that it is reachable. */
  function ReplaceKeywords(v: string): string {
    var a := ReplaceAll(v, "CURRENT TIMESTAMP", "CURRENT_TIMESTAMP");
    var b := ReplaceAll(a, "CURRENT DATE", "CURRENT_DATE");
    var c := ReplaceAll(b, "CURRENT TIMEZONE", "CURRENT_TIMESTAMP");
    ReplaceAll(c, "CURRENT TIME", "CURRENT_TIME")
  }

  /** Whole-value keywords, compared trimmed and in capitals, override the
      rewritten text. */
  function OverrideKeyword(normalised: string, rewritten: string): string {
    if normalised == "USER" then "CURRENT_USER"
    else if normalised == "CURRENT SCHEMA" then "CURRENT_SCHEMA()"
    else if normalised == "NULL" then "NULL"
    else rewritten
  }

  /** `_convert_default_value` as the source writes it; this is the
      conversion the CREATE TABLE renderer uses. */
  function ConvertDefaultAsWritten(v: string): (r: string)
    ensures v == "" ==> r == ""
    ensures v != "" && Strip(Upper(v)) == "USER" ==> r == "CURRENT_USER"
    ensures v != "" && Strip(Upper(v)) == "CURRENT SCHEMA" ==> r == "CURRENT_SCHEMA()"
    ensures v != "" && Strip(Upper(v)) == "NULL" ==> r == "NULL"
  {
    if v == "" then v else OverrideKeyword(Strip(Upper(v)), ReplaceKeywordsAsWritten(v))
  }

  /** `_convert_default_value` with the rewrite order corrected. */
  function ConvertDefault(v: string): (r: string)
    ensures v == "" ==> r == ""
    ensures v != "" && Strip(Upper(v)) == "USER" ==> r == "CURRENT_USER"
    ensures v != "" && Strip(Upper(v)) == "CURRENT SCHEMA" ==> r == "CURRENT_SCHEMA()"
    ensures v != "" && Strip(Upper(v)) == "NULL" ==> r == "NULL"
  {
    if v == "" then v else OverrideKeyword(Strip(Upper(v)), ReplaceKeywords(v))
  }

  /** Keyword defaults other than the whole-value ones go through the
      rewrites alone. */
  lemma RewrittenDefault(v: string)
    requires v != ""
    requires Strip(Upper(v)) != "USER" && Strip(Upper(v)) != "CURRENT SCHEMA" && Strip(Upper(v)) != "NULL"
    ensures ConvertDefaultAsWritten(v) == ReplaceKeywordsAsWritten(v)
    ensures ConvertDefault(v) == ReplaceKeywords(v)
  {
  }

  /** A default without a space is not a multi-word keyword, so unless it
      is USER or NULL it passes through unchanged. */
  lemma DefaultWithoutSpaceUnchanged(v: string)
    requires ' ' !in v
    requires Strip(Upper(v)) != "USER" && Strip(Upper(v)) != "NULL"
    ensures ConvertDefault(v) == v
    ensures ConvertDefaultAsWritten(v) == v
  {
    if v != "" {
      NoSpaceNotSchema(v);
      RewrittenDefault(v);
      ReplaceAbsent(v, "CURRENT TIMESTAMP", "CURRENT_TIMESTAMP", ' ');
      ReplaceAbsent(v, "CURRENT DATE", "CURRENT_DATE", ' ');
      ReplaceAbsent(v, "CURRENT TIMEZONE", "CURRENT_TIMESTAMP", ' ');
      ReplaceAbsent(v, "CURRENT TIME", "CURRENT_TIME", ' ');
    }
  }

  lemma NoSpaceNotSchema(v: string)
    requires ' ' !in v
    ensures Strip(Upper(v)) != "CURRENT SCHEMA"
  {
    var u := Upper(v);
    assert ' ' !in u by {
      forall i | 0 <= i < |u|
        ensures u[i] != ' '
      {
        assert v[i] != ' ';
      }
    }
    var s := Strip(u);
    assert Contains(u, s);
    var k :| 0 <= k <= |u| - |s| && OccursAt(u, s, k);
    forall i | 0 <= i < |s|
      ensures s[i] != ' '
    {
      assert u[k..k + |s|][i] == u[k + i];
    }
    assert "CURRENT SCHEMA"[7] == ' ';
  }

  /** Every spaced special register is rewritten: whatever the default,
      the as-written conversion leaves no `CURRENT DATE` and no
      `CURRENT TIME` (so no `CURRENT TIMESTAMP` or `CURRENT TIMEZONE`
      either) in its result. */
  lemma NoSpacedRegisters(v: string)
    ensures !Contains(ConvertDefaultAsWritten(v), "CURRENT DATE")
    ensures !Contains(ConvertDefaultAsWritten(v), "CURRENT TIME")
  {
    var a := ReplaceAll(v, "CURRENT TIMESTAMP", "CURRENT_TIMESTAMP");
    var b := ReplaceAll(a, "CURRENT DATE", "CURRENT_DATE");
    var c := ReplaceAll(b, "CURRENT TIME", "CURRENT_TIME");
    DistinctiveRegisters();
    ReplaceAllAvoids(a, "CURRENT DATE", "CURRENT_DATE", "CURRENT DATE");
    ReplaceAllAvoids(b, "CURRENT TIME", "CURRENT_TIME", "CURRENT DATE");
    ReplaceAllAvoids(b, "CURRENT TIME", "CURRENT_TIME", "CURRENT TIME");
    TimezoneGone(c);
    NoSpaceKeywordResults();
  }

  lemma DistinctiveRegisters()
    ensures Distinctive("CURRENT DATE", "CURRENT_DATE")
    ensures Distinctive("CURRENT DATE", "CURRENT_TIME")
    ensures Distinctive("CURRENT TIME", "CURRENT_TIME")
  {
    assert "CURRENT_DATE"[..12][7] != "CURRENT DATE"[7];
    assert "CURRENT_TIME"[..12][7] != "CURRENT DATE"[7];
    assert "CURRENT_TIME"[..12][7] != "CURRENT TIME"[7];
  }

  /** Text without CURRENT TIME has no CURRENT TIMEZONE to rewrite. */
  lemma TimezoneGone(c: string)
    requires !Contains(c, "CURRENT TIME")
    ensures ReplaceAll(c, "CURRENT TIMEZONE", "CURRENT_TIMESTAMP") == c
  {
    if Contains(c, "CURRENT TIMEZONE") {
      assert OccursAt("CURRENT TIMEZONE", "CURRENT TIME", 0);
      ContainsTransitive(c, "CURRENT TIMEZONE", "CURRENT TIME");
    }
  }

  /** The whole-value replacements hold no space. */
  lemma NoSpaceKeywordResults()
    ensures !Contains("CURRENT_USER", "CURRENT DATE") && !Contains("CURRENT_USER", "CURRENT TIME")
    ensures !Contains("CURRENT_SCHEMA()", "CURRENT DATE") && !Contains("CURRENT_SCHEMA()", "CURRENT TIME")
    ensures !Contains("NULL", "CURRENT DATE") && !Contains("NULL", "CURRENT TIME")
    ensures !Contains("", "CURRENT DATE") && !Contains("", "CURRENT TIME")
  {
    assert "CURRENT DATE"[7] == ' ' && "CURRENT TIME"[7] == ' ';
    NotContainsChar("CURRENT_USER", "CURRENT DATE", ' ');
    NotContainsChar("CURRENT_USER", "CURRENT TIME", ' ');
    NotContainsChar("CURRENT_SCHEMA()", "CURRENT DATE", ' ');
    NotContainsChar("CURRENT_SCHEMA()", "CURRENT TIME", ' ');
    NotContainsChar("NULL", "CURRENT DATE", ' ');
    NotContainsChar("NULL", "CURRENT TIME", ' ');
  }

  /** A keyword in capitals is its own normal form. */
  lemma Normalised(k: string)
    requires k != [] && k[0] == 'C' && k[|k| - 1] != ' '
    requires forall i :: 0 <= i < |k| ==> IsAsciiUpper(k[i]) || k[i] == ' '
    ensures Strip(Upper(k)) == k
  {
    UpperOfCapitals(k);
    StripTrimmed(k);
  }

  /** CURRENT TIMEZONE is not one of the whole-value keywords. */
  lemma TimezoneIsRewritten()
    ensures ConvertDefaultAsWritten("CURRENT TIMEZONE") == ReplaceKeywordsAsWritten("CURRENT TIMEZONE")
    ensures ConvertDefault("CURRENT TIMEZONE") == ReplaceKeywords("CURRENT TIMEZONE")
  {
    Normalised("CURRENT TIMEZONE");
    RewrittenDefault("CURRENT TIMEZONE");
  }

  /** As written, CURRENT TIMEZONE is caught by the CURRENT TIME rewrite
      first and comes out as CURRENT_TIMEZONE, which PostgreSQL does not
      know; the CURRENT TIMEZONE rewrite never fires. */
  lemma TimezoneAsWritten()
    ensures ConvertDefaultAsWritten("CURRENT TIMEZONE") == "CURRENT_TIMEZONE"
  {
    TimezoneIsRewritten();
    TimezoneNotTimestamp();
    TimezoneNotDate();
    TimezoneAsTime();
    RewrittenTimezoneStays();
  }

  /** With CURRENT TIMEZONE rewritten before CURRENT TIME it becomes
      CURRENT_TIMESTAMP, as intended. */
  lemma TimezoneCorrected()
    ensures ConvertDefault("CURRENT TIMEZONE") == "CURRENT_TIMESTAMP"
  {
    TimezoneIsRewritten();
    TimezoneNotTimestamp();
    TimezoneNotDate();
    TimezoneWhole();
    TimestampNotTime();
  }

  /** CURRENT TIMESTAMP is rewritten whole before the shorter CURRENT TIME
      can split it. */
  lemma TimestampCorrected()
    ensures ConvertDefault("CURRENT TIMESTAMP") == "CURRENT_TIMESTAMP"
  {
    Normalised("CURRENT TIMESTAMP");
    RewrittenDefault("CURRENT TIMESTAMP");
    TimestampWhole();
    TimestampNotDate();
    TimestampNotTimezone();
    TimestampNotTime();
  }

  lemma TimezoneNotTimestamp()
    ensures ReplaceAll("CURRENT TIMEZONE", "CURRENT TIMESTAMP", "CURRENT_TIMESTAMP") == "CURRENT TIMEZONE"
  {
    ReplaceShort("CURRENT TIMEZONE", "CURRENT TIMESTAMP", "CURRENT_TIMESTAMP");
  }

  lemma TimezoneNotDate()
    ensures ReplaceAll("CURRENT TIMEZONE", "CURRENT DATE", "CURRENT_DATE") == "CURRENT TIMEZONE"
  {
    ReplaceAbsent("CURRENT TIMEZONE", "CURRENT DATE", "CURRENT_DATE", 'D');
  }

  lemma TimezoneAsTime()
    ensures ReplaceAll("CURRENT TIMEZONE", "CURRENT TIME", "CURRENT_TIME") == "CURRENT_TIMEZONE"
  {
    assert "CURRENT TIMEZONE" == "CURRENT TIME" + "ZONE";
    ReplaceAtFront("CURRENT TIME", "CURRENT_TIME", "ZONE");
    ReplaceShort("ZONE", "CURRENT TIME", "CURRENT_TIME");
    assert "CURRENT_TIME" + "ZONE" == "CURRENT_TIMEZONE";
  }

  lemma RewrittenTimezoneStays()
    ensures ReplaceAll("CURRENT_TIMEZONE", "CURRENT TIMEZONE", "CURRENT_TIMESTAMP") == "CURRENT_TIMEZONE"
  {
    ReplaceAbsent("CURRENT_TIMEZONE", "CURRENT TIMEZONE", "CURRENT_TIMESTAMP", ' ');
  }

  lemma TimezoneWhole()
    ensures ReplaceAll("CURRENT TIMEZONE", "CURRENT TIMEZONE", "CURRENT_TIMESTAMP") == "CURRENT_TIMESTAMP"
  {
    ReplaceWhole("CURRENT TIMEZONE", "CURRENT_TIMESTAMP");
  }

  lemma TimestampWhole()
    ensures ReplaceAll("CURRENT TIMESTAMP", "CURRENT TIMESTAMP", "CURRENT_TIMESTAMP") == "CURRENT_TIMESTAMP"
  {
    ReplaceWhole("CURRENT TIMESTAMP", "CURRENT_TIMESTAMP");
  }

  lemma TimestampNotDate()
    ensures ReplaceAll("CURRENT_TIMESTAMP", "CURRENT DATE", "CURRENT_DATE") == "CURRENT_TIMESTAMP"
  {
    ReplaceAbsent("CURRENT_TIMESTAMP", "CURRENT DATE", "CURRENT_DATE", ' ');
  }

  lemma TimestampNotTimezone()
    ensures ReplaceAll("CURRENT_TIMESTAMP", "CURRENT TIMEZONE", "CURRENT_TIMESTAMP") == "CURRENT_TIMESTAMP"
  {
    ReplaceAbsent("CURRENT_TIMESTAMP", "CURRENT TIMEZONE", "CURRENT_TIMESTAMP", ' ');
  }

  lemma TimestampNotTime()
    ensures ReplaceAll("CURRENT_TIMESTAMP", "CURRENT TIME", "CURRENT_TIME") == "CURRENT_TIMESTAMP"
  {
    ReplaceAbsent("CURRENT_TIMESTAMP", "CURRENT TIME", "CURRENT_TIME", ' ');
  }

  /* ---------------- identity columns ---------------- */

  /** The SERIAL family type for an identity column, as the source writes
      it. */
  function IdentityTypeAsWritten(pgType: string): string {
    var u := Upper(pgType);
    if Contains(u, "BIGINT") then "BIGSERIAL"
    else if Contains(u, "INTEGER") || Contains(u, "INT") then "SERIAL"
    else if Contains(u, "SMALLINT") then "SMALLSERIAL"
    else pgType + " GENERATED ALWAYS AS IDENTITY"
  }

  /** The integer type names each contain INT, and none of the narrower
      ones contains a wider one. */
  lemma IntegerNames()
    ensures Contains("BIGINT", "INT") && Contains("SMALLINT", "INT") && Contains("INTEGER", "INT")
    ensures Contains("BIGINT", "BIGINT") && Contains("SMALLINT", "SMALLINT")
    ensures !Contains("SMALLINT", "BIGINT") && !Contains("INTEGER", "BIGINT") && !Contains("INTEGER", "SMALLINT")
  {
    assert OccursAt("BIGINT", "INT", 3);
    assert OccursAt("SMALLINT", "INT", 5);
    assert OccursAt("INTEGER", "INT", 0);
    assert OccursAt("BIGINT", "BIGINT", 0);
    assert OccursAt("SMALLINT", "SMALLINT", 0);
    NotContainsChar("SMALLINT", "BIGINT", 'B');
    NotContainsChar("INTEGER", "BIGINT", 'B');
    NotContainsChar("INTEGER", "SMALLINT", 'S');
  }

  /** As written, SMALLSERIAL is never chosen: every type containing
      SMALLINT also contains INT. */
  lemma SmallSerialUnreachable(pgType: string)
    ensures IdentityTypeAsWritten(pgType) != "SMALLSERIAL"
  {
    var u := Upper(pgType);
    if Contains(u, "SMALLINT") {
      IntegerNames();
      ContainsTransitive(u, "SMALLINT", "INT");
    }
  }

  /** The SERIAL family type with SMALLINT tested before INT, so that each
      integer width keeps its own serial type. */
  function IdentityType(pgType: string): string {
    var u := Upper(pgType);
    if Contains(u, "BIGINT") then "BIGSERIAL"
    else if Contains(u, "SMALLINT") then "SMALLSERIAL"
    else if Contains(u, "INTEGER") || Contains(u, "INT") then "SERIAL"
    else pgType + " GENERATED ALWAYS AS IDENTITY"
  }

  /** Which serial type an identity column gets: BIGSERIAL exactly for
      types mentioning BIGINT, SMALLSERIAL exactly for the remaining ones
      mentioning SMALLINT, SERIAL exactly for the remaining ones mentioning
      INT, and an explicit identity clause for all others. */
  lemma IdentityTypeChoice(pgType: string)
    ensures var u := Upper(pgType); var r := IdentityType(pgType);
      && (r == "BIGSERIAL" <==> Contains(u, "BIGINT"))
      && (r == "SMALLSERIAL" <==> !Contains(u, "BIGINT") && Contains(u, "SMALLINT"))
      && (r == "SERIAL" <==> !Contains(u, "BIGINT") && !Contains(u, "SMALLINT") && Contains(u, "INT"))
      && (!Contains(u, "INT") <==> r == pgType + " GENERATED ALWAYS AS IDENTITY")
  {
    var u := Upper(pgType);
    var r := IdentityType(pgType);
    var g := pgType + " GENERATED ALWAYS AS IDENTITY";
    assert |g| > 11;
    if Contains(u, "INTEGER") {
      IntegerNames();
      ContainsTransitive(u, "INTEGER", "INT");
    }
    if Contains(u, "BIGINT") {
      IntegerNames();
      ContainsTransitive(u, "BIGINT", "INT");
    }
    if Contains(u, "SMALLINT") {
      IntegerNames();
      ContainsTransitive(u, "SMALLINT", "INT");
    }
  }

  /** Which serial type an identity column gets as written: BIGSERIAL
      exactly for types mentioning BIGINT, SERIAL exactly for the remaining
      ones mentioning INT (SMALLINT included), SMALLSERIAL never, and an
      explicit identity clause exactly for types mentioning no INT. */
  lemma IdentityTypeAsWrittenChoice(pgType: string)
    ensures var u := Upper(pgType); var r := IdentityTypeAsWritten(pgType);
      && (r == "BIGSERIAL" <==> Contains(u, "BIGINT"))
      && (r == "SERIAL" <==> !Contains(u, "BIGINT") && Contains(u, "INT"))
      && r != "SMALLSERIAL"
      && (!Contains(u, "INT") <==> r == pgType + " GENERATED ALWAYS AS IDENTITY")
  {
    var u := Upper(pgType);
    var g := pgType + " GENERATED ALWAYS AS IDENTITY";
    assert |g| > 11;
    SmallSerialUnreachable(pgType);
    if Contains(u, "INTEGER") {
      IntegerNames();
      ContainsTransitive(u, "INTEGER", "INT");
    }
    if Contains(u, "BIGINT") {
      IntegerNames();
      ContainsTransitive(u, "BIGINT", "INT");
    }
    if Contains(u, "SMALLINT") {
      IntegerNames();
      ContainsTransitive(u, "SMALLINT", "INT");
    }
  }

  /** As written, the two wider integer types get their own serial type
      and SMALLINT falls into SERIAL. */
  lemma IdentityOfIntegerTypes()
    ensures IdentityTypeAsWritten("BIGINT") == "BIGSERIAL"
    ensures IdentityTypeAsWritten("INTEGER") == "SERIAL"
    ensures IdentityTypeAsWritten("SMALLINT") == "SERIAL"
  {
    IntegerNames();
    UpperOfCapitals("BIGINT");
    UpperOfCapitals("INTEGER");
    UpperOfCapitals("SMALLINT");
  }

  /** With the order corrected, each integer type gets the serial type of
      its own width. */
  lemma CorrectedIdentityOfIntegerTypes()
    ensures IdentityType("BIGINT") == "BIGSERIAL"
    ensures IdentityType("INTEGER") == "SERIAL"
    ensures IdentityType("SMALLINT") == "SMALLSERIAL"
  {
    IntegerNames();
    UpperOfCapitals("BIGINT");
    UpperOfCapitals("INTEGER");
    UpperOfCapitals("SMALLINT");
  }

  /* ---------------- CREATE TABLE ---------------- */

  function DefaultClause(default: Option<string>): string {
    match default
    case None => ""
    case Some(v) => " DEFAULT " + ConvertDefaultAsWritten(v)
  }

  /** What follows the quoted name in a column definition: the converted
      type (a serial type for identity columns, which never get a DEFAULT),
      then NOT NULL for a column that is not nullable. */
  function ColumnTail(c: Column): string {
    var pgType := TypeConverter.Convert(c.typ);
    var t := if c.isIdentity then " " + IdentityTypeAsWritten(pgType) else " " + pgType + DefaultClause(c.default);
    if c.nullable then t else t + " NOT NULL"
  }

  /** One column definition: the quoted name, then its tail. */
  function ColumnDef(c: Column): (r: string)
    ensures r != [] && r[0] == '"'
  {
    Quote(c.name) + ColumnTail(c)
  }

  lemma AppendAssoc(a: string, b: string, d: string)
    ensures a + (b + d) == (a + b) + d
  {
  }

  /** NOT NULL is appended exactly for non-nullable columns, and nothing
      else about the definition depends on nullability. */
  lemma ColumnDefNotNull(c: Column)
    ensures !c.nullable ==> ColumnDef(c) == ColumnDef(c.(nullable := true)) + " NOT NULL"
    ensures c.nullable ==> ColumnDef(c) == ColumnDef(c.(nullable := false))[..|ColumnDef(c)|]
  {
    var q := Quote(c.name);
    var t := ColumnTail(c.(nullable := true));
    assert ColumnTail(c.(nullable := false)) == t + " NOT NULL";
    AppendAssoc(q, t, " NOT NULL");
    if c.nullable {
      assert ColumnDef(c) == q + t;
      assert (q + t + " NOT NULL")[..|q + t|] == q + t;
    }
  }

  /** A non-identity column with a default gets exactly one DEFAULT clause
      with the converted value, right after its type; identity columns ignore
      the default. */
  lemma ColumnDefDefault(c: Column)
    ensures !c.isIdentity && c.default.Some? ==>
      ColumnDef(c.(nullable := true)) ==
      ColumnDef(c.(default := None, nullable := true)) + " DEFAULT " + ConvertDefaultAsWritten(c.default.value)
    ensures c.isIdentity ==> ColumnDef(c) == ColumnDef(c.(default := None))
  {
    if !c.isIdentity && c.default.Some? {
      var q := Quote(c.name);
      var t := " " + TypeConverter.Convert(c.typ);
      var d := " DEFAULT " + ConvertDefaultAsWritten(c.default.value);
      assert DefaultClause(None) == "";
      assert ColumnTail(c.(default := None, nullable := true)) == t;
      assert ColumnTail(c.(nullable := true)) == t + d;
      AppendAssoc(q, t, d);
    }
  }

  /** The column's own name is the first identifier of its definition. */
  lemma ColumnDefName(c: Column)
    requires Unquoted(c.name)
    ensures |QuotedNames(ColumnDef(c))| > 0 && QuotedNames(ColumnDef(c))[0] == c.name
  {
    QuotedNamesQuote(c.name, ColumnTail(c));
  }

  function ColumnDefs(columns: seq<Column>): (defs: seq<string>)
    ensures |defs| == |columns|
    ensures forall i :: 0 <= i < |columns| ==> defs[i] == ColumnDef(columns[i])
  {
    seq(|columns|, i requires 0 <= i < |columns| => ColumnDef(columns[i]))
  }

  const ColumnSeparator := ",\n    "

  /** The statement around a non-empty column list. */
  function CreateTableWith(table: string, body: string): string {
    "CREATE TABLE " + (Quote(table) + (" (\n    " + (body + "\n);")))
  }

  /** The statement for a list of rendered column definitions. */
  function CreateTableOf(table: string, defs: seq<string>): (r: string)
    ensures defs == [] ==> r == "CREATE TABLE \"" + table + "\" ();"
  {
    var body := if defs != [] then Join(ColumnSeparator, defs) else "";
    if body != "" then CreateTableWith(table, body)
    else "CREATE TABLE " + (Quote(table) + " ();")
  }

  /** `generate_create_table_ddl`; the `columns` entry of the schema record
      is passed directly. */
  function CreateTableDdl(table: string, columns: seq<Column>): (r: string)
    ensures columns == [] ==> r == "CREATE TABLE \"" + table + "\" ();"
  {
    CreateTableOf(table, ColumnDefs(columns))
  }

  lemma JoinNonEmpty(defs: seq<string>)
    requires defs != [] && defs[0] != []
    ensures Join(ColumnSeparator, defs) != ""
  {
    if |defs| > 1 {
      assert |Join(ColumnSeparator, defs)| >= |defs[0]|;
    }
  }

  /** With columns, the statement wraps their definitions joined by the
      separator. */
  lemma CreateTableColumns(table: string, columns: seq<Column>)
    requires columns != []
    ensures CreateTableDdl(table, columns) == CreateTableWith(table, Join(ColumnSeparator, ColumnDefs(columns)))
  {
    JoinNonEmpty(ColumnDefs(columns));
  }

  /** A single column is rendered on its own indented line. */
  lemma CreateTableOneColumn(table: string, c: Column)
    ensures CreateTableDdl(table, [c]) == CreateTableWith(table, ColumnDef(c))
  {
    assert ColumnDefs([c]) == [ColumnDef(c)];
    CreateTableColumns(table, [c]);
  }

  lemma CreateTableWithSnoc(table: string, defs: seq<string>, x: string)
    requires defs != []
    ensures var d := CreateTableWith(table, Join(ColumnSeparator, defs));
      |d| >= 3 &&
      CreateTableWith(table, Join(ColumnSeparator, defs + [x])) == d[..|d| - 3] + ColumnSeparator + x + "\n);"
  {
    JoinSnoc(ColumnSeparator, defs, x);
    var body := Join(ColumnSeparator, defs);
    var head := "CREATE TABLE " + (Quote(table) + " (\n    ");
    assert CreateTableWith(table, body) == head + body + "\n);";
    assert CreateTableWith(table, body + ColumnSeparator + x) == head + body + ColumnSeparator + x + "\n);";
  }

  lemma CreateTableOfSnoc(table: string, defs: seq<string>, x: string)
    requires defs != [] && defs[0] != []
    ensures var d := CreateTableOf(table, defs);
      |d| >= 3 &&
      CreateTableOf(table, defs + [x]) == d[..|d| - 3] + ColumnSeparator + x + "\n);"
  {
    JoinNonEmpty(defs);
    JoinNonEmpty(defs + [x]);
    CreateTableWithSnoc(table, defs, x);
  }

  lemma ColumnDefsSnoc(columns: seq<Column>, c: Column)
    ensures ColumnDefs(columns + [c]) == ColumnDefs(columns) + [ColumnDef(c)]
  {
  }

  /** Adding a column adds exactly its definition, after a separator, just
      before the closing parenthesis: one definition per column, in order. */
  lemma CreateTableSnoc(table: string, columns: seq<Column>, c: Column)
    requires columns != []
    ensures var d := CreateTableDdl(table, columns);
      |d| >= 3 &&
      CreateTableDdl(table, columns + [c]) == d[..|d| - 3] + ColumnSeparator + ColumnDef(c) + "\n);"
  {
    var defs := ColumnDefs(columns);
    ColumnDefsSnoc(columns, c);
    assert defs[0] != [];
    CreateTableOfSnoc(table, defs, ColumnDef(c));
  }

  /** The fixed text of the statements holds no double quote. */
  lemma TemplatesUnquoted()
    ensures Unquoted("CREATE TABLE ") && Unquoted("ALTER TABLE ") && Unquoted(");")
    ensures Unquoted(" ADD PRIMARY KEY (") && Unquoted(" ADD CONSTRAINT ")
    ensures Unquoted(" FOREIGN KEY (") && Unquoted(") REFERENCES ") && Unquoted("(")
  {
  }

  /** The table name is the first identifier of the statement. */
  lemma CreateTableName(table: string, columns: seq<Column>)
    requires Unquoted(table)
    ensures |QuotedNames(CreateTableDdl(table, columns))| > 0
    ensures QuotedNames(CreateTableDdl(table, columns))[0] == table
  {
    TemplatesUnquoted();
    var d := CreateTableDdl(table, columns);
    var rest := if d == "CREATE TABLE " + (Quote(table) + " ();") then " ();" else
      " (\n    " + (Join(ColumnSeparator, ColumnDefs(columns)) + "\n);");
    assert d == "CREATE TABLE " + (Quote(table) + rest);
    QuotedNamesPlain("CREATE TABLE ", Quote(table) + rest);
    QuotedNamesQuote(table, rest);
  }

  /* ---------------- keys and indexes ---------------- */

  /** `generate_primary_key_ddl`. */
  function PrimaryKeyDdl(table: string, pkColumns: seq<string>): (r: string)
    ensures StartsWith(r, "ALTER TABLE ")
  {
    "ALTER TABLE " + (Quote(table) + (" ADD PRIMARY KEY (" + (QuotedList(pkColumns) + ");")))
  }

  /** The identifiers of the statement are the table and then the key
      columns, in order. */
  lemma PrimaryKeyNames(table: string, pkColumns: seq<string>)
    requires Unquoted(table)
    requires forall i :: 0 <= i < |pkColumns| ==> Unquoted(pkColumns[i])
    ensures QuotedNames(PrimaryKeyDdl(table, pkColumns)) == [table] + pkColumns
  {
    TemplatesUnquoted();
    NamesThenEnd(" ADD PRIMARY KEY (", pkColumns, ");");
    QuotedNamesAfter("ALTER TABLE ", table, " ADD PRIMARY KEY (" + (QuotedList(pkColumns) + ");"));
  }

  /** `generate_foreign_key_ddl`. */
  function ForeignKeyDdl(table: string, fk: ForeignKey): (r: string)
    ensures StartsWith(r, "ALTER TABLE ")
  {
    "ALTER TABLE " + (Quote(table) + (" ADD CONSTRAINT " + (Quote(fk.constraintName)
    + (" FOREIGN KEY (" + (Quote(fk.column) + (") REFERENCES " + (Quote(fk.referencedTable)
    + ("(" + (Quote(fk.referencedColumn) + ");")))))))))
  }

  /** The identifiers of the statement are, in order, the table, the
      constraint, the column, the referenced table and the referenced
      column. */
  lemma ForeignKeyNames(table: string, fk: ForeignKey)
    requires Unquoted(table) && Unquoted(fk.constraintName) && Unquoted(fk.column)
    requires Unquoted(fk.referencedTable) && Unquoted(fk.referencedColumn)
    ensures QuotedNames(ForeignKeyDdl(table, fk))
         == [table, fk.constraintName, fk.column, fk.referencedTable, fk.referencedColumn]
  {
    TemplatesUnquoted();
    var t5 := Quote(fk.referencedColumn) + ");";
    var t4 := Quote(fk.referencedTable) + ("(" + t5);
    var t3 := Quote(fk.column) + (") REFERENCES " + t4);
    var t2 := Quote(fk.constraintName) + (" FOREIGN KEY (" + t3);
    QuotedNamesNone(");");
    QuotedNamesAfter("(", fk.referencedColumn, ");");
    QuotedNamesAfter(") REFERENCES ", fk.referencedTable, "(" + t5);
    QuotedNamesAfter(" FOREIGN KEY (", fk.column, ") REFERENCES " + t4);
    QuotedNamesAfter(" ADD CONSTRAINT ", fk.constraintName, " FOREIGN KEY (" + t3);
    QuotedNamesAfter("ALTER TABLE ", table, " ADD CONSTRAINT " + t2);
  }

  /** The record `generate_index_ddl` reads: `unique` defaults to false. */
  datatype IndexSpec = IndexSpec(name: string, table: string, columns: seq<string>, unique: bool)

  function IndexKeyword(unique: bool): (r: string)
    ensures Unquoted(r)
  {
    if unique then "CREATE UNIQUE INDEX " else "CREATE INDEX "
  }

  /** `generate_index_ddl`. */
  function IndexDdl(ix: IndexSpec): (r: string)
    ensures StartsWith(r, "CREATE UNIQUE ") <==> ix.unique
  {
    var rest := Quote(ix.name) + (" ON " + (Quote(ix.table) + (" (" + (QuotedList(ix.columns) + ");"))));
    var r := IndexKeyword(ix.unique) + rest;
    assert ix.unique ==> r[..14] == "CREATE UNIQUE ";
    assert !ix.unique ==> r[7] == 'I';
    r
  }

  /** The identifiers of the statement are the index, the table and then
      the columns, in order. */
  lemma IndexNames(ix: IndexSpec)
    requires Unquoted(ix.name) && Unquoted(ix.table)
    requires forall i :: 0 <= i < |ix.columns| ==> Unquoted(ix.columns[i])
    ensures QuotedNames(IndexDdl(ix)) == [ix.name, ix.table] + ix.columns
  {
    IndexTemplatesUnquoted();
    var t3 := " (" + (QuotedList(ix.columns) + ");");
    NamesThenEnd(" (", ix.columns, ");");
    QuotedNamesAfter(" ON ", ix.table, t3);
    QuotedNamesAfter(IndexKeyword(ix.unique), ix.name, " ON " + (Quote(ix.table) + t3));
  }

  lemma IndexTemplatesUnquoted()
    ensures Unquoted(" ON ") && Unquoted(" (") && Unquoted(");")
  {
  }

  /** Unquoted text, a column list and unquoted text read back as the
      list. */
  lemma NamesThenEnd(pre: string, names: seq<string>, end: string)
    requires Unquoted(pre) && Unquoted(end)
    requires forall i :: 0 <= i < |names| ==> Unquoted(names[i])
    ensures QuotedNames(pre + (QuotedList(names) + end)) == names
  {
    QuotedNamesPlain(pre, QuotedList(names) + end);
    QuotedNamesList(names, end);
    QuotedNamesNone(end);
    assert names + [] == names;
  }
}

=== FILE: schema_extractor.dfy ===
/** `SchemaExtractor`: catalog result rows to column, primary-key,
    foreign-key and index records. The rows are the query results, in the
    order the catalog queries sort them. */
module SchemaExtractor {
  import opened Wrappers
  import opened OrderedDict
  import opened Catalog

  /** One column record of `extract_table_schema`; the type is the bare
      TYPENAME. */
  function ColumnOf(row: ColumnRow): (c: Column)
    ensures c.name == row.colname && c.typ == row.typename
    ensures c.nullable <==> row.nulls == "Y"
    ensures c.isIdentity <==> row.identity == Some("Y")
    ensures c.default == row.default && c.length == row.length
  {
    Column(row.colname, row.typename, row.nulls == "Y", row.default, row.length, row.identity == Some("Y"))
  }

  /** `extract_table_schema(...)['columns']`: one record per row, in order. */
  function ExtractTableSchema(rows: seq<ColumnRow>): (cols: seq<Column>)
    ensures |cols| == |rows|
    ensures forall i :: 0 <= i < |rows| ==> cols[i] == ColumnOf(rows[i])
  {
    seq(|rows|, i requires 0 <= i < |rows| => ColumnOf(rows[i]))
  }

  /** A SYSCAT.KEYCOLUSE row of the primary-key query. */
  datatype KeyColumnRow = KeyColumnRow(colname: string)

  /** `extract_primary_keys`: the COLNAME values, in row order. */
  function ExtractPrimaryKeys(rows: seq<KeyColumnRow>): (names: seq<string>)
    ensures |names| == |rows|
    ensures forall i :: 0 <= i < |rows| ==> names[i] == rows[i].colname
  {
    seq(|rows|, i requires 0 <= i < |rows| => rows[i].colname)
  }

  /** A row of the foreign-key join. */
  datatype ForeignKeyRow = ForeignKeyRow(constname: string, colname: string, reftabname: string, refkeyname: string, refcolname: string)

  /** `extract_foreign_keys`: one record per row, in order; the referenced
      key's constraint name is not kept. */
  function ExtractForeignKeys(rows: seq<ForeignKeyRow>): (fks: seq<ForeignKey>)
    ensures |fks| == |rows|
    ensures forall i :: 0 <= i < |rows| ==>
      fks[i] == ForeignKey(rows[i].constname, rows[i].colname, rows[i].reftabname, rows[i].refcolname)
  {
    seq(|rows|, i requires 0 <= i < |rows| =>
      ForeignKey(rows[i].constname, rows[i].colname, rows[i].reftabname, rows[i].refcolname))
  }

  /** A row of the index join. */
  datatype IndexRow = IndexRow(indname: string, uniquerule: string, colname: string, colseq: int)

  function Keyed(rows: seq<IndexRow>): (xs: seq<(string, IndexRow)>)
    ensures |xs| == |rows|
    ensures forall i :: 0 <= i < |rows| ==> xs[i] == (rows[i].indname, rows[i])
  {
    seq(|rows|, i requires 0 <= i < |rows| => (rows[i].indname, rows[i]))
  }

  function ColumnNames(rows: seq<IndexRow>): (names: seq<string>)
    ensures |names| == |rows|
    ensures forall i :: 0 <= i < |rows| ==> names[i] == rows[i].colname
  {
    seq(|rows|, i requires 0 <= i < |rows| => rows[i].colname)
  }

  /** The rows of index `name`, in row order. */
  function RowsOf(rows: seq<IndexRow>, name: string): seq<IndexRow> {
    Select(Keyed(rows), name)
  }

  /** The record built for one group: uniqueness comes from the group's
      first row. */
  function IndexOfGroup(name: string, group: seq<IndexRow>): Index {
    Index(name, ColumnNames(group), group != [] && group[0].uniquerule == "U")
  }

  /** `extract_indexes`: the rows grouped by INDNAME in a dict. */
  function ExtractIndexes(rows: seq<IndexRow>): (ixs: seq<Index>)
    ensures |ixs| == |GroupBy(Keyed(rows))|
  {
    var g := GroupBy(Keyed(rows));
    seq(|g|, i requires 0 <= i < |g| => IndexOfGroup(g[i].0, g[i].1))
  }

  function IndexNames(rows: seq<IndexRow>): (names: seq<string>)
    ensures |names| == |rows|
    ensures forall i :: 0 <= i < |rows| ==> names[i] == rows[i].indname
  {
    seq(|rows|, i requires 0 <= i < |rows| => rows[i].indname)
  }

  /** One index per distinct INDNAME, in order of first appearance; each
      holds the column names of its rows in row order and is unique
      exactly when its first row's UNIQUERULE is `U`. */
  lemma IndexesGrouped(rows: seq<IndexRow>)
    ensures |ExtractIndexes(rows)| == |Distinct(IndexNames(rows))|
    ensures forall i :: 0 <= i < |ExtractIndexes(rows)| ==>
      var ix := ExtractIndexes(rows)[i];
      && ix.name == Distinct(IndexNames(rows))[i]
      && RowsOf(rows, ix.name) != []
      && ix.columns == ColumnNames(RowsOf(rows, ix.name))
      && (ix.unique <==> RowsOf(rows, ix.name)[0].uniquerule == "U")
  {
    var xs := Keyed(rows);
    var g := GroupBy(xs);
    var ixs := ExtractIndexes(rows);
    GroupByKeys(xs);
    assert Keys(xs) == IndexNames(rows);
    forall i | 0 <= i < |ixs|
      ensures ixs[i].name == Distinct(IndexNames(rows))[i]
      ensures RowsOf(rows, ixs[i].name) != []
      ensures ixs[i].columns == ColumnNames(RowsOf(rows, ixs[i].name))
      ensures ixs[i].unique <==> RowsOf(rows, ixs[i].name)[0].uniquerule == "U"
    {
      GroupByEntries(xs, i);
      assert Keys(g)[i] == g[i].0;
    }
  }

  /** The sum of the column counts of a list of indexes. */
  function ColumnTotal(ixs: seq<Index>): int {
    if |ixs| == 0 then 0 else |ixs[0].columns| + ColumnTotal(ixs[1..])
  }

  lemma {:induction false} ColumnTotalOfGroups(g: Entries<string, seq<IndexRow>>)
    ensures ColumnTotal(seq(|g|, i requires 0 <= i < |g| => IndexOfGroup(g[i].0, g[i].1))) == Sum(g, Length<IndexRow>)
  {
    var ixs := seq(|g|, i requires 0 <= i < |g| => IndexOfGroup(g[i].0, g[i].1));
    if |g| > 0 {
      var tail := g[1..];
      ColumnTotalOfGroups(tail);
      assert ixs[1..] == seq(|tail|, i requires 0 <= i < |tail| => IndexOfGroup(tail[i].0, tail[i].1));
    }
  }

  /** Grouping keeps every row: the indexes hold as many columns in total
      as there are rows. */
  lemma IndexColumnTotal(rows: seq<IndexRow>)
    ensures ColumnTotal(ExtractIndexes(rows)) == |rows|
  {
    ColumnTotalOfGroups(GroupBy(Keyed(rows)));
    GroupBySize(Keyed(rows));
  }

  /** Empty query results give empty outputs from all four extractors. */
  lemma EmptyResults()
    ensures ExtractTableSchema([]) == [] && ExtractPrimaryKeys([]) == []
    ensures ExtractForeignKeys([]) == [] && ExtractIndexes([]) == []
  {
  }
}

=== FILE: sequence_extractor.dfy ===
/** `SequenceExtractor`: SYSCAT.SEQUENCES rows to sequence records. The
    query is an oracle from its restriction to the rows it returns. */
module SequenceExtractor {
  import opened Wrappers
  import opened Catalog

  datatype SequenceRow = SequenceRow(
    seqname: string, seqschema: Option<string>, start: int, increment: int,
    minvalue: Option<int>, maxvalue: Option<int>, cycle: Option<string>, cache: Option<int>,
    ordered: Option<string>, datatypeid: Option<int>, nextcachefirstvalue: Option<int>, seqtype: Option<string>)

  datatype Sequence = Sequence(
    name: string, schema: Option<string>, start: int, increment: int,
    minValue: Option<int>, maxValue: Option<int>, cycle: bool, cache: Option<int>,
    ordered: bool, dataTypeId: Option<int>, nextValue: Option<int>, seqType: Option<string>)

  function SequenceOf(row: SequenceRow): (s: Sequence)
    ensures s.cycle <==> row.cycle == Some("Y")
    ensures s.ordered <==> row.ordered == Some("Y")
    ensures s.name == row.seqname && s.schema == row.seqschema
    ensures s.start == row.start && s.increment == row.increment && s.cache == row.cache
    ensures s.minValue == row.minvalue && s.maxValue == row.maxvalue
    ensures s.dataTypeId == row.datatypeid && s.nextValue == row.nextcachefirstvalue && s.seqType == row.seqtype
  {
    Sequence(row.seqname, row.seqschema, row.start, row.increment, row.minvalue, row.maxvalue,
      row.cycle == Some("Y"), row.cache, row.ordered == Some("Y"), row.datatypeid,
      row.nextcachefirstvalue, row.seqtype)
  }

  /** `extract_sequences`: one record per row of the restricted query, in
      order. */
  function ExtractSequences(schema: Option<string>, query: SchemaFilter -> seq<SequenceRow>): (seqs: seq<Sequence>)
    ensures var rows := query(SystemExcludingFilter(schema));
      |seqs| == |rows| && forall i :: 0 <= i < |rows| ==> seqs[i] == SequenceOf(rows[i])
  {
    var rows := query(SystemExcludingFilter(schema));
    seq(|rows|, i requires 0 <= i < |rows| => SequenceOf(rows[i]))
  }
}

=== FILE: sequence_manager.dfy ===
/** Sequence reconciliation (`SequenceManager`): creating a PostgreSQL
    sequence for each auto-increment primary-key column, choosing its start
    value from DB2, and re-synchronising sequences with the data after the
    copy.

    Database access is abstract: `Env` supplies the result of each query
    (`Err` when the driver raises) and whether each PostgreSQL statement
    succeeds. Every query and statement is recorded, in order, in a trace of
    `Action`s. Logging is not modelled. */
module SequenceManager {
  import opened Wrappers
  import opened Text
  import opened OrderedDict

  /** A statement or query the manager issues. */
  datatype Action =
    | MaxSequenceQuery(table: string, schema: string)
    | MaxValueQuery(schema: string, table: string, column: string)
    | CreateSequence(sequence: string, start: int)
    | SetDefault(table: string, column: string, sequence: string)
    | SetOwner(sequence: string, table: string, column: string)
    | PgMaxQuery(table: string, column: string)
    | SetVal(sequence: string, next: int)
    | AllSequencesQuery(schema: string)

  /** A row of `MAXSEQUENCE` (TBNAME, NAME, MAXRESERVED, SEQUENCENAME);
      `None` is SQL NULL. */
  datatype MaxSequenceRow = MaxSequenceRow(
    tbName: string,
    name: string,
    maxReserved: Option<int>,
    sequenceName: Option<string>)

  /** A row of the catalog query listing the schema's owned sequences. */
  datatype SequenceRow = SequenceRow(table: string, column: string, sequence: string)

  /** The databases as the manager sees them. */
  datatype Env = Env(
    /** DB2 `MAXSEQUENCE` rows for (table, schema). */
    maxSequenceRows: (string, string) -> Result<seq<MaxSequenceRow>, string>,
    /** DB2 `MAX_VAL` of each row of the max query for (schema, table, column);
        `None` when NULL or absent. */
    maxValueRows: (string, string, string) -> Result<seq<Option<int>>, string>,
    /** PostgreSQL rows of the max query for (table, column), as tuples. */
    pgMaxRows: (string, string) -> Result<seq<seq<Option<int>>>, string>,
    /** PostgreSQL owned-sequence rows of a schema. */
    sequenceRows: string -> Result<seq<SequenceRow>, string>,
    /** Whether a PostgreSQL statement runs without raising. */
    succeeds: Action -> bool)

  /** `get_maxsequence_info`'s dict. */
  datatype MaxSequenceInfo = MaxSequenceInfo(
    table: string,
    column: string,
    currentValue: Option<int>,
    sequenceName: Option<string>)

  /** The value with its trace. */
  datatype Traced<T> = Traced(value: T, trace: seq<Action>)

  /** The name both creation and synchronisation use for a column's sequence. */
  function SequenceName(table: string, column: string): (name: string)
    ensures name == Lower(table) + "_" + Lower(column) + "_seq"
  {
    LowerAppend(table + "_" + column, "_seq");
    LowerAppend(table + "_", column);
    LowerAppend(table, "_");
    Lower(table + "_" + column + "_seq")
  }

  /** `get_maxsequence_info`: the first MAXSEQUENCE row of the table, or
      `None` when there is none or the query raises. */
  function GetMaxSequenceInfo(env: Env, table: string, schema: string): (r: Option<MaxSequenceInfo>)
    ensures r.Some? <==> env.maxSequenceRows(table, schema).Ok? && |env.maxSequenceRows(table, schema).value| > 0
    ensures r.Some? ==> r.value.column == env.maxSequenceRows(table, schema).value[0].name
    ensures r.Some? ==> r.value.currentValue == env.maxSequenceRows(table, schema).value[0].maxReserved
  {
    match env.maxSequenceRows(table, schema)
    case Err(_) => None
    case Ok(rows) =>
      if |rows| == 0 then None
      else
        var row := rows[0];
        Some(MaxSequenceInfo(row.tbName, row.name, row.maxReserved, row.sequenceName))
  }

  /** `get_max_value_from_table`: the table's maximum, or 0 when the result
      is empty, the maximum is NULL, or the query raises. */
  function GetMaxValueFromTable(env: Env, table: string, column: string, schema: string): (m: int)
    ensures var q := env.maxValueRows(schema, table, column);
      q.Ok? && |q.value| > 0 && q.value[0].Some? ==> m == q.value[0].value
    ensures var q := env.maxValueRows(schema, table, column);
      !(q.Ok? && |q.value| > 0 && q.value[0].Some?) ==> m == 0
  {
    match env.maxValueRows(schema, table, column)
    case Err(_) => 0
    case Ok(rows) => if |rows| > 0 && rows[0].Some? then rows[0].value else 0
  }

  /** The start value when the table's maximum is used: one past a positive
      maximum, otherwise 1. */
  function FallbackStart(max: int): (s: int)
    ensures s >= 1 && s > max
    ensures max > 0 ==> s == max + 1
    ensures max <= 0 ==> s == 1
  {
    if max > 0 then max + 1 else 1
  }

  /** The start value and the DB2 queries issued to choose it. The
      MAXSEQUENCE path raises a `TypeError` when MAXRESERVED is NULL. */
  function ChooseStart(env: Env, table: string, column: string, explicit: Option<int>, schema: string)
    : (r: Traced<Result<int, string>>)
    ensures explicit.Some? ==> r == Traced(Ok(explicit.value), [])
    ensures explicit.None? ==> |r.trace| >= 1 && r.trace[0] == MaxSequenceQuery(table, schema)
    ensures explicit.None? && UsesMaxSequence(env, table, column, schema) ==>
      r.trace == [MaxSequenceQuery(table, schema)] &&
      r.value == (match GetMaxSequenceInfo(env, table, schema).value.currentValue
                  case Some(v) => Ok(v + 1)
                  case None => Err("TypeError"))
    ensures explicit.None? && !UsesMaxSequence(env, table, column, schema) ==>
      r.trace == [MaxSequenceQuery(table, schema), MaxValueQuery(schema, table, column)] &&
      r.value == Ok(FallbackStart(GetMaxValueFromTable(env, table, column, schema)))
  {
    match explicit
    case Some(v) => Traced(Ok(v), [])
    case None =>
      if UsesMaxSequence(env, table, column, schema) then
        var info := GetMaxSequenceInfo(env, table, schema).value;
        Traced(if info.currentValue.Some? then Ok(info.currentValue.value + 1) else Err("TypeError"),
               [MaxSequenceQuery(table, schema)])
      else
        Traced(Ok(FallbackStart(GetMaxValueFromTable(env, table, column, schema))),
               [MaxSequenceQuery(table, schema), MaxValueQuery(schema, table, column)])
  }

  /** The MAXSEQUENCE row exists and names this column. */
  predicate UsesMaxSequence(env: Env, table: string, column: string, schema: string) {
    var info := GetMaxSequenceInfo(env, table, schema);
    info.Some? && info.value.column == column
  }

  /** The start chosen from the table's data agrees with the later sync:
      when DB2 and PostgreSQL report the same positive maximum for the
      column, the sequence created from the DB2 maximum starts exactly at
      the value that `sync_sequence_after_insert` sets it to. */
  lemma StartAgreesWithSync(env: Env, table: string, column: string, schema: string)
    requires !UsesMaxSequence(env, table, column, schema)
    requires GetMaxValueFromTable(env, table, column, schema) > 0
    requires TableMax(env, table, column) == Some(GetMaxValueFromTable(env, table, column, schema))
    ensures var sync := SyncSequenceAfterInsert(env, table, column, schema);
      |sync.trace| == 2 && sync.trace[1].SetVal? &&
      ChooseStart(env, table, column, None, schema).value == Ok(sync.trace[1].next)
  {
  }

  /** `create_sequence_for_column`: the sequence's name, `None` when the
      CREATE SEQUENCE statement fails (and then nothing further is issued),
      or the error raised while choosing the start value. Failures to set
      the column default or the ownership are ignored. */
  function CreateSequenceForColumn(env: Env, table: string, column: string, explicit: Option<int>, schema: string)
    : (r: Traced<Result<Option<string>, string>>)
    ensures var s := ChooseStart(env, table, column, explicit, schema);
      r.value.Err? <==> s.value.Err?
    ensures var s := ChooseStart(env, table, column, explicit, schema);
      s.value.Ok? ==>
        var name := SequenceName(table, column);
        var create := CreateSequence(name, s.value.value);
        (r.value == Ok(None) <==> !env.succeeds(create)) &&
        (!env.succeeds(create) ==> r.trace == s.trace + [create]) &&
        (env.succeeds(create) ==>
          r.value == Ok(Some(name)) &&
          r.trace == s.trace + [create, SetDefault(table, column, name), SetOwner(name, table, column)])
  {
    var s := ChooseStart(env, table, column, explicit, schema);
    match s.value
    case Err(e) => Traced(Err(e), s.trace)
    case Ok(start) =>
      var name := SequenceName(table, column);
      var create := CreateSequence(name, start);
      if !env.succeeds(create) then Traced(Ok(None), s.trace + [create])
      else Traced(Ok(Some(name)), s.trace + [create, SetDefault(table, column, name), SetOwner(name, table, column)])
  }

  /** Whether creating the column's sequence (with a queried start value)
      succeeds: the start value is found and the CREATE statement runs. */
  predicate Creates(env: Env, table: string, column: string, schema: string) {
    var s := ChooseStart(env, table, column, None, schema);
    s.value.Ok? && env.succeeds(CreateSequence(SequenceName(table, column), s.value.value))
  }

  /** The names of the columns whose sequences get created, in key order. */
  function CreatedNames(env: Env, table: string, pks: seq<string>, schema: string): seq<string> {
    if |pks| == 0 then []
    else
      (if Creates(env, table, pks[0], schema) then [SequenceName(table, pks[0])] else [])
        + CreatedNames(env, table, pks[1..], schema)
  }

  /** Whether some column's start value raises. */
  predicate AnyStartFails(env: Env, table: string, pks: seq<string>, schema: string) {
    exists i :: 0 <= i < |pks| && ChooseStart(env, table, pks[i], None, schema).value.Err?
  }

  /** `create_sequences_for_table`: creates a sequence per key column, in
      order, and returns the names of those created. An error raised while
      choosing a start value propagates and ends the loop. */
  function CreateSequencesForTable(env: Env, table: string, pks: seq<string>, schema: string)
    : (r: Traced<Result<seq<string>, string>>)
    ensures pks == [] ==> r == Traced(Ok([]), [])
    ensures r.value.Err? <==> AnyStartFails(env, table, pks, schema)
    ensures r.value.Ok? ==> r.value.value == CreatedNames(env, table, pks, schema)
    ensures r.value.Ok? ==> |r.value.value| <= |pks|
  {
    if |pks| == 0 then Traced(Ok([]), [])
    else
      var first := CreateSequenceForColumn(env, table, pks[0], None, schema);
      match first.value
      case Err(e) =>
        assert ChooseStart(env, table, pks[0], None, schema).value.Err?;
        Traced(Err(e), first.trace)
      case Ok(name) =>
        var rest := CreateSequencesForTable(env, table, pks[1..], schema);
        AnyStartFailsCons(env, table, pks, schema);
        Traced(match rest.value
               case Err(e) => Err(e)
               case Ok(names) => Ok((if name.Some? then [name.value] else []) + names),
               first.trace + rest.trace)
  }

  lemma AnyStartFailsCons(env: Env, table: string, pks: seq<string>, schema: string)
    requires |pks| > 0
    ensures AnyStartFails(env, table, pks, schema) <==>
      ChooseStart(env, table, pks[0], None, schema).value.Err? || AnyStartFails(env, table, pks[1..], schema)
  {
    if AnyStartFails(env, table, pks[1..], schema) {
      var i :| 0 <= i < |pks[1..]| && ChooseStart(env, table, pks[1..][i], None, schema).value.Err?;
      assert pks[i + 1] == pks[1..][i];
    }
    if AnyStartFails(env, table, pks, schema) && !ChooseStart(env, table, pks[0], None, schema).value.Err? {
      var i :| 0 <= i < |pks| && ChooseStart(env, table, pks[i], None, schema).value.Err?;
      assert pks[1..][i - 1] == pks[i];
    }
  }

  /** `sync_sequence_after_insert`: moves the column's sequence past the
      table's current maximum, so that the next `nextval` yields max + 1.
      An empty table (no row, or a NULL maximum) leaves the sequence alone
      and counts as success; any raised error counts as failure. The schema
      argument does not reach the query. */
  function SyncSequenceAfterInsert(env: Env, table: string, column: string, schema: string): (r: Traced<bool>)
    ensures |r.trace| >= 1 && r.trace[0] == PgMaxQuery(table, column)
    ensures |r.trace| <= 2
    ensures |r.trace| == 2 <==> TableMax(env, table, column).Some?
    ensures TableMax(env, table, column).Some? ==>
      r.trace[1] == SetVal(SequenceName(table, column), TableMax(env, table, column).value + 1)
    ensures r.value <==> !MaxQueryFails(env, table, column) && (|r.trace| == 2 ==> env.succeeds(r.trace[1]))
  {
    var query := PgMaxQuery(table, column);
    match env.pgMaxRows(table, column)
    case Err(_) => Traced(false, [query])
    case Ok(rows) =>
      if |rows| == 0 then Traced(true, [query])
      else if |rows[0]| == 0 then Traced(false, [query])
      else if rows[0][0].None? then Traced(true, [query])
      else
        var setval := SetVal(SequenceName(table, column), rows[0][0].value + 1);
        Traced(env.succeeds(setval), [query, setval])
  }

  /** The table's maximum as the sync query reports it, if any. */
  function TableMax(env: Env, table: string, column: string): Option<int> {
    var q := env.pgMaxRows(table, column);
    if q.Ok? && |q.value| > 0 && |q.value[0]| > 0 && q.value[0][0].Some? then Some(q.value[0][0].value) else None
  }

  /** The sync query raises, or (indexing its first row) would raise. */
  predicate MaxQueryFails(env: Env, table: string, column: string) {
    var q := env.pgMaxRows(table, column);
    q.Err? || (|q.value| > 0 && |q.value[0]| == 0)
  }

  /** The schema argument has no effect: the query names the table
      unqualified, so the session's search path decides. */
  lemma SyncIgnoresSchema(env: Env, table: string, column: string, schema: string, schema2: string)
    ensures SyncSequenceAfterInsert(env, table, column, schema) == SyncSequenceAfterInsert(env, table, column, schema2)
  {
  }

  /** The number of key columns whose sync succeeds. */
  function CountSynced(env: Env, table: string, pks: seq<string>, schema: string): nat {
    if |pks| == 0 then 0
    else
      var here := if SyncSequenceAfterInsert(env, table, pks[0], schema).value then 1 else 0;
      here + CountSynced(env, table, pks[1..], schema)
  }

  /** The statements of syncing each key column in turn. */
  function SyncTrace(env: Env, table: string, pks: seq<string>, schema: string): seq<Action> {
    if |pks| == 0 then []
    else SyncSequenceAfterInsert(env, table, pks[0], schema).trace + SyncTrace(env, table, pks[1..], schema)
  }

  /** `sync_sequences_for_table`: syncs each key column in order and counts
      the successes. */
  method SyncSequencesForTable(env: Env, table: string, pks: seq<string>, schema: string)
    returns (count: nat, trace: seq<Action>)
    ensures count == CountSynced(env, table, pks, schema) && count <= |pks|
    ensures trace == SyncTrace(env, table, pks, schema)
    ensures pks == [] ==> count == 0 && trace == []
  {
    count := 0;
    trace := [];
    var i := 0;
    while i < |pks|
      invariant 0 <= i <= |pks|
      invariant count + CountSynced(env, table, pks[i..], schema) == CountSynced(env, table, pks, schema)
      invariant trace + SyncTrace(env, table, pks[i..], schema) == SyncTrace(env, table, pks, schema)
      invariant count <= i
    {
      assert pks[i..][1..] == pks[i + 1..];
      var r := SyncSequenceAfterInsert(env, table, pks[i], schema);
      if r.value {
        count := count + 1;
      }
      trace := trace + r.trace;
      i := i + 1;
    }
  }

  /** `get_all_sequences`: the schema's owned sequences, or none when the
      catalog query raises. */
  function GetAllSequences(env: Env, schema: string): (r: seq<SequenceRow>)
    ensures env.sequenceRows(schema).Err? ==> r == []
    ensures env.sequenceRows(schema).Ok? ==> r == env.sequenceRows(schema).value
  {
    match env.sequenceRows(schema)
    case Err(_) => []
    case Ok(rows) => rows
  }

  /** `sync_all_sequences_in_schema`'s statistics dict. */
  datatype SyncStats = SyncStats(totalSequences: nat, synced: nat, failed: nat, skipped: nat)

  /** The sequences of the listed tables, in catalog order. */
  function FilterByTables(rows: seq<SequenceRow>, tables: seq<string>): (r: seq<SequenceRow>)
    ensures |r| <= |rows|
    ensures forall x :: x in r <==> x in rows && x.table in tables
  {
    if |rows| == 0 then []
    else (if rows[0].table in tables then [rows[0]] else []) + FilterByTables(rows[1..], tables)
  }

  /** The filter keeps every copy of a listed table's sequence and no copy
      of any other. */
  lemma {:induction false} FilterByTablesCount(rows: seq<SequenceRow>, tables: seq<string>, x: SequenceRow)
    ensures multiset(FilterByTables(rows, tables))[x] == if x.table in tables then multiset(rows)[x] else 0
  {
    if |rows| > 0 {
      FilterByTablesCount(rows[1..], tables, x);
      assert rows == [rows[0]] + rows[1..];
    }
  }

  /** Filtering goes piece by piece, so the kept sequences stay in catalog
      order: the filter of a concatenation is the concatenation of the
      filters. */
  lemma {:induction false} FilterByTablesAppend(a: seq<SequenceRow>, b: seq<SequenceRow>, tables: seq<string>)
    ensures FilterByTables(a + b, tables) == FilterByTables(a, tables) + FilterByTables(b, tables)
  {
    if |a| > 0 {
      assert (a + b)[0] == a[0];
      assert (a + b)[1..] == a[1..] + b;
      FilterByTablesAppend(a[1..], b, tables);
    } else {
      assert a + b == b;
    }
  }

  /** One more catalog row is kept at the end exactly when its table is
      listed. */
  lemma FilterByTablesSnoc(rows: seq<SequenceRow>, x: SequenceRow, tables: seq<string>)
    ensures FilterByTables(rows + [x], tables)
         == FilterByTables(rows, tables) + (if x.table in tables then [x] else [])
  {
    FilterByTablesAppend(rows, [x], tables);
    assert [x][1..] == [];
    assert FilterByTables([x], tables) == (if x.table in tables then [x] else []) + FilterByTables([], tables);
  }

  /** The sequences to sync: all of them, or those of the listed tables when
      a non-empty list is given. */
  function Selected(rows: seq<SequenceRow>, tables: Option<seq<string>>): seq<SequenceRow> {
    if tables.Some? && tables.value != [] then FilterByTables(rows, tables.value) else rows
  }

  /** Keys each sequence by its table, for grouping. */
  function ByTable(rows: seq<SequenceRow>): (r: seq<(string, SequenceRow)>)
    ensures |r| == |rows|
    ensures forall i :: 0 <= i < |rows| ==> r[i] == (rows[i].table, rows[i])
  {
    seq(|rows|, i requires 0 <= i < |rows| => (rows[i].table, rows[i]))
  }

  /** Sequences synced, sequences that failed, and the statements issued. */
  datatype Tally = Tally(synced: nat, failed: nat, trace: seq<Action>)

  /** Syncs one table's sequences in order. */
  function SyncGroup(env: Env, table: string, rows: seq<SequenceRow>, schema: string): (r: Tally)
    ensures r.synced + r.failed == |rows|
  {
    if |rows| == 0 then Tally(0, 0, [])
    else
      var first := SyncSequenceAfterInsert(env, table, rows[0].column, schema);
      var rest := SyncGroup(env, table, rows[1..], schema);
      if first.value then Tally(rest.synced + 1, rest.failed, first.trace + rest.trace)
      else Tally(rest.synced, rest.failed + 1, first.trace + rest.trace)
  }

  /** Syncs the groups in order. */
  function SyncGroups(env: Env, groups: Entries<string, seq<SequenceRow>>, schema: string): (r: Tally)
    ensures r.synced + r.failed == Sum(groups, Length<SequenceRow>)
  {
    if |groups| == 0 then Tally(0, 0, [])
    else
      var first := SyncGroup(env, groups[0].0, groups[0].1, schema);
      var rest := SyncGroups(env, groups[1..], schema);
      Tally(first.synced + rest.synced, first.failed + rest.failed, first.trace + rest.trace)
  }

  /** The sequences in the order they are synced: table by table, tables in
      order of their first sequence, each table's sequences in catalog
      order. */
  function SyncOrder(rows: seq<SequenceRow>): seq<SequenceRow> {
    Regroup(rows, Distinct(Keys(ByTable(rows))))
  }

  /** The sequences of each listed table in turn. */
  function Regroup(rows: seq<SequenceRow>, ts: seq<string>): seq<SequenceRow> {
    if |ts| == 0 then [] else FilterByTables(rows, [ts[0]]) + Regroup(rows, ts[1..])
  }

  /** Syncs each sequence with its own table, in order. */
  function SyncList(env: Env, rows: seq<SequenceRow>, schema: string): (r: Tally)
    ensures r.synced + r.failed == |rows|
  {
    if |rows| == 0 then Tally(0, 0, [])
    else
      var first := SyncSequenceAfterInsert(env, rows[0].table, rows[0].column, schema);
      var rest := SyncList(env, rows[1..], schema);
      if first.value then Tally(rest.synced + 1, rest.failed, first.trace + rest.trace)
      else Tally(rest.synced, rest.failed + 1, first.trace + rest.trace)
  }

  /** `sync_all_sequences_in_schema`: syncs every selected sequence, table by
      table in order of each table's first sequence, and tallies the
      outcomes. Nothing is ever skipped. */
  function SyncAllSequencesInSchema(env: Env, schema: string, tables: Option<seq<string>>): (r: Traced<SyncStats>)
    ensures |r.trace| >= 1 && r.trace[0] == AllSequencesQuery(schema)
    ensures GetAllSequences(env, schema) == [] ==> r == Traced(SyncStats(0, 0, 0, 0), [AllSequencesQuery(schema)])
    ensures r.value.totalSequences == |Selected(GetAllSequences(env, schema), tables)|
    ensures r.value.synced + r.value.failed == r.value.totalSequences
    ensures r.value.skipped == 0
    ensures GetAllSequences(env, schema) != [] ==>
      var l := SyncList(env, SyncOrder(Selected(GetAllSequences(env, schema), tables)), schema);
      r.trace == [AllSequencesQuery(schema)] + l.trace && r.value.synced == l.synced && r.value.failed == l.failed
  {
    var all := GetAllSequences(env, schema);
    if all == [] then Traced(SyncStats(0, 0, 0, 0), [AllSequencesQuery(schema)])
    else
      var selected := Selected(all, tables);
      var groups := GroupBy(ByTable(selected));
      GroupBySize(ByTable(selected));
      SyncGroupsInOrder(env, selected, schema);
      var outcome := SyncGroups(env, groups, schema);
      Traced(SyncStats(|selected|, outcome.synced, outcome.failed, 0), [AllSequencesQuery(schema)] + outcome.trace)
  }

  /** Syncing the groups is syncing the sequences in `SyncOrder`. */
  lemma SyncGroupsInOrder(env: Env, rows: seq<SequenceRow>, schema: string)
    ensures SyncGroups(env, GroupBy(ByTable(rows)), schema) == SyncList(env, SyncOrder(rows), schema)
  {
    var xs := ByTable(rows);
    var groups := GroupBy(xs);
    GroupByKeys(xs);
    forall i | 0 <= i < |groups|
      ensures groups[i].1 == FilterByTables(rows, [groups[i].0])
    {
      GroupByEntries(xs, i);
      SelectByTable(rows, groups[i].0);
    }
    SyncGroupsAsList(env, groups, rows, schema);
  }

  /** A table's items in the keyed list are its sequences, in order. */
  lemma {:induction false} SelectByTable(rows: seq<SequenceRow>, t: string)
    ensures Select(ByTable(rows), t) == FilterByTables(rows, [t])
  {
    if |rows| > 0 {
      var init := rows[..|rows| - 1];
      var x := rows[|rows| - 1];
      var xs := ByTable(rows);
      assert xs[..|xs| - 1] == ByTable(init);
      assert xs[|xs| - 1] == (x.table, x);
      SelectSnoc(xs, t);
      SelectByTable(init, t);
      assert rows == init + [x];
      FilterByTablesSnoc(init, x, [t]);
    }
  }

  /** Groups whose items are their tables' sequences sync as the regrouped
      list does. */
  lemma {:induction false} SyncGroupsAsList(env: Env, groups: Entries<string, seq<SequenceRow>>,
                                            rows: seq<SequenceRow>, schema: string)
    requires forall i :: 0 <= i < |groups| ==> groups[i].1 == FilterByTables(rows, [groups[i].0])
    ensures SyncGroups(env, groups, schema) == SyncList(env, Regroup(rows, Keys(groups)), schema)
  {
    if |groups| > 0 {
      var t := groups[0].0;
      var g := FilterByTables(rows, [t]);
      var later := Regroup(rows, Keys(groups[1..]));
      assert Keys(groups) == [t] + Keys(groups[1..]);
      assert Regroup(rows, Keys(groups)) == g + later;
      SyncGroupsAsList(env, groups[1..], rows, schema);
      forall i | 0 <= i < |g|
        ensures g[i].table == t
      {
        assert g[i] in g;
      }
      SyncGroupOfTable(env, t, g, schema);
      SyncListAppend(env, g, later, schema);
      assert groups[0].1 == g;
      SyncGroupsCons(env, groups, schema);
      var lg := SyncList(env, g, schema);
      var ll := SyncList(env, later, schema);
      var rest := SyncGroups(env, groups[1..], schema);
      assert rest == ll;
      var first := SyncGroup(env, t, g, schema);
      assert first == lg;
      var whole := SyncGroups(env, groups, schema);
      var l := SyncList(env, g + later, schema);
      assert whole.synced == l.synced;
      assert whole.failed == l.failed;
      assert whole.trace == l.trace;
    } else {
      assert Keys(groups) == [];
    }
  }

  lemma SyncGroupsCons(env: Env, groups: Entries<string, seq<SequenceRow>>, schema: string)
    requires |groups| > 0
    ensures var first := SyncGroup(env, groups[0].0, groups[0].1, schema);
      var rest := SyncGroups(env, groups[1..], schema);
      SyncGroups(env, groups, schema) == Tally(first.synced + rest.synced, first.failed + rest.failed, first.trace + rest.trace)
  {
  }

  /** A group holding only its own table's sequences syncs as the list. */
  lemma {:induction false} SyncGroupOfTable(env: Env, t: string, rows: seq<SequenceRow>, schema: string)
    requires forall i :: 0 <= i < |rows| ==> rows[i].table == t
    ensures SyncGroup(env, t, rows, schema) == SyncList(env, rows, schema)
  {
    if |rows| > 0 {
      SyncGroupOfTable(env, t, rows[1..], schema);
    }
  }

  /** Syncing a concatenation syncs the parts in turn. */
  lemma {:induction false} SyncListAppend(env: Env, a: seq<SequenceRow>, b: seq<SequenceRow>, schema: string)
    ensures var l := SyncList(env, a + b, schema); var la := SyncList(env, a, schema); var lb := SyncList(env, b, schema);
      l == Tally(la.synced + lb.synced, la.failed + lb.failed, la.trace + lb.trace)
  {
    if |a| > 0 {
      assert (a + b)[0] == a[0];
      assert (a + b)[1..] == a[1..] + b;
      SyncListAppend(env, a[1..], b, schema);
      var first := SyncSequenceAfterInsert(env, a[0].table, a[0].column, schema);
      var ra := SyncList(env, a[1..], schema);
      var lb := SyncList(env, b, schema);
      assert first.trace + (ra.trace + lb.trace) == (first.trace + ra.trace) + lb.trace;
    } else {
      assert a + b == b;
      assert SyncList(env, a, schema) == Tally(0, 0, []);
      assert [] + SyncList(env, b, schema).trace == SyncList(env, b, schema).trace;
    }
  }

  /** Every selected sequence is synced exactly once: the sync order is a
      permutation of the selection. */
  lemma SyncOrderPermutation(rows: seq<SequenceRow>)
    ensures multiset(SyncOrder(rows)) == multiset(rows)
  {
    var ts := Distinct(Keys(ByTable(rows)));
    forall x
      ensures multiset(SyncOrder(rows))[x] == multiset(rows)[x]
    {
      RegroupCount(rows, ts, x);
      if x in rows {
        var i :| 0 <= i < |rows| && rows[i] == x;
        assert Keys(ByTable(rows))[i] == x.table;
      }
    }
  }

  /** Over distinct tables, a sequence appears as often as in the input when
      its table is listed, and not at all otherwise. */
  lemma {:induction false} RegroupCount(rows: seq<SequenceRow>, ts: seq<string>, x: SequenceRow)
    requires forall i, j :: 0 <= i < j < |ts| ==> ts[i] != ts[j]
    ensures multiset(Regroup(rows, ts))[x] == if x.table in ts then multiset(rows)[x] else 0
  {
    if |ts| > 0 {
      RegroupCount(rows, ts[1..], x);
      FilterByTablesCount(rows, [ts[0]], x);
      if x.table == ts[0] {
        assert x.table !in ts[1..];
      }
    }
  }
}

=== FILE: text.dfy ===
/** String helpers with Python's `str` semantics, as far as the model needs
    them: `strip`, ASCII `upper`/`lower`, `join`, `replace`, `in`, `str(int)`,
    `int(str)` and the double-quoted identifier lists of the DDL renderers. */
module Text {
  import opened Wrappers

  /** Characters for which Python's `str.isspace()` holds (the ones that
      `strip()` removes and that the regex class `\s` matches). */
  predicate IsSpace(c: char) {
    var n := c as int;
    n == 32 || 9 <= n <= 13 || 28 <= n <= 31 || n == 0x85 || n == 0xA0
    || n == 0x1680 || 0x2000 <= n <= 0x200A || n == 0x2028 || n == 0x2029
    || n == 0x202F || n == 0x205F || n == 0x3000
  }

  predicate IsAsciiUpper(c: char) { 'A' <= c <= 'Z' }

  predicate IsAsciiLower(c: char) { 'a' <= c <= 'z' }

  predicate IsDigit(c: char) { '0' <= c <= '9' }

  function UpperChar(c: char): char {
    if IsAsciiLower(c) then (c as int - 32) as char else c
  }

  function LowerChar(c: char): char {
    if IsAsciiUpper(c) then (c as int + 32) as char else c
  }

  /** `s.upper()` on the ASCII letters. */
  function Upper(s: string): (r: string)
    ensures |r| == |s|
    ensures forall i :: 0 <= i < |s| ==> r[i] == UpperChar(s[i])
  {
    seq(|s|, i requires 0 <= i < |s| => UpperChar(s[i]))
  }

  /** `s.lower()` on the ASCII letters. */
  function Lower(s: string): (r: string)
    ensures |r| == |s|
    ensures forall i :: 0 <= i < |s| ==> r[i] == LowerChar(s[i])
  {
    seq(|s|, i requires 0 <= i < |s| => LowerChar(s[i]))
  }

  lemma UpperAppend(a: string, b: string)
    ensures Upper(a + b) == Upper(a) + Upper(b)
  {
    assert forall i :: 0 <= i < |a + b| ==> Upper(a + b)[i] == (Upper(a) + Upper(b))[i];
  }

  lemma LowerAppend(a: string, b: string)
    ensures Lower(a + b) == Lower(a) + Lower(b)
  {
    assert forall i :: 0 <= i < |a + b| ==> Lower(a + b)[i] == (Lower(a) + Lower(b))[i];
  }

  /** Upper-casing is insensitive to the case of its input. */
  lemma UpperIgnoresCase(s: string)
    ensures Upper(Upper(s)) == Upper(s)
    ensures Upper(Lower(s)) == Upper(s)
  {
  }

  /** Text without lower-case letters is its own upper-case form. */
  lemma UpperOfCapitals(s: string)
    requires forall i :: 0 <= i < |s| ==> !IsAsciiLower(s[i])
    ensures Upper(s) == s
  {
  }

  /** Number of whitespace characters at the front of `s`. */
  function LeadingSpaces(s: string): (n: nat)
    ensures n <= |s|
    ensures forall i :: 0 <= i < n ==> IsSpace(s[i])
    ensures n < |s| ==> !IsSpace(s[n])
  {
    if |s| > 0 && IsSpace(s[0]) then 1 + LeadingSpaces(s[1..]) else 0
  }

  /** Number of whitespace characters at the end of `s`. */
  function TrailingSpaces(s: string): (n: nat)
    ensures n <= |s|
    ensures forall i :: |s| - n <= i < |s| ==> IsSpace(s[i])
    ensures n < |s| ==> !IsSpace(s[|s| - n - 1])
  {
    if |s| > 0 && IsSpace(s[|s| - 1]) then 1 + TrailingSpaces(s[..|s| - 1]) else 0
  }

  /** `s.strip()`: the longest slice of `s` that neither starts nor ends with
      whitespace, obtained by removing only whitespace. */
  function Strip(s: string): (r: string)
    ensures |r| <= |s|
    ensures Contains(s, r)
    ensures r != [] ==> !IsSpace(r[0]) && !IsSpace(r[|r| - 1])
    ensures (forall i :: 0 <= i < |s| ==> !IsSpace(s[i])) ==> r == s
    ensures LeadingSpaces(s) + |r| <= |s| && r == s[LeadingSpaces(s)..LeadingSpaces(s) + |r|]
    ensures forall i :: LeadingSpaces(s) + |r| <= i < |s| ==> IsSpace(s[i])
  {
    var lead := LeadingSpaces(s);
    var r := Trim(s);
    var t := s[lead..];
    assert r == s[lead..lead + |r|];
    forall i | lead + |r| <= i < |s|
      ensures IsSpace(s[i])
    {
      assert s[i] == t[i - lead];
    }
    assert OccursAt(s, r, lead);
    r
  }

  /** The text between the leading and the trailing whitespace. */
  function Trim(s: string): string {
    var t := s[LeadingSpaces(s)..];
    t[..|t| - TrailingSpaces(t)]
  }

  /** Text that neither starts nor ends with whitespace is already
      stripped. */
  lemma StripTrimmed(s: string)
    requires s != [] && !IsSpace(s[0]) && !IsSpace(s[|s| - 1])
    ensures Strip(s) == s
  {
  }

  lemma LeadingSpacesUpper(s: string)
    ensures LeadingSpaces(Upper(s)) == LeadingSpaces(s)
  {
    if |s| > 0 && IsSpace(s[0]) {
      UpperSlices(s, 1);
      LeadingSpacesUpper(s[1..]);
    }
  }

  lemma TrailingSpacesUpper(s: string)
    ensures TrailingSpaces(Upper(s)) == TrailingSpaces(s)
  {
    if |s| > 0 && IsSpace(s[|s| - 1]) {
      UpperSlices(s, |s| - 1);
      TrailingSpacesUpper(s[..|s| - 1]);
    }
  }

  /** Stripping and upper-casing commute: case mapping never creates or
      removes whitespace. */
  lemma StripUpper(s: string)
    ensures Strip(Upper(s)) == Upper(Strip(s))
  {
    TrimUpper(s);
  }

  lemma TrimUpper(s: string)
    ensures Trim(Upper(s)) == Upper(Trim(s))
  {
    LeadingSpacesUpper(s);
    var lead := LeadingSpaces(s);
    var t := s[lead..];
    UpperSlices(s, lead);
    TrailingSpacesUpper(t);
    var n := |t| - TrailingSpaces(t);
    UpperSlices(t, n);
  }

  /** Upper-casing a slice is slicing the upper-cased text. */
  lemma UpperSlices(s: string, k: nat)
    requires k <= |s|
    ensures Upper(s)[k..] == Upper(s[k..])
    ensures Upper(s)[..k] == Upper(s[..k])
  {
  }

  function Repeat(c: char, n: nat): (r: string)
    ensures |r| == n
    ensures forall i :: 0 <= i < n ==> r[i] == c
  {
    seq(n, i => c)
  }

  /** `sep.join(parts)`. */
  function Join(sep: string, parts: seq<string>): string
  {
    if |parts| == 0 then ""
    else if |parts| == 1 then parts[0]
    else parts[0] + sep + Join(sep, parts[1..])
  }

  lemma {:induction false} JoinSnoc(sep: string, parts: seq<string>, p: string)
    requires parts != []
    ensures Join(sep, parts + [p]) == Join(sep, parts) + sep + p
  {
    if |parts| > 1 {
      assert (parts + [p])[1..] == parts[1..] + [p];
      JoinSnoc(sep, parts[1..], p);
    }
  }

  predicate StartsWith(s: string, prefix: string) {
    |prefix| <= |s| && s[..|prefix|] == prefix
  }

  /** Python's `sub in s`. */
  predicate Contains(s: string, sub: string) {
    exists i :: 0 <= i <= |s| - |sub| && OccursAt(s, sub, i)
  }

  predicate OccursAt(s: string, sub: string, i: int) {
    0 <= i <= |s| - |sub| && s[i..i + |sub|] == sub
  }

  lemma ContainsTail(s: string, sub: string)
    requires |s| > 0
    ensures Contains(s[1..], sub) ==> Contains(s, sub)
  {
    if Contains(s[1..], sub) {
      var i :| 0 <= i <= |s[1..]| - |sub| && OccursAt(s[1..], sub, i);
      assert s[1..][i..i + |sub|] == s[i + 1..i + 1 + |sub|];
      assert OccursAt(s, sub, i + 1);
    }
  }

  lemma ContainsInfix(a: string, sub: string, b: string)
    ensures Contains(a + sub + b, sub)
  {
    assert (a + sub + b)[|a|..|a| + |sub|] == sub;
    assert OccursAt(a + sub + b, sub, |a|);
  }

  /** A character of `sub` that `s` lacks rules out `sub in s`. */
  lemma NotContainsChar(s: string, sub: string, c: char)
    requires c in sub && c !in s
    ensures !Contains(s, sub)
  {
    var k :| 0 <= k < |sub| && sub[k] == c;
    forall i | 0 <= i <= |s| - |sub|
      ensures !OccursAt(s, sub, i)
    {
      assert s[i..i + |sub|][k] == s[i + k] != c;
    }
  }

  lemma ContainsTransitive(s: string, mid: string, sub: string)
    requires Contains(s, mid) && Contains(mid, sub)
    ensures Contains(s, sub)
  {
    var i :| 0 <= i <= |s| - |mid| && OccursAt(s, mid, i);
    var j :| 0 <= j <= |mid| - |sub| && OccursAt(mid, sub, j);
    forall k | 0 <= k < |sub|
      ensures s[i + j + k] == sub[k]
    {
      assert mid[j..j + |sub|][k] == mid[j + k];
      assert s[i..i + |mid|][j + k] == s[i + j + k];
    }
    assert s[i + j..i + j + |sub|] == sub;
    assert OccursAt(s, sub, i + j);
  }

  /** `s.replace(pat, rep)`: every non-overlapping occurrence of `pat`,
      scanning left to right, is replaced by `rep`. */
  function ReplaceAll(s: string, pat: string, rep: string): (r: string)
    requires pat != []
    ensures !Contains(s, pat) ==> r == s
    decreases |s|
  {
    if |s| == 0 then s
    else if StartsWith(s, pat) then
      assert OccursAt(s, pat, 0);
      rep + ReplaceAll(s[|pat|..], pat, rep)
    else
      ContainsTail(s, pat);
      [s[0]] + ReplaceAll(s[1..], pat, rep)
  }

  /** A pattern at the front is replaced and scanning resumes after it. */
  lemma ReplaceAtFront(pat: string, rep: string, rest: string)
    requires pat != []
    ensures ReplaceAll(pat + rest, pat, rep) == rep + ReplaceAll(rest, pat, rep)
  {
    var s := pat + rest;
    assert s[..|pat|] == pat;
    assert s[|pat|..] == rest;
  }

  lemma ReplaceWhole(pat: string, rep: string)
    requires pat != []
    ensures ReplaceAll(pat, pat, rep) == rep
  {
    ReplaceAtFront(pat, rep, "");
    assert pat + "" == pat;
    assert rep + "" == rep;
  }

  /** Text shorter than the pattern is left alone. */
  lemma ReplaceShort(s: string, pat: string, rep: string)
    requires pat != [] && |s| < |pat|
    ensures ReplaceAll(s, pat, rep) == s
  {
  }

  /** Text lacking a character of the pattern is left alone. */
  lemma ReplaceAbsent(s: string, pat: string, rep: string, c: char)
    requires pat != [] && c in pat && c !in s
    ensures ReplaceAll(s, pat, rep) == s
  {
    NotContainsChar(s, pat, c);
  }

  /** `sub in s[k:]` implies `sub in s`. */
  lemma ContainsSuffix(s: string, sub: string, k: nat)
    requires k <= |s|
    ensures Contains(s[k..], sub) ==> Contains(s, sub)
  {
    if Contains(s[k..], sub) {
      var i :| 0 <= i <= |s[k..]| - |sub| && OccursAt(s[k..], sub, i);
      assert s[k..][i..i + |sub|] == s[i + k..i + k + |sub|];
      assert OccursAt(s, sub, i + k);
    }
  }

  /** Replacement text starting with `lead` is the only source of `lead`
      characters that the input lacks, so output text free of `lead` was
      already at the front of the input. */
  lemma {:induction false} ReplacePrefixBack(s: string, pat: string, rep: string, w: string)
    requires pat != [] && rep != []
    requires forall j :: 0 <= j < |w| ==> w[j] != rep[0]
    requires StartsWith(ReplaceAll(s, pat, rep), w)
    ensures StartsWith(s, w)
    decreases |s|
  {
    var out := ReplaceAll(s, pat, rep);
    if w != [] && s != [] {
      ReplaceHead(s, pat, rep);
      assert out[..|w|][0] == out[0];
      assert !StartsWith(s, pat);
      var y := ReplaceAll(s[1..], pat, rep);
      assert out == [s[0]] + y;
      assert out[..|w|] == [s[0]] + y[..|w| - 1];
      assert y[..|w| - 1] == w[1..];
      ReplacePrefixBack(s[1..], pat, rep, w[1..]);
      assert s[..|w|] == [s[0]] + s[1..][..|w| - 1];
    }
  }

  /** The first character of the output: the replacement's, or the
      input's own. */
  lemma ReplaceHead(s: string, pat: string, rep: string)
    requires pat != [] && rep != [] && s != []
    ensures |ReplaceAll(s, pat, rep)| > 0
    ensures ReplaceAll(s, pat, rep)[0] == (if StartsWith(s, pat) then rep[0] else s[0])
  {
  }

  /** The shape of a pattern whose first character occurs nowhere else in
      it, and of a replacement that starts with that character, has it
      nowhere else, and is not the pattern. */
  predicate Distinctive(q: string, rep: string) {
    && q != [] && |rep| >= |q| && rep[0] == q[0] && rep[..|q|] != q
    && (forall j :: 0 < j < |q| ==> q[j] != q[0])
    && (forall j :: 0 < j < |rep| ==> rep[j] != q[0])
  }

  /** After `s.replace(pat, rep)` the text contains no `q`, when `q` is
      `pat` itself or was absent before, and `rep` cannot start or complete
      an occurrence of `q`. */
  lemma {:induction false} ReplaceAllAvoids(s: string, pat: string, rep: string, q: string)
    requires pat != [] && Distinctive(q, rep)
    requires q == pat || !Contains(s, q)
    ensures !Contains(ReplaceAll(s, pat, rep), q)
    decreases |s|
  {
    if s == [] {
    } else if StartsWith(s, pat) {
      var rest := s[|pat|..];
      ContainsSuffix(s, q, |pat|);
      ReplaceAllAvoids(rest, pat, rep, q);
      ReplaceFrontAvoids(rep, ReplaceAll(rest, pat, rep), q);
    } else {
      var rest := s[1..];
      ContainsTail(s, q);
      ReplaceAllAvoids(rest, pat, rep, q);
      var y := ReplaceAll(rest, pat, rep);
      assert ReplaceAll(s, pat, rep) == [s[0]] + y;
      HeadNotStarting(s, pat, rep, q, y);
      FreshHeadAvoids(s[0], y, q);
    }
  }

  /** The unreplaced first character cannot start `q` in the output unless
      `q` started the input there. */
  lemma HeadNotStarting(s: string, pat: string, rep: string, q: string, y: string)
    requires pat != [] && Distinctive(q, rep) && s != []
    requires q == pat || !Contains(s, q)
    requires !StartsWith(s, pat) && y == ReplaceAll(s[1..], pat, rep)
    ensures !OccursAt([s[0]] + y, q, 0)
  {
    if OccursAt([s[0]] + y, q, 0) {
      var t := [s[0]] + y;
      assert t[..|q|] == [s[0]] + y[..|q| - 1];
      assert y[..|q| - 1] == q[1..];
      ReplacePrefixBack(s[1..], pat, rep, q[1..]);
      assert s[..|q|] == [s[0]] + s[1..][..|q| - 1];
      assert OccursAt(s, q, 0);
      assert false;
    }
  }

  /** A replacement in front of text free of `q` leaves it free of `q`. */
  lemma ReplaceFrontAvoids(rep: string, y: string, q: string)
    requires Distinctive(q, rep) && !Contains(y, q)
    ensures !Contains(rep + y, q)
  {
    var t := rep + y;
    forall i | 0 <= i <= |t| - |q|
      ensures !OccursAt(t, q, i)
    {
      if i == 0 {
        assert t[..|q|] == rep[..|q|];
      } else if i < |rep| {
        assert t[i..i + |q|][0] == rep[i];
      } else {
        assert t[i..i + |q|] == y[i - |rep|..i - |rep| + |q|];
        assert !OccursAt(y, q, i - |rep|);
      }
    }
  }

  /** One character in front of text free of `q`, not starting `q` there,
      leaves it free of `q`. */
  lemma FreshHeadAvoids(c: char, y: string, q: string)
    requires q != [] && !Contains(y, q) && !OccursAt([c] + y, q, 0)
    ensures !Contains([c] + y, q)
  {
    var t := [c] + y;
    forall i | 0 < i <= |t| - |q|
      ensures !OccursAt(t, q, i)
    {
      assert t[i..i + |q|] == y[i - 1..i - 1 + |q|];
      assert !OccursAt(y, q, i - 1);
    }
  }

  function DigitChar(d: nat): char
    requires d < 10
  {
    ('0' as int + d) as char
  }

  function DigitValue(c: char): nat
    requires IsDigit(c)
  {
    c as int - '0' as int
  }

  /** `str(n)` for a natural number. */
  function NatToString(n: nat): (r: string)
    ensures |r| >= 1
    ensures forall i :: 0 <= i < |r| ==> IsDigit(r[i])
  {
    if n < 10 then [DigitChar(n)] else NatToString(n / 10) + [DigitChar(n % 10)]
  }

  /** `str(i)` for any integer. */
  function IntToString(i: int): string {
    if i < 0 then "-" + NatToString(-i) else NatToString(i)
  }

  /** The value of a non-empty run of decimal digits. */
  function DigitsValue(s: string): nat
    requires forall i :: 0 <= i < |s| ==> IsDigit(s[i])
  {
    if |s| == 0 then 0 else DigitsValue(s[..|s| - 1]) * 10 + DigitValue(s[|s| - 1])
  }

  /** `int(s)` restricted to an optional sign followed by decimal digits,
      with surrounding whitespace allowed; `None` where Python raises. */
  function ParseInt(s: string): Option<int>
  {
    ParseStripped(Strip(s))
  }

  /** `int` on text without surrounding whitespace. */
  function ParseStripped(t: string): Option<int>
  {
    if |t| > 0 && (t[0] == '-' || t[0] == '+') then
      var d := t[1..];
      if |d| > 0 && AllDigits(d) then
        var v: int := DigitsValue(d);
        Some(if t[0] == '-' then -v else v)
      else None
    else if |t| > 0 && AllDigits(t) then
      Some(DigitsValue(t))
    else None
  }

  predicate AllDigits(s: string) {
    forall i :: 0 <= i < |s| ==> IsDigit(s[i])
  }

  lemma {:induction false} DigitsValueOfNat(n: nat)
    ensures DigitsValue(NatToString(n)) == n
  {
    var r := NatToString(n);
    if n >= 10 {
      DigitsValueOfNat(n / 10);
      assert r[..|r| - 1] == NatToString(n / 10);
    }
  }

  /** Rendering an integer and parsing it back gives the integer again. */
  lemma ParseIntOfIntToString(i: int)
    ensures ParseInt(IntToString(i)) == Some(i)
  {
    if i < 0 {
      ParseNegative(-i);
    } else {
      ParseNatural(i);
    }
  }

  lemma ParseNatural(n: nat)
    ensures ParseInt(IntToString(n)) == Some(n)
  {
    var d := NatToString(n);
    DigitsValueOfNat(n);
    ParseDigits(d, n);
  }

  lemma ParseNegative(n: nat)
    requires n > 0
    ensures ParseInt(IntToString(-(n as int))) == Some(-(n as int))
  {
    var d := NatToString(n);
    DigitsValueOfNat(n);
    ParseSigned(d, n);
  }

  lemma ParseDigits(d: string, n: nat)
    requires |d| > 0 && AllDigits(d) && DigitsValue(d) == n
    ensures ParseInt(d) == Some(n)
  {
    NoSpaceIn(d);
    assert d[0] != '-' && d[0] != '+';
  }

  lemma ParseSigned(d: string, n: nat)
    requires |d| > 0 && AllDigits(d) && DigitsValue(d) == n
    ensures ParseInt("-" + d) == Some(-(n as int))
  {
    var s := "-" + d;
    SignedNoSpace(d);
    ParseStrippedSigned(d);
    assert ParseInt(s) == ParseStripped(Strip(s));
  }

  lemma SignedNoSpace(d: string)
    requires AllDigits(d)
    ensures Strip("-" + d) == "-" + d
  {
    var s := "-" + d;
    assert forall k :: 0 <= k < |s| ==> s[k] == '-' || IsDigit(s[k]);
    NoSpaceIn(s);
  }

  lemma ParseStrippedSigned(d: string)
    requires |d| > 0 && AllDigits(d)
    ensures ParseStripped("-" + d) == Some(-(DigitsValue(d) as int))
  {
    var s := "-" + d;
    assert s[0] == '-' && s[1..] == d;
  }

  lemma NoSpaceIn(s: string)
    requires forall k :: 0 <= k < |s| ==> s[k] == '-' || IsDigit(s[k])
    ensures Strip(s) == s
  {
    forall k | 0 <= k < |s|
      ensures !IsSpace(s[k])
    {
      assert s[k] == '-' || IsDigit(s[k]);
    }
  }

  /** A double-quoted SQL identifier. */
  function Quote(name: string): string {
    "\"" + name + "\""
  }

  function QuoteAll(names: seq<string>): (r: seq<string>)
    ensures |r| == |names|
    ensures forall i :: 0 <= i < |names| ==> r[i] == Quote(names[i])
  {
    seq(|names|, i requires 0 <= i < |names| => Quote(names[i]))
  }

  /** The column list of the DDL templates: each name double-quoted, in
      order, separated by ", ". */
  function QuotedList(names: seq<string>): string {
    Join(", ", QuoteAll(names))
  }

  /** Index of the first `c` in `s`, or `|s|` when there is none. */
  function IndexOf(s: string, c: char): (r: nat)
    ensures r <= |s|
    ensures forall i :: 0 <= i < r ==> s[i] != c
    ensures r < |s| ==> s[r] == c
  {
    if |s| == 0 || s[0] == c then 0 else 1 + IndexOf(s[1..], c)
  }

  /** `c` does not occur in `s`. */
  predicate Free(s: string, c: char) {
    forall i :: 0 <= i < |s| ==> s[i] != c
  }

  lemma IndexOfFree(head: string, c: char, tail: string)
    requires Free(head, c)
    ensures IndexOf(head + [c] + tail, c) == |head|
  {
    var s := head + [c] + tail;
    assert s[|head|] == c;
  }

  /** `s.split(c)` for a one-character separator. */
  function Split(s: string, c: char): (r: seq<string>)
    ensures |r| >= 1
    decreases |s|
  {
    var j := IndexOf(s, c);
    if j == |s| then [s] else [s[..j]] + Split(s[j + 1..], c)
  }

  /** Splitting undoes joining when no part contains the separator. */
  lemma {:induction false} SplitJoin(parts: seq<string>, c: char)
    requires parts != []
    requires forall i :: 0 <= i < |parts| ==> Free(parts[i], c)
    ensures Split(Join([c], parts), c) == parts
  {
    if |parts| > 1 {
      var tail := Join([c], parts[1..]);
      var s := Join([c], parts);
      assert s == parts[0] + [c] + tail;
      IndexOfFree(parts[0], c, tail);
      assert s[..|parts[0]|] == parts[0];
      assert s[|parts[0]| + 1..] == tail;
      SplitJoin(parts[1..], c);
      assert parts == [parts[0]] + parts[1..];
    }
  }

  predicate Unquoted(name: string) {
    forall i :: 0 <= i < |name| ==> name[i] != '"'
  }

  /** The identifiers written between double quotes in `s`, in order; an
      unterminated quote ends the list. This reads back what `Quote` and
      `QuotedList` write. */
  function QuotedNames(s: string): seq<string>
    decreases |s|
  {
    if s == [] then []
    else if s[0] != '"' then QuotedNames(s[1..])
    else
      var body := s[1..];
      var j := IndexOf(body, '"');
      if j == |body| then [] else [body[..j]] + QuotedNames(body[j + 1..])
  }

  lemma IndexOfAfterName(name: string, tail: string)
    requires Unquoted(name)
    ensures IndexOf(name + "\"" + tail, '"') == |name|
  {
    var s := name + "\"" + tail;
    var j := IndexOf(s, '"');
    assert s[|name|] == '"';
  }

  /** Text without quotes contributes no names. */
  lemma {:induction false} QuotedNamesPlain(plain: string, rest: string)
    requires Unquoted(plain)
    ensures QuotedNames(plain + rest) == QuotedNames(rest)
  {
    if plain != [] {
      assert (plain + rest)[1..] == plain[1..] + rest;
      QuotedNamesPlain(plain[1..], rest);
    } else {
      assert plain + rest == rest;
    }
  }

  lemma QuotedNamesNone(plain: string)
    requires Unquoted(plain)
    ensures QuotedNames(plain) == []
  {
    QuotedNamesPlain(plain, "");
    assert plain + "" == plain;
  }

  /** A quoted identifier is read back as itself. */
  lemma QuotedNamesQuote(name: string, rest: string)
    requires Unquoted(name)
    ensures QuotedNames(Quote(name) + rest) == [name] + QuotedNames(rest)
  {
    var s := Quote(name) + rest;
    assert s == "\"" + (name + "\"" + rest);
    var body := s[1..];
    assert body == name + "\"" + rest;
    IndexOfAfterName(name, rest);
    assert body[..|name|] == name;
    assert body[|name| + 1..] == rest;
  }

  /** Unquoted text, then a quoted name: the name is the first read. */
  lemma QuotedNamesAfter(pre: string, name: string, rest: string)
    requires Unquoted(pre) && Unquoted(name)
    ensures QuotedNames(pre + (Quote(name) + rest)) == [name] + QuotedNames(rest)
  {
    QuotedNamesPlain(pre, Quote(name) + rest);
    QuotedNamesQuote(name, rest);
  }

  /** Column lists survive rendering: every name is read back, in order, as
      long as no name contains a double quote. */
  lemma {:induction false} QuotedNamesList(names: seq<string>, rest: string)
    requires forall i :: 0 <= i < |names| ==> Unquoted(names[i])
    ensures QuotedNames(QuotedList(names) + rest) == names + QuotedNames(rest)
  {
    if |names| == 0 {
      assert QuotedList(names) + rest == rest;
      assert names + QuotedNames(rest) == QuotedNames(rest);
    } else if |names| == 1 {
      assert QuotedList(names) == Quote(names[0]);
      QuotedNamesQuote(names[0], rest);
      assert names == [names[0]];
    } else {
      QuotedNamesList(names[1..], rest);
      QuotedNamesListCons(names[0], names[1..], rest);
      assert [names[0]] + names[1..] == names;
    }
  }

  lemma QuotedNamesListCons(name: string, names: seq<string>, rest: string)
    requires Unquoted(name) && |names| > 0
    requires QuotedNames(QuotedList(names) + rest) == names + QuotedNames(rest)
    ensures QuotedNames(QuotedList([name] + names) + rest) == [name] + names + QuotedNames(rest)
  {
    QuotedListCons(name, names);
    CommaUnquoted();
    QuotedNamesSeparated(name, ", ", QuotedList(names), rest);
  }

  lemma CommaUnquoted()
    ensures Unquoted(", ")
  {
  }

  /** A quoted name followed by an unquoted separator reads back as the
      name, then whatever follows. */
  lemma QuotedNamesSeparated(name: string, sep: string, tail: string, rest: string)
    requires Unquoted(name) && Unquoted(sep)
    ensures QuotedNames(Quote(name) + sep + tail + rest) == [name] + QuotedNames(tail + rest)
  {
    assert Quote(name) + sep + tail + rest == Quote(name) + (sep + (tail + rest));
    QuotedNamesQuote(name, sep + (tail + rest));
    QuotedNamesPlain(sep, tail + rest);
  }

  lemma QuotedListCons(name: string, names: seq<string>)
    requires |names| > 0
    ensures |QuotedList(names)| > 0
    ensures QuotedList([name] + names) == Quote(name) + ", " + QuotedList(names)
  {
    var q := QuoteAll([name] + names);
    assert q[1..] == QuoteAll(names);
    var qs := QuoteAll(names);
    if |names| > 1 {
      assert QuotedList(names) == qs[0] + ", " + Join(", ", qs[1..]);
    }
  }
}

=== FILE: type_converter.dfy ===
/** The DB2 → PostgreSQL column-type mapping (`TypeConverter`).

    A type string is trimmed and upper-cased, then matched against the
    pattern `([A-Z\s]+)\s*\((.+)\)` anchored at its start. The match is
    modelled exactly: group 1 is the maximal leading run of ASCII capitals
    and whitespace, which must be followed directly by `(`; group 2 runs from
    there to the last `)` before the first line break, and must not be
    empty. */
module TypeConverter {
  import opened Wrappers
  import opened Text

  /** `TYPE_MAP`. */
  const TypeMap: map<string, string> := map[
    "SMALLINT" := "SMALLINT",
    "INTEGER" := "INTEGER",
    "INT" := "INTEGER",
    "BIGINT" := "BIGINT",
    "DECIMAL" := "NUMERIC",
    "DEC" := "NUMERIC",
    "NUMERIC" := "NUMERIC",
    "REAL" := "REAL",
    "DOUBLE" := "DOUBLE PRECISION",
    "DOUBLE PRECISION" := "DOUBLE PRECISION",
    "FLOAT" := "DOUBLE PRECISION",
    "DECFLOAT" := "NUMERIC",
    "CHAR" := "CHAR",
    "CHARACTER" := "CHAR",
    "VARCHAR" := "VARCHAR",
    "CHARACTER VARYING" := "VARCHAR",
    "CLOB" := "TEXT",
    "GRAPHIC" := "CHAR",
    "VARGRAPHIC" := "VARCHAR",
    "DBCLOB" := "TEXT",
    "LONG VARCHAR" := "TEXT",
    "DATE" := "DATE",
    "TIME" := "TIME",
    "TIMESTAMP" := "TIMESTAMP",
    "BLOB" := "BYTEA",
    "BINARY" := "BYTEA",
    "VARBINARY" := "BYTEA",
    "BINARY LARGE OBJECT" := "BYTEA",
    "XML" := "XML",
    "BOOLEAN" := "BOOLEAN",
    "ROWID" := "OID"
  ]

  /** `TYPE_MAP.get(t, "TEXT")`. */
  function MapType(t: string): (r: string)
    ensures t in TypeMap ==> r == TypeMap[t]
    ensures t !in TypeMap ==> r == "TEXT"
  {
    if t in TypeMap then TypeMap[t] else "TEXT"
  }

  /** The regex class `[A-Z\s]`. */
  predicate IsBaseChar(c: char) {
    IsAsciiUpper(c) || IsSpace(c)
  }

  /** Length of the maximal leading run of `[A-Z\s]`. */
  function BaseRun(s: string): (n: nat)
    ensures n <= |s|
    ensures forall i :: 0 <= i < n ==> IsBaseChar(s[i])
    ensures n < |s| ==> !IsBaseChar(s[n])
  {
    if |s| > 0 && IsBaseChar(s[0]) then 1 + BaseRun(s[1..]) else 0
  }

  /** Index of the first line break at or after `from`, or `|s|`. */
  function LineEnd(s: string, from: nat): (e: nat)
    requires from <= |s|
    ensures from <= e <= |s|
    ensures forall i :: from <= i < e ==> s[i] != '\n'
    ensures e < |s| ==> s[e] == '\n'
    decreases |s| - from
  {
    if from == |s| || s[from] == '\n' then from else LineEnd(s, from + 1)
  }

  /** The largest index `j` with `lo <= j < hi` and `s[j] == c`, if any. */
  function LastIndexIn(s: string, c: char, lo: nat, hi: nat): (r: Option<nat>)
    requires lo <= |s| && hi <= |s|
    ensures r.Some? ==> lo <= r.value < hi && s[r.value] == c
    ensures r.Some? ==> forall j :: r.value < j < hi ==> s[j] != c
    ensures r.None? ==> forall j :: lo <= j < hi ==> s[j] != c
    decreases hi
  {
    if hi <= lo then None
    else if s[hi - 1] == c then Some(hi - 1)
    else LastIndexIn(s, c, lo, hi - 1)
  }

  /** Where `(.+)\)` ends when it starts at the `(` at `open`: at the last
      `)` that leaves at least one character inside and no line break. */
  function CloseParen(s: string, open: nat): (j: Option<nat>)
    requires open < |s|
    ensures j.Some? ==> open + 2 <= j.value < |s| && s[j.value] == ')'
    ensures j.Some? ==> forall i :: open < i < j.value ==> s[i] != '\n'
  {
    if open + 2 > |s| then None else LastIndexIn(s, ')', open + 2, LineEnd(s, open + 1))
  }

  /** The two groups of `re.match(r'([A-Z\s]+)\s*\((.+)\)', s)`, or `None`
      when it does not match. Because group 1 may itself absorb whitespace,
      the `(` must directly follow the longest `[A-Z\s]` prefix. */
  function MatchParameterised(s: string): (m: Option<(string, string)>)
    ensures m.Some? ==>
      var (g1, g2) := m.value;
      g1 != [] && (forall i :: 0 <= i < |g1| ==> IsBaseChar(g1[i])) &&
      g2 != [] && (forall i :: 0 <= i < |g2| ==> g2[i] != '\n') &&
      StartsWith(s, g1 + "(" + g2 + ")")
  {
    var n := BaseRun(s);
    if n == 0 || n == |s| || s[n] != '(' then None
    else
      match CloseParen(s, n)
      case None => None
      case Some(j) =>
        MatchGroups(s, n, j, s[..n], s[n + 1..j]);
        Some((s[..n], s[n + 1..j]))
  }

  /** The groups cut out of `s` around the `(` at `n` and the `)` at `j`. */
  lemma MatchGroups(s: string, n: nat, j: nat, g1: string, g2: string)
    requires 0 < n && n + 2 <= j < |s| && s[n] == '(' && s[j] == ')'
    requires forall i :: 0 <= i < n ==> IsBaseChar(s[i])
    requires forall i :: n < i < j ==> s[i] != '\n'
    requires g1 == s[..n] && g2 == s[n + 1..j]
    ensures forall i :: 0 <= i < |g1| ==> IsBaseChar(g1[i])
    ensures forall i :: 0 <= i < |g2| ==> g2[i] != '\n'
    ensures StartsWith(s, g1 + "(" + g2 + ")")
  {
    assert s[..j + 1] == g1 + "(" + g2 + ")";
  }

  /** The result for a matched type, from the trimmed groups. */
  function ConvertMatched(base: string, params: string): string {
    if base == "DECIMAL" || base == "DEC" then "NUMERIC(" + params + ")"
    else if base == "BINARY" || base == "VARBINARY" then "BYTEA"
    else MapType(base) + "(" + params + ")"
  }

  /** `convert`. */
  function Convert(db2Type: string): string
  {
    var t := Upper(Strip(db2Type));
    match MatchParameterised(t)
    case Some((group1, group2)) => ConvertMatched(Strip(group1), Strip(group2))
    case None => MapType(t)
  }

  /** The conversion ignores letter case and surrounding whitespace. */
  lemma ConvertIgnoresCase(a: string, b: string)
    requires Upper(a) == Upper(b)
    ensures Convert(a) == Convert(b)
  {
    StripUpper(a);
    StripUpper(b);
  }

  lemma ConvertLowerCase(s: string)
    ensures Convert(Lower(s)) == Convert(s)
  {
    UpperIgnoresCase(s);
    ConvertIgnoresCase(Lower(s), s);
  }

  /** Without `(`, the regex cannot match. */
  lemma NoParenNoMatch(s: string)
    requires forall i :: 0 <= i < |s| ==> s[i] != '('
    ensures MatchParameterised(s) == None
  {
  }

  /** A type without parameters is looked up as a whole, trimmed and in
      capitals, falling back to TEXT. */
  lemma ConvertUnparameterised(s: string)
    requires forall i :: 0 <= i < |s| ==> s[i] != '('
    ensures Convert(s) == MapType(Upper(Strip(s)))
  {
    var t := Upper(Strip(s));
    assert Contains(s, Strip(s));
    var k :| 0 <= k <= |s| - |Strip(s)| && OccursAt(s, Strip(s), k);
    forall i | 0 <= i < |t|
      ensures t[i] != '('
    {
      assert Strip(s)[i] == s[k + i];
    }
    NoParenNoMatch(t);
  }

  /** A name in capitals with single inner spaces, as the map's keys are. */
  predicate IsPlainName(s: string) {
    s != [] && s[0] != ' ' && s[|s| - 1] != ' ' &&
    forall i :: 0 <= i < |s| ==> IsAsciiUpper(s[i]) || s[i] == ' '
  }

  /** A plain name converts to its map entry, or TEXT when unknown. */
  lemma ConvertPlain(s: string)
    requires IsPlainName(s)
    ensures Convert(s) == MapType(s)
  {
    UpperOfCapitals(s);
    StripTrimmed(s);
    ConvertUnparameterised(s);
  }

  /** A non-empty run of capitals, as a type's base name. */
  predicate IsBaseName(b: string) {
    b != [] && forall i :: 0 <= i < |b| ==> IsAsciiUpper(b[i])
  }

  /** Parameters the regex accepts: at least one character, no line break. */
  predicate IsParams(p: string) {
    p != [] && forall i :: 0 <= i < |p| ==> p[i] != '\n'
  }

  /** `BASE(p)` splits into BASE and p. */
  lemma MatchBaseParams(b: string, p: string)
    requires IsBaseName(b) && IsParams(p)
    ensures MatchParameterised(b + "(" + p + ")") == Some((b, p))
  {
    var s := b + "(" + p + ")";
    var n := |b|;
    assert s == b + ("(" + p + ")");
    BaseRunPrefix(b, "(" + p + ")");
    assert s[..n] == b;
    LineEndNoBreak(s, n + 1);
    assert CloseParen(s, n) == Some(|s| - 1);
    assert s[n + 1..|s| - 1] == p;
  }

  lemma {:induction false} BaseRunPrefix(b: string, rest: string)
    requires forall i :: 0 <= i < |b| ==> IsAsciiUpper(b[i])
    requires rest != [] && !IsBaseChar(rest[0])
    ensures BaseRun(b + rest) == |b|
  {
    if |b| > 0 {
      assert (b + rest)[1..] == b[1..] + rest;
      BaseRunPrefix(b[1..], rest);
    } else {
      assert b + rest == rest;
    }
  }

  lemma LineEndNoBreak(s: string, from: nat)
    requires from <= |s|
    requires forall i :: from <= i < |s| ==> s[i] != '\n'
    ensures LineEnd(s, from) == |s|
    decreases |s| - from
  {
    if from < |s| {
      LineEndNoBreak(s, from + 1);
    }
  }

  /** Normalising `BASE(p)` upper-cases the parameters and nothing else
      changes: the outer characters are not whitespace. */
  lemma NormaliseBaseParams(b: string, p: string)
    requires IsBaseName(b)
    ensures Upper(Strip(b + "(" + p + ")")) == b + "(" + Upper(p) + ")"
  {
    var s := b + "(" + p + ")";
    var t := b + "(" + Upper(p) + ")";
    StripTrimmed(s);
    forall i | 0 <= i < |s|
      ensures Upper(s)[i] == t[i]
    {
      if i < |b| {
        assert s[i] == b[i] && t[i] == b[i];
      } else if i == |b| {
        assert s[i] == '(' && t[i] == '(';
      } else if i < |b| + 1 + |p| {
        assert s[i] == p[i - |b| - 1] && t[i] == Upper(p)[i - |b| - 1];
      } else {
        assert s[i] == ')' && t[i] == ')';
      }
    }
    assert Upper(s) == t;
  }

  /** `BASE(p)` converts through its base name and its trimmed, upper-cased
      parameters. */
  lemma ConvertBaseParams(b: string, p: string)
    requires IsBaseName(b) && IsParams(p)
    ensures Convert(b + "(" + p + ")") == ConvertMatched(b, Strip(Upper(p)))
  {
    NormaliseBaseParams(b, p);
    UpperParams(p);
    MatchBaseParams(b, Upper(p));
    ConvertOfMatch(b + "(" + p + ")", b, Upper(p));
    BaseNameStripped(b);
  }

  lemma BaseNameStripped(b: string)
    requires IsBaseName(b)
    ensures Strip(b) == b
  {
    assert IsAsciiUpper(b[0]) && IsAsciiUpper(b[|b| - 1]);
    StripTrimmed(b);
  }

  lemma UpperParams(p: string)
    requires IsParams(p)
    ensures IsParams(Upper(p))
  {
    assert Upper(p)[0] == UpperChar(p[0]);
  }

  /** A matched type converts through its two groups. */
  lemma ConvertOfMatch(s: string, g1: string, g2: string)
    requires MatchParameterised(Upper(Strip(s))) == Some((g1, g2))
    ensures Convert(s) == ConvertMatched(Strip(g1), Strip(g2))
  {
  }

  /** `DECIMAL(p)` and `DEC(p)` become `NUMERIC(p)`, `BINARY(p)` and
      `VARBINARY(p)` become BYTEA, and any other `BASE(p)` becomes the mapped
      base (TEXT when unknown) with the same parameters; parameters are
      upper-cased and trimmed. */
  lemma ConvertParameterised(b: string, p: string)
    requires IsBaseName(b) && IsParams(p)
    ensures b in {"DECIMAL", "DEC"} ==> Convert(b + "(" + p + ")") == "NUMERIC(" + Strip(Upper(p)) + ")"
    ensures b in {"BINARY", "VARBINARY"} ==> Convert(b + "(" + p + ")") == "BYTEA"
    ensures b !in {"DECIMAL", "DEC", "BINARY", "VARBINARY"} ==>
      Convert(b + "(" + p + ")") == MapType(b) + "(" + Strip(Upper(p)) + ")"
  {
    ConvertBaseParams(b, p);
  }

  const NumericTypes: set<string> :=
    {"SMALLINT", "INTEGER", "BIGINT", "NUMERIC", "REAL", "DOUBLE PRECISION", "SERIAL", "BIGSERIAL"}

  const StringTypes: set<string> := {"CHAR", "VARCHAR", "TEXT"}

  /** The trimmed leading `[A-Z\s]` run of the upper-cased type, which is
      what `is_numeric` and `is_string` classify. */
  function BaseName(pgType: string): string {
    var u := Upper(pgType);
    Strip(u[..BaseRun(u)])
  }

  /** `is_numeric`. */
  predicate IsNumeric(pgType: string) {
    BaseName(pgType) in NumericTypes
  }

  /** `is_string`. */
  predicate IsString(pgType: string) {
    BaseName(pgType) in StringTypes
  }

  /** No type is both numeric and string-based. */
  lemma NumericNotString(pgType: string)
    ensures !(IsNumeric(pgType) && IsString(pgType))
  {
    DisjointClasses(BaseName(pgType));
  }

  /** The string type names all start with a letter no numeric type name
      starts with. */
  lemma DisjointClasses(b: string)
    ensures !(b in NumericTypes && b in StringTypes)
  {
    if b in StringTypes {
      assert b[0] in "CVT";
    }
  }

  /** A converted `DECIMAL(p)` is numeric. */
  lemma ConvertedDecimalIsNumeric(p: string)
    requires IsParams(p)
    ensures IsNumeric(Convert("DECIMAL(" + p + ")"))
  {
    var b := "DECIMAL";
    assert "DECIMAL(" + p + ")" == b + "(" + p + ")";
    ConvertBaseParams(b, p);
    NumericIsNumeric(Strip(Upper(p)));
  }

  lemma NumericIsNumeric(q: string)
    ensures IsNumeric("NUMERIC(" + q + ")")
  {
    var b := "NUMERIC";
    assert "NUMERIC(" + q + ")" == b + "(" + q + ")";
    BaseNameOf(b, q);
  }

  /** A converted `VARCHAR(n)` is string-based. */
  lemma ConvertedVarcharIsString(p: string)
    requires IsParams(p)
    ensures IsString(Convert("VARCHAR(" + p + ")"))
  {
    var b := "VARCHAR";
    assert "VARCHAR(" + p + ")" == b + "(" + p + ")";
    ConvertBaseParams(b, p);
    var q := Strip(Upper(p));
    VarcharMatched(q);
    BaseNameOf(b, q);
  }

  lemma VarcharMatched(q: string)
    ensures ConvertMatched("VARCHAR", q) == "VARCHAR" + "(" + q + ")"
  {
    assert MapType("VARCHAR") == "VARCHAR";
  }

  /** The base name of `BASE(q)` is BASE. */
  lemma BaseNameOf(b: string, q: string)
    requires IsBaseName(b)
    ensures BaseName(b + "(" + q + ")") == b
  {
    var rest := Upper("(" + q + ")");
    assert b + "(" + q + ")" == b + ("(" + q + ")");
    UpperAppend(b, "(" + q + ")");
    UpperOfCapitals(b);
    var u := b + rest;
    assert rest[0] == '(';
    BaseRunPrefix(b, rest);
    assert u[..|b|] == b;
    StripTrimmed(b);
  }
}

=== FILE: validator.dfy ===
/** `Validator`: post-migration comparisons of row counts, column names
    and positional samples, and the plain-text report. Counts, column
    lists and samples are inputs: what the connectors return. */
module Validator {
  import opened Wrappers
  import opened Text
  import opened OrderedDict

  /** The schemas each side is queried in; `MAXIMO` and `public` unless
      configured. */
  datatype Settings = Settings(db2Schema: string, pgSchema: string)

  const DefaultSettings := Settings("MAXIMO", "public")

  datatype RowCountCheck = RowCountCheck(isValid: bool, db2Count: int, pgCount: int)

  /** `validate_row_counts`: each side counted in its own schema; a raised
      error propagates. */
  function ValidateRowCounts(s: Settings, table: string,
                             db2Count: (string, string) -> Result<int, string>,
                             pgCount: (string, string) -> Result<int, string>): (r: Result<RowCountCheck, string>)
    ensures r.Ok? <==> db2Count(table, s.db2Schema).Ok? && pgCount(table, s.pgSchema).Ok?
    ensures r.Ok? ==> (r.value.db2Count == db2Count(table, s.db2Schema).value
                       && r.value.pgCount == pgCount(table, s.pgSchema).value)
    ensures r.Ok? ==> (r.value.isValid <==> r.value.db2Count == r.value.pgCount)
  {
    var a :- db2Count(table, s.db2Schema);
    var b :- pgCount(table, s.pgSchema);
    Ok(RowCountCheck(a == b, a, b))
  }

  datatype StructureCheck = StructureCheck(isValid: bool, columnCountMatch: bool, db2Columns: nat, pgColumns: nat)

  /** `validate_table_structure` over the two column-name lists. Names are
      only compared when the counts agree. */
  function ValidateTableStructure(db2Names: seq<string>, pgNames: seq<string>): (r: StructureCheck)
    ensures r.columnCountMatch <==> |db2Names| == |pgNames|
    ensures r.isValid <==> db2Names == pgNames
    ensures r.db2Columns == |db2Names| && r.pgColumns == |pgNames|
  {
    var countMatch := |db2Names| == |pgNames|;
    StructureCheck(if countMatch then db2Names == pgNames else false, countMatch, |db2Names|, |pgNames|)
  }

  datatype SampleCheck = SampleCheck(isValid: bool, samplesMatched: nat, totalSamples: nat)

  /** The number of positions below `n` where the samples agree. */
  function Agreements<R(==)>(a: seq<R>, b: seq<R>, n: nat): (k: nat)
    requires n <= |a| && n <= |b|
    ensures k <= n
  {
    if n == 0 then 0 else Agreements(a, b, n - 1) + (if a[n - 1] == b[n - 1] then 1 else 0)
  }

  /** All positions agree exactly when every one is counted. */
  lemma {:induction false} AgreementsAll<R>(a: seq<R>, b: seq<R>, n: nat)
    requires n <= |a| && n <= |b|
    ensures Agreements(a, b, n) == n <==> forall i :: 0 <= i < n ==> a[i] == b[i]
  {
    if n > 0 {
      AgreementsAll(a, b, n - 1);
    }
  }

  /** `validate_sample_data`: positional comparison over the shorter
      sample. */
  method ValidateSampleData<R(==)>(db2Data: seq<R>, pgData: seq<R>) returns (r: SampleCheck)
    ensures r.totalSamples == if |db2Data| < |pgData| then |db2Data| else |pgData|
    ensures r.samplesMatched == Agreements(db2Data, pgData, r.totalSamples)
    ensures r.samplesMatched <= r.totalSamples
    ensures r.isValid <==> forall i :: 0 <= i < r.totalSamples ==> db2Data[i] == pgData[i]
  {
    var total := if |db2Data| < |pgData| then |db2Data| else |pgData|;
    var matched := 0;
    var i := 0;
    while i < total
      invariant 0 <= i <= total
      invariant matched == Agreements(db2Data, pgData, i)
    {
      if db2Data[i] == pgData[i] {
        matched := matched + 1;
      }
      i := i + 1;
    }
    AgreementsAll(db2Data, pgData, total);
    r := SampleCheck(matched == total, matched, total);
  }

  /* ---------------- report ---------------- */

  /** One validation result as the report reads it: `is_valid` and, for
      row counts, the two counts, each possibly absent. */
  datatype Outcome = Outcome(isValid: Option<bool>, db2Count: Option<int>, pgCount: Option<int>)

  type Results = Entries<string, Entries<string, Outcome>>

  function Rule(c: char, n: nat): string {
    Repeat(c, n)
  }

  function ReportHeader(): seq<string> {
    [Rule('=', 60), "VALIDATION REPORT", Rule('=', 60), ""]
  }

  /** The status word of a result; a missing `is_valid` reads as FAIL. */
  function Status(o: Outcome): (s: string)
    ensures s == "PASS" <==> o.isValid == Some(true)
    ensures s == "FAIL" <==> o.isValid != Some(true)
  {
    if o.isValid.GetOr(false) then "PASS" else "FAIL"
  }

  /** The lines for one validation: its status, and for `row_count` the
      counts (0 when absent). */
  function CheckLines(kind: string, o: Outcome): (ls: seq<string>)
    ensures |ls| == if kind == "row_count" then 2 else 1
    ensures ls[0] == "  " + kind + ": " + Status(o)
  {
    ["  " + kind + ": " + Status(o)] +
    (if kind == "row_count" then
       ["    DB2: " + IntToString(o.db2Count.GetOr(0)) + ", PostgreSQL: " + IntToString(o.pgCount.GetOr(0))]
     else [])
  }

  function ChecksLines(checks: Entries<string, Outcome>): seq<string> {
    if |checks| == 0 then [] else CheckLines(checks[0].0, checks[0].1) + ChecksLines(checks[1..])
  }

  /** The section of one table: its title, a rule, its checks in order and
      a blank line. */
  function TableLines(name: string, checks: Entries<string, Outcome>): (ls: seq<string>)
    ensures |ls| == 3 + |ChecksLines(checks)|
    ensures ls[0] == "Table: " + name && ls[|ls| - 1] == ""
  {
    ["Table: " + name, Rule('-', 40)] + ChecksLines(checks) + [""]
  }

  function SectionsLines(results: Results): seq<string> {
    if |results| == 0 then [] else TableLines(results[0].0, results[0].1) + SectionsLines(results[1..])
  }

  function ReportLines(results: Results): seq<string> {
    ReportHeader() + SectionsLines(results)
  }

  /** `generate_validation_report`. */
  function ValidationReport(results: Results): string {
    Join("\n", ReportLines(results))
  }

  /** The number of lines a table's checks take. */
  function CheckLineCount(checks: Entries<string, Outcome>): nat {
    if |checks| == 0 then 0 else (if checks[0].0 == "row_count" then 2 else 1) + CheckLineCount(checks[1..])
  }

  lemma {:induction false} ChecksLinesCount(checks: Entries<string, Outcome>)
    ensures |ChecksLines(checks)| == CheckLineCount(checks)
  {
    if |checks| > 0 {
      ChecksLinesCount(checks[1..]);
    }
  }

  /** The section of table `i` starts right after those of the tables
      before it, with that table's title. */
  lemma {:induction false} SectionTitle(results: Results, i: nat)
    requires i < |results|
    ensures |SectionsLines(results[..i])| < |SectionsLines(results)|
    ensures SectionsLines(results)[|SectionsLines(results[..i])|] == "Table: " + results[i].0
  {
    if i == 0 {
      assert results[..0] == [];
    } else {
      SectionTitle(results[1..], i - 1);
      assert results[1..][..i - 1] == results[..i][1..];
      assert SectionsLines(results[..i]) == TableLines(results[0].0, results[0].1) + SectionsLines(results[1..][..i - 1]);
    }
  }

  /** Every line is free of line breaks when the table and check names
      are. */
  predicate PlainNames(results: Results) {
    forall i :: 0 <= i < |results| ==>
      Free(results[i].0, '\n') && forall j :: 0 <= j < |results[i].1| ==> Free(results[i].1[j].0, '\n')
  }

  lemma FreeConcat(a: string, b: string, c: char)
    requires Free(a, c) && Free(b, c)
    ensures Free(a + b, c)
  {
  }

  lemma NumeralFree(i: int)
    ensures Free(IntToString(i), '\n')
  {
    if i < 0 {
      assert IntToString(i) == "-" + NatToString(-i);
    }
  }

  lemma CheckLinesFree(kind: string, o: Outcome)
    requires Free(kind, '\n')
    ensures forall k :: 0 <= k < |CheckLines(kind, o)| ==> Free(CheckLines(kind, o)[k], '\n')
  {
    var ls := CheckLines(kind, o);
    assert Free("  ", '\n') && Free(": ", '\n');
    assert Free(Status(o), '\n');
    FreeConcat("  ", kind, '\n');
    FreeConcat("  " + kind, ": ", '\n');
    FreeConcat("  " + kind + ": ", Status(o), '\n');
    if kind == "row_count" {
      NumeralFree(o.db2Count.GetOr(0));
      NumeralFree(o.pgCount.GetOr(0));
      CountLineFree(IntToString(o.db2Count.GetOr(0)), IntToString(o.pgCount.GetOr(0)));
    }
  }

  lemma CountLineFree(a: string, b: string)
    requires Free(a, '\n') && Free(b, '\n')
    ensures Free("    DB2: " + a + ", PostgreSQL: " + b, '\n')
  {
  }

  lemma {:induction false} ChecksLinesFree(checks: Entries<string, Outcome>)
    requires forall j :: 0 <= j < |checks| ==> Free(checks[j].0, '\n')
    ensures forall k :: 0 <= k < |ChecksLines(checks)| ==> Free(ChecksLines(checks)[k], '\n')
  {
    if |checks| > 0 {
      CheckLinesFree(checks[0].0, checks[0].1);
      ChecksLinesFree(checks[1..]);
    }
  }

  lemma {:induction false} SectionsLinesFree(results: Results)
    requires PlainNames(results)
    ensures forall k :: 0 <= k < |SectionsLines(results)| ==> Free(SectionsLines(results)[k], '\n')
  {
    if |results| > 0 {
      ChecksLinesFree(results[0].1);
      FreeConcat("Table: ", results[0].0, '\n');
      assert Free(Rule('-', 40), '\n');
      assert PlainNames(results[1..]);
      SectionsLinesFree(results[1..]);
    }
  }

  /** The report reads back line by line: splitting it at line breaks
      gives the header, then each table's section in order. */
  lemma ReportSplits(results: Results)
    requires PlainNames(results)
    ensures Split(ValidationReport(results), '\n') == ReportLines(results)
  {
    SectionsLinesFree(results);
    assert Free(Rule('=', 60), '\n');
    var ls := ReportLines(results);
    assert forall k :: 0 <= k < |ls| ==> Free(ls[k], '\n');
    assert "\n" == ['\n'];
    SplitJoin(ls, '\n');
  }
}

=== FILE: view_extractor.dfy ===
/** `ViewExtractor`: SYSCAT.VIEWS rows to view records, each with its
    SYSCAT.COLUMNS rows. The two queries are oracles from their
    restriction to the rows they return. */
module ViewExtractor {
  import opened Wrappers
  import opened Catalog

  datatype ViewRow = ViewRow(viewname: string, viewschema: Option<string>, definition: string)

  datatype ViewColumnRow = ViewColumnRow(colname: string, typename: string, nulls: string)

  datatype ViewColumn = ViewColumn(name: string, typ: string, nullable: bool)

  datatype View = View(name: string, schema: Option<string>, definition: string, columns: seq<ViewColumn>)

  /** `extract_views` filters on the schema when one is given and not at
      all otherwise. */
  function ViewFilter(schema: Option<string>): (f: SchemaFilter)
    ensures Given(schema) <==> f == SchemaIs(schema.GetOr(""))
    ensures !Given(schema) <==> f == Unfiltered
  {
    if Given(schema) then SchemaIs(schema.value) else Unfiltered
  }

  /** `_extract_view_columns`: one record per row, in order. */
  function ExtractViewColumns(rows: seq<ViewColumnRow>): (cs: seq<ViewColumn>)
    ensures |cs| == |rows|
    ensures forall i :: 0 <= i < |rows| ==>
      cs[i].name == rows[i].colname && cs[i].typ == rows[i].typename && (cs[i].nullable <==> rows[i].nulls == "Y")
  {
    seq(|rows|, i requires 0 <= i < |rows| => ViewColumn(rows[i].colname, rows[i].typename, rows[i].nulls == "Y"))
  }

  /** `extract_views`: the columns of each view are looked up by name,
      within the view's schema when it has one. */
  function ExtractViews(
    schema: Option<string>,
    viewQuery: SchemaFilter -> seq<ViewRow>,
    columnQuery: (string, Option<string>) -> seq<ViewColumnRow>): (views: seq<View>)
    ensures var rows := viewQuery(ViewFilter(schema));
      && |views| == |rows|
      && forall i :: 0 <= i < |rows| ==>
        && views[i].name == rows[i].viewname
        && views[i].schema == rows[i].viewschema
        && views[i].definition == rows[i].definition
        && views[i].columns == ExtractViewColumns(columnQuery(rows[i].viewname, Scope(rows[i].viewschema)))
  {
    var rows := viewQuery(ViewFilter(schema));
    seq(|rows|, i requires 0 <= i < |rows| =>
      View(rows[i].viewname, rows[i].viewschema, rows[i].definition,
        ExtractViewColumns(columnQuery(rows[i].viewname, Scope(rows[i].viewschema)))))
  }

  /** A view whose schema is known has its columns looked up in that
      schema only. */
  lemma ColumnsInViewSchema(schema: Option<string>, viewQuery: SchemaFilter -> seq<ViewRow>,
                            columnQuery: (string, Option<string>) -> seq<ViewColumnRow>, i: nat)
    requires i < |viewQuery(ViewFilter(schema))|
    requires Given(viewQuery(ViewFilter(schema))[i].viewschema)
    ensures var row := viewQuery(ViewFilter(schema))[i];
      ExtractViews(schema, viewQuery, columnQuery)[i].columns
        == ExtractViewColumns(columnQuery(row.viewname, Some(row.viewschema.value)))
  {
  }
}

=== FILE: wrappers.dfy ===
/** Failure-carrying datatypes shared by every component of the model.
    Python's `None`, "key absent" and raised exceptions are all represented
    with these instead of preconditions that would rule them out. */
module Wrappers {

  /** A value that may be absent (`None` in Python, or a missing dict key). */
  datatype Option<+T> = None | Some(value: T) {

    /** The value, or `default` when absent: Python's `d.get(k, default)`. */
    function GetOr(default: T): T {
      match this
      case Some(v) => v
      case None => default
    }
  }

  /** The outcome of a call that can raise: a value, or the raised error. */
  datatype Result<+T, +E> = Ok(value: T) | Err(error: E) {

    predicate IsFailure() {
      Err?
    }

    function PropagateFailure<U>(): Result<U, E>
      requires Err?
    {
      Err(error)
    }

    function Extract(): T
      requires Ok?
    {
      value
    }
  }

  /** The outcome of a call that returns nothing but can raise. */
  datatype Outcome<+E> = Pass | Fail(error: E)
}
